=== FILE: README.md ===
# PomModuleDescriptorBuilder in Dafny

This project models the core of Apache Ivy's Maven 2 POM support. That core is
`PomModuleDescriptorBuilder`, the object the POM parser feeds while it walks a
`pom.xml`. The builder turns Maven data into an Ivy module descriptor. It handles:

- the module's revision id and status;
- the main and attached artifacts;
- `<dependency>` declarations, turned into Ivy dependency descriptors with
  configuration mappings, artifacts and exclude rules;
- `<dependencyManagement>` entries, stored both as records and as flat
  `m:dependency.management__…` extra infos;
- plugins, stored as one `|`-separated `m:maven.plugins` extra info;
- POM properties, stored as `m:properties__<name>` extra infos;
- the readers that decode these flat entries back into records.

Every operation is a pure function on immutable values:

- Java `null` becomes `Lang.Option`.
- A Java exception the code can raise becomes `Lang.Result.Throws`.
- The builder's state is the `Builder` datatype: the descriptor under
  construction plus the main artifact.

Modules, in dependency order:

| module | file | contents |
|---|---|---|
| `Lang`, `Seqs` | lang.dfy | `Option`, `Result`, Java's null-or-empty test, small sequence lemmas |
| `Text` | text.dfy | prefix/suffix tests, `Join`, Java's `String.split` (trailing empty parts dropped), decimal rendering of an index |
| `Keyed` | keyed.dfy | walks over a sequence whose elements may carry a key: the last value per key, and one result per keyed element with the first failure ending the walk |
| `ExtraInfos` | extra_infos.dfy | the descriptor's ordered extra-info list with first-match lookup; `addExtraInfo`, `overwriteExtraInfoIfExists`, `addExtraInfos` |
| `Confs` | confs.dfy | `MAVEN2_CONFIGURATIONS` and the scope-to-rules table of the configuration mappers |
| `PomTypes` | pom_types.dfy | module ids, the parser's records (`PomDependencyData`, `PomDependencyMgt`), artifacts, dependency descriptors, the module descriptor |
| `Codec` | codec.dfy | the extra-info key builders and their decoders, plugins, POM properties |
| `Management` | management.dfy | the dependency-management store: records, flat entries, the three readers, default version and scope |
| `MgtRoundTrip` | mgt_round_trip.dfy | what `addDependencyMgt` writes is read back by the readers |
| `DepDescriptors` | dep_descriptors.dfy | a dependency descriptor's configuration mapping, its artifacts and exclude rules |
| `PomBuilder` | builder.dfy | the builder operations |
| `BuilderProperties` | builder_lemmas.dfy | invariants and the effect of `addDependency` and `addDependencyMgt` |
| `BuilderExamples` | builder_examples.dfy | concrete runs: two declarations of one module filed in either order |

## Behaviour worth knowing

- **Status.** `setModuleRevId` sets status "integration" exactly when the
  version is null or ends with "SNAPSHOT". Otherwise the status is "release".
- **Duplicate entries.** The `depDescriptors` index is keyed by the full
  revision id, version included. A declaration is merged into the
  descriptor registered under that id only when it is a
  `DefaultDependencyDescriptor`, which the builder can augment. This is the
  `builderOwned` flag of the model. Otherwise a new descriptor is appended,
  so the dependency list can hold two entries with one revision id.
  - The model keeps only the list. The index is "the last entry with that
    revision id" (`LastIndexOf`, `PriorOf`). This works because every
    insertion into the index also appends to the list.
- **Backfilled default jar.** A non-default artifact arriving for a
  descriptor with no artifact first backfills the default jar. The jar goes
  into the descriptor's single configuration if it has exactly one.
  Otherwise it goes into the current declaration's (optionalized) scope.
  - So the order of two declarations of one module decides which
    configuration the default jar lands in.
  - `BuilderExamples.DeclarationOrderDecidesArtifacts` proves this for a
    plain compile dependency and a classified test dependency.
- **Flat management map.** When the management records are not available,
  the management map is decoded from the flat extra infos.
  - The classifier part of a key is always text: `"null"` when there was
    none.
  - The value of the map is the content of the last flat entry of that id.
    That is the version only when the entry has no scope and no exclusions.
  - The flat record list holds one record per flat entry, so one entry
    written by `addDependencyMgt` reads back as one to many equal records.
- **Round trips need `__`-safe fields.** Key parts are joined with `__` and
  split with Java's `split("__")`. A part must not contain `__`, and must
  not end with `_` either: `"a_" + "__" + "b"` splits as `"a"`, `"_b"`
  (`Text.TrailingUnderscoreAmbiguity`). The round-trip lemmas require this.

## Model

Source paths are relative to the repository root.

| member | source | states |
|---|---|---|
| `Confs.ConfigurationsWellFormed` | src/java/org/apache/ivy/plugins/parser/m2/PomModuleDescriptorBuilder.java:74-113 | the ten configurations have distinct names, every configuration they extend is declared, and extension has no cycle |
| `Confs.ScopeRules` | src/java/org/apache/ivy/plugins/parser/m2/PomModuleDescriptorBuilder.java:131-189 | each mapped scope adds at least one rule and no rule twice. Every owner is a declared configuration and every target is `compile(*)`, `provided(*)`, `runtime(*)` or `master(*)`. An optional compile/provided/runtime dependency maps only from "optional". Otherwise the owner is the scope itself, or runtime for compile |
| `Confs.OptionalIgnoredOutsideMainScopes` | src/java/org/apache/ivy/plugins/parser/m2/PomModuleDescriptorBuilder.java:176-188 | the optional flag does not change the rules of the test and system scopes |
| `Confs.TargetPatternsDeclared` | src/java/org/apache/ivy/plugins/parser/m2/PomModuleDescriptorBuilder.java:131-189 | every mapping target names a declared configuration |
| `PomBuilder.NamedConfsDeclared` | src/java/org/apache/ivy/plugins/parser/m2/PomModuleDescriptorBuilder.java:202-212 | every configuration the builder maps from or publishes into is one of the constructor's ten |
| `PomBuilder.Init` | src/java/org/apache/ivy/plugins/parser/m2/PomModuleDescriptorBuilder.java:202-212 | a new builder has no revision id and no main artifact, and satisfies the builder invariant |
| `PomBuilder.SetModuleRevId` | src/java/org/apache/ivy/plugins/parser/m2/PomModuleDescriptorBuilder.java:218-227 | sets the revision id. The status is "integration" iff the version is null or ends with "SNAPSHOT", else "release". Nothing else changes |
| `PomBuilder.AddMainArtifact` | src/java/org/apache/ivy/plugins/parser/m2/PomModuleDescriptorBuilder.java:243-276 | a "pom" packaging publishes a jar only when the resolver locates one. Any other packaging always publishes one of its own type in "master", with extension jar for the jar-like packagings, phar for pear, and the packaging itself otherwise. Only the artifact list changes, and only by that one artifact |
| `PomBuilder.AttachedArtifact` | src/java/org/apache/ivy/plugins/parser/m2/PomModuleDescriptorBuilder.java:731-756 | fails iff no revision id is set. Otherwise it is a jar named after the module, carrying exactly the attachment's classifier, of type "javadoc" for javadoc and "source" for sources and src |
| `PomBuilder.AddAttachedArtifact` | src/java/org/apache/ivy/plugins/parser/m2/PomModuleDescriptorBuilder.java:731-756 | publishes the attached artifact in its configuration, appended, and keeps the invariant. It fails iff no revision id is set |
| `PomBuilder.EffectiveScope` | src/java/org/apache/ivy/plugins/parser/m2/PomModuleDescriptorBuilder.java:279-283 | the mapped scope is always one the mapper knows. A known declared scope is kept and an unknown one becomes "compile". A missing or empty one falls back to the managed default |
| `PomBuilder.LastIndexOf` | src/java/org/apache/ivy/plugins/parser/m2/PomModuleDescriptorBuilder.java:310-318 | the index of the last descriptor with the revision id, or none iff no descriptor has it |
| `PomBuilder.PriorOf` | src/java/org/apache/ivy/plugins/parser/m2/PomModuleDescriptorBuilder.java:310-318 | a prior descriptor exists iff some descriptor has the revision id. It is the last descriptor of the list with that id, the one the index was last pointed at |
| `PomBuilder.Register` | src/java/org/apache/ivy/plugins/parser/m2/PomModuleDescriptorBuilder.java:310-321 | a mergeable prior entry is replaced in place and every other entry is kept. Otherwise the descriptor is appended. Either way the index then points at it |
| `PomBuilder.BaseDescriptor` | src/java/org/apache/ivy/plugins/parser/m2/PomModuleDescriptorBuilder.java:310-321 | a prior `DefaultDependencyDescriptor` is reused. Otherwise a fresh, empty POM dependency descriptor (itself a `DefaultDependencyDescriptor`) is made, remembering the declaration and transitive iff `*:*` is not excluded |
| `PomBuilder.AttachArtifacts` | src/java/org/apache/ivy/plugins/parser/m2/PomModuleDescriptorBuilder.java:324-363 | only the artifact list changes, and the existing artifacts stay in front. A non-default artifact (classifier, or a type other than jar) is appended last in the optionalized scope, preceded by the default jar when the prior descriptor had none, filed in the prior's single configuration or else in the scope. A default artifact adds the default jar only when a prior descriptor exists |
| `PomBuilder.AddDependency` | src/java/org/apache/ivy/plugins/parser/m2/PomModuleDescriptorBuilder.java:278-384 | a dependency on the module itself is dropped. It throws iff reading inherited exclusions throws. Otherwise only the dependency list changes, growing by at most one |
| `PomBuilder.AddDependencyDescriptor` | src/java/org/apache/ivy/plugins/parser/m2/PomModuleDescriptorBuilder.java:411-423 | a descriptor of the module itself is dropped. Any other is appended as is, and the invariant is kept for a well-formed one |
| `PomBuilder.AddDependencyMgt` | src/java/org/apache/ivy/plugins/parser/m2/PomModuleDescriptorBuilder.java:425-451 | afterwards the management lookup of the entry's id yields the entry and every other id is unaffected. The flat version key reads back the entry's version, and the scope key its scope when it has one, else what it held. Without earlier exclusion entries for the id, the flat exclusions read back as the entry's. On a store holding none of its keys, exactly the entry's version, scope and exclusion entries are appended. A version mediator for its module is appended, and only the records, flat entries and mediators change |
| `PomBuilder.AddPlugin` | src/java/org/apache/ivy/plugins/parser/m2/PomModuleDescriptorBuilder.java:453-470 | the plugin list, read by first match, is the list before with the plugin's `group__artifact__version` value appended after a `|`, or that value alone when there was no list. Every other extra info reads as before, and only the extra infos change |
| `PomBuilder.PluginInfoTouchesOnlyPlugins` | src/java/org/apache/ivy/plugins/parser/m2/PomModuleDescriptorBuilder.java:456-469 | appending a plugin value extends the plugin list by exactly that value, or creates it, and leaves every other name reading as before |
| `PomBuilder.AddProperty` | src/java/org/apache/ivy/plugins/parser/m2/PomModuleDescriptorBuilder.java:723-725 | a new property name reads back with its value. A name recorded before keeps its first value. Entries are only appended and every other name reads as before |
| `PomBuilder.AddExtraInfoList` | src/java/org/apache/ivy/plugins/parser/m2/PomModuleDescriptorBuilder.java:692-696 | entries are only appended and unique names stay unique. The names held afterwards are exactly the old and the given ones. A name held before keeps its content and a new name gets the content of its first occurrence among the given entries. Nothing else changes |
| `BuilderProperties.MappedWellFormed` | src/java/org/apache/ivy/plugins/parser/m2/PomModuleDescriptorBuilder.java:322-323 | mapping rules whose owners are declared configurations keep a descriptor well formed |
| `BuilderProperties.AttachedWellFormed` | src/java/org/apache/ivy/plugins/parser/m2/PomModuleDescriptorBuilder.java:324-363 | the artifact step keeps a descriptor well formed |
| `BuilderProperties.RulesWellFormed` | src/java/org/apache/ivy/plugins/parser/m2/PomModuleDescriptorBuilder.java:365-379 | adding the exclude rules keeps a descriptor well formed |
| `BuilderProperties.AugmentedWellFormed` | src/java/org/apache/ivy/plugins/parser/m2/PomModuleDescriptorBuilder.java:310-379 | the descriptor `addDependency` registers is well formed when its prior one is |
| `BuilderProperties.RegisterWellFormed` | src/java/org/apache/ivy/plugins/parser/m2/PomModuleDescriptorBuilder.java:381-383 | registering a well-formed descriptor keeps every entry of the list well formed |
| `BuilderProperties.AddDependencyKeepsInvariant` | src/java/org/apache/ivy/plugins/parser/m2/PomModuleDescriptorBuilder.java:278-384 | `addDependency` preserves the builder invariant |
| `BuilderProperties.AugmentedExtends` | src/java/org/apache/ivy/plugins/parser/m2/PomModuleDescriptorBuilder.java:310-379 | augmenting never loses anything: owners, artifacts and exclude rules of the base descriptor stay, in front |
| `BuilderProperties.FiledArtifacts` | src/java/org/apache/ivy/plugins/parser/m2/PomModuleDescriptorBuilder.java:324-363 | the artifacts of the descriptor `addDependency` files: the base descriptor's, then the backfilled default jar and the declared artifact with its extension and classifier, or for a default artifact the default jar only when a prior descriptor exists |
| `BuilderProperties.AddDependencyMergesIntoOwned` | src/java/org/apache/ivy/plugins/parser/m2/PomModuleDescriptorBuilder.java:310-383 | a declaration whose prior descriptor is a `DefaultDependencyDescriptor` is merged into it in place. The list keeps its length and every other entry. The merged entry keeps its id, origin, transitivity and earlier contents |
| `BuilderProperties.AddDependencyRegistersNew` | src/java/org/apache/ivy/plugins/parser/m2/PomModuleDescriptorBuilder.java:310-383 | otherwise a new POM dependency descriptor is appended. It remembers the declaration, is transitive iff `*:*` is not excluded, and becomes the one the index points at |
| `BuilderProperties.FiledDescriptorApplies` | src/java/org/apache/ivy/plugins/parser/m2/PomModuleDescriptorBuilder.java:322-379 | the filed descriptor maps every rule of its scope. It excludes every concrete excluded module in every one of its configurations |
| `BuilderProperties.ManagedDefaults` | src/java/org/apache/ivy/plugins/parser/m2/PomModuleDescriptorBuilder.java:279-306 | after `addDependencyMgt`, a declaration of the same id without its own version, scope or exclusions takes the managed ones. A managed scope the mapper does not know becomes "compile" |
| `BuilderExamples.FirstDeclaration` | src/java/org/apache/ivy/plugins/parser/m2/PomModuleDescriptorBuilder.java:278-384 | on a fresh builder, a plain compile dependency and a classified test dependency each file the expected descriptor |
| `BuilderExamples.SecondDeclaration` | src/java/org/apache/ivy/plugins/parser/m2/PomModuleDescriptorBuilder.java:310-363 | the second declaration of the same revision merges into the first, with the expected mapping and artifacts |
| `BuilderExamples.DeclarationOrderDecidesArtifacts` | src/java/org/apache/ivy/plugins/parser/m2/PomModuleDescriptorBuilder.java:324-363 | the two orders of the same two declarations give the same mapping. The default jar lands in "test" in one order and in "compile" in the other |
| `DepDescriptors.AddDependencyConfiguration` | src/java/org/apache/ivy/plugins/parser/m2/PomModuleDescriptorBuilder.java:131-189 | a mapping rule is added: the mapping gains exactly that pair, a new owner is appended at the end, and well-formedness is kept |
| `DepDescriptors.AddMappingConfs` | src/java/org/apache/ivy/plugins/parser/m2/PomModuleDescriptorBuilder.java:322-323 | the mapping afterwards is the old one plus exactly the rules. Old owners stay in front and the owners are the old ones plus the rules' owners |
| `DepDescriptors.InsertRuleMaps` | src/java/org/apache/ivy/plugins/parser/m2/PomModuleDescriptorBuilder.java:131-189 | inserting a rule adds exactly that pair to the mapping |
| `DepDescriptors.ClassifiedDepArtifact` | src/java/org/apache/ivy/plugins/parser/m2/PomModuleDescriptorBuilder.java:335-357 | the dependency artifact has the declared type (jar by default). Its extension is jar for test-jar and the jar-like types, and the type itself otherwise. It carries a classifier attribute iff a classifier is declared or the type is test-jar, holding the declared classifier |
| `DepDescriptors.NonDefaultIffOtherFile` | src/java/org/apache/ivy/plugins/parser/m2/PomModuleDescriptorBuilder.java:386-388 | a declaration is non-default iff its artifact is a different file from the default jar |
| `DepDescriptors.TestJarArtifact` | src/java/org/apache/ivy/plugins/parser/m2/PomModuleDescriptorBuilder.java:340-346 | an unclassified test-jar becomes a jar with classifier "tests" |
| `DepDescriptors.ExcludesAll` | src/java/org/apache/ivy/plugins/parser/m2/PomModuleDescriptorBuilder.java:396-409 | all transitive dependencies are excluded iff `*:*` is among the exclusions |
| `DepDescriptors.RulesForModule` | src/java/org/apache/ivy/plugins/parser/m2/PomModuleDescriptorBuilder.java:365-379 | one exclude rule per configuration for a module, in configuration order |
| `DepDescriptors.RulesFor` | src/java/org/apache/ivy/plugins/parser/m2/PomModuleDescriptorBuilder.java:365-379 | a rule is present iff its configuration is an owner and its target is a concrete excluded module. There is one per pair |
| `DepDescriptors.ExcludeRules` | src/java/org/apache/ivy/plugins/parser/m2/PomModuleDescriptorBuilder.java:365-379 | the nested loop computes exactly those rules |
| `ExtraInfos.FindFrom` | src/java/org/apache/ivy/plugins/parser/m2/PomModuleDescriptorBuilder.java:679-690 | returns the first entry with the name at or after the start, or none iff there is none |
| `ExtraInfos.AddExtraInfo` | src/java/org/apache/ivy/plugins/parser/m2/PomModuleDescriptorBuilder.java:673-677 | the name is present afterwards and entries are only appended. A name held before keeps its content, a new one gets the given content, other names are unaffected, and unique names stay unique |
| `ExtraInfos.AddExtraInfoIdempotent` | src/java/org/apache/ivy/plugins/parser/m2/PomModuleDescriptorBuilder.java:673-677 | a second insertion of the same name does nothing |
| `ExtraInfos.Overwrite` | src/java/org/apache/ivy/plugins/parser/m2/PomModuleDescriptorBuilder.java:679-690 | the name reads back with the new content and other names are unaffected. A missing name is appended; otherwise only contents change |
| `ExtraInfos.OverwriteAbsent` | src/java/org/apache/ivy/plugins/parser/m2/PomModuleDescriptorBuilder.java:679-690 | overwriting a missing name appends exactly one entry |
| `ExtraInfos.OverwriteIdempotent` | src/java/org/apache/ivy/plugins/parser/m2/PomModuleDescriptorBuilder.java:679-690 | overwriting twice with the same content equals overwriting once |
| `ExtraInfos.AddExtraInfos` | src/java/org/apache/ivy/plugins/parser/m2/PomModuleDescriptorBuilder.java:692-696 | entries are only appended and unique names stay unique. Read by first match, the result answers every name as the old entries followed by all the given ones do: an old name keeps its content, and a new name gets the content of its first occurrence among the given entries |
| `ExtraInfos.ContentOfConcat` | src/java/org/apache/ivy/plugins/parser/m2/PomModuleDescriptorBuilder.java:673-690 | lookup in a concatenation finds the first part's entry when it has one, else the second's |
| `Codec.MgtKeySplits` | src/java/org/apache/ivy/plugins/parser/m2/PomModuleDescriptorBuilder.java:552-574 | a management key with `__`-safe parts splits back into its five parts and decodes to its id, the classifier as text |
| `Codec.FieldKeysDecode` | src/java/org/apache/ivy/plugins/parser/m2/PomModuleDescriptorBuilder.java:552-563 | the version and scope keys decode to the entry's id |
| `Codec.ExclusionKeyDecodes` | src/java/org/apache/ivy/plugins/parser/m2/PomModuleDescriptorBuilder.java:568-574 | every exclusion key decodes to the entry's id |
| `Codec.ExclusionRoundTrip` | src/java/org/apache/ivy/plugins/parser/m2/PomModuleDescriptorBuilder.java:440-442 | an exclusion written as `org__name` reads back as the same module |
| `Codec.MgtKeysDistinct` | src/java/org/apache/ivy/plugins/parser/m2/PomModuleDescriptorBuilder.java:552-574 | the version and scope keys of an entry differ from each other and from every exclusion key |
| `Codec.ExclusionKeysDistinct` | src/java/org/apache/ivy/plugins/parser/m2/PomModuleDescriptorBuilder.java:436-444 | different exclusion indexes give different keys |
| `Codec.DecodePlugins` | src/java/org/apache/ivy/plugins/parser/m2/PomModuleDescriptorBuilder.java:472-484 | the read succeeds iff every value splits into at least three parts. Then it yields one plugin per value, the i-th decoded from the i-th value |
| `Codec.DecodePluginValues` | src/java/org/apache/ivy/plugins/parser/m2/PomModuleDescriptorBuilder.java:472-484 | the values of safe plugins decode to their `PomPluginElement`s, in order |
| `Codec.PluginsRoundTrip` | src/java/org/apache/ivy/plugins/parser/m2/PomModuleDescriptorBuilder.java:453-484 | plugins added to a store without a plugin list are read back in insertion order, with the same coordinates |
| `Codec.PluginListExtended` | src/java/org/apache/ivy/plugins/parser/m2/PomModuleDescriptorBuilder.java:453-470 | after `addPlugin` the plugin list is the list before with the plugin's value appended after a `|`, or the value alone when there was no list |
| `Codec.PluginListGrows` | src/java/org/apache/ivy/plugins/parser/m2/PomModuleDescriptorBuilder.java:453-470 | a plugin list holding the values of earlier plugins, after more plugins are added, holds the values of all of them, in order |
| `Codec.PluginsExtendRoundTrip` | src/java/org/apache/ivy/plugins/parser/m2/PomModuleDescriptorBuilder.java:453-484 | plugins added to a store whose list holds earlier plugins are read back after them, in insertion order |
| `Codec.ExtractPomProperties` | src/java/org/apache/ivy/plugins/parser/m2/PomModuleDescriptorBuilder.java:711-721 | it throws iff some `m:properties` entry is too short to cut. Otherwise the property names are exactly the cut names of those entries, and each maps to the content of the last entry with that name |
| `Codec.PropertyKeyRoundTrip` | src/java/org/apache/ivy/plugins/parser/m2/PomModuleDescriptorBuilder.java:565-567 | every property key is tagged and cuts back to the property name |
| `Codec.AddPropertyExtracted` | src/java/org/apache/ivy/plugins/parser/m2/PomModuleDescriptorBuilder.java:711-725 | adding a new property and extracting yields the old properties plus that one |
| `Management.PutMgt` | src/java/org/apache/ivy/plugins/parser/m2/PomModuleDescriptorBuilder.java:792-795 | the record map then yields the entry for its id and is unchanged for every other id. It grows only for a new id and keeps ids unique |
| `Management.MgtIndexCharacterized` | src/java/org/apache/ivy/plugins/parser/m2/PomModuleDescriptorBuilder.java:792-795 | the lookup finds the first record with the id |
| `Management.ExclusionEntries` | src/java/org/apache/ivy/plugins/parser/m2/PomModuleDescriptorBuilder.java:436-444 | one entry per excluded module, keyed by its index and holding `org__name` |
| `Management.ScanExclusions` | src/java/org/apache/ivy/plugins/parser/m2/PomModuleDescriptorBuilder.java:583-598 | the scan throws iff an entry under the exclusion prefix has no content |
| `Management.ScanExclusionsSound` | src/java/org/apache/ivy/plugins/parser/m2/PomModuleDescriptorBuilder.java:583-598 | every module the scan returns is named by an entry under the prefix |
| `Management.ScanExclusionsComplete` | src/java/org/apache/ivy/plugins/parser/m2/PomModuleDescriptorBuilder.java:583-598 | every entry under the prefix that decodes contributes its module |
| `Management.Exclusions` | src/java/org/apache/ivy/plugins/parser/m2/PomModuleDescriptorBuilder.java:576-603 | a POM descriptor with a record for the id answers the record's exclusions. Otherwise the read throws iff an entry under the id's exclusion prefix has no content, every module returned is named by such an entry, and every such entry that names a module contributes it |
| `Management.FlatMgtMapKeys` | src/java/org/apache/ivy/plugins/parser/m2/PomModuleDescriptorBuilder.java:613-626 | an id is a key of the flat map iff some entry's key decodes to it |
| `Management.FlatMgtMapValues` | src/java/org/apache/ivy/plugins/parser/m2/PomModuleDescriptorBuilder.java:613-626 | each key maps to the content of the last entry whose key decodes to it |
| `Management.MgtVersions` | src/java/org/apache/ivy/plugins/parser/m2/PomModuleDescriptorBuilder.java:605-611 | the keys are exactly the managed ids, each mapped to its record's version |
| `Management.DependencyManagementMap` | src/java/org/apache/ivy/plugins/parser/m2/PomModuleDescriptorBuilder.java:605-629 | for a POM descriptor, the keys are the managed ids, each with its record's version. Otherwise the keys are the ids the flat entries decode to, each with the content of the last entry of that id |
| `Management.FlatRecordsShape` | src/java/org/apache/ivy/plugins/parser/m2/PomModuleDescriptorBuilder.java:637-662 | a successful flat read yields one record per decodable entry, each built from that entry's version, scope and exclusions |
| `Management.FlatRecordsThrow` | src/java/org/apache/ivy/plugins/parser/m2/PomModuleDescriptorBuilder.java:637-662 | the flat read throws iff the record of some decodable entry throws |
| `Management.FlatRecordsPositions` | src/java/org/apache/ivy/plugins/parser/m2/PomModuleDescriptorBuilder.java:637-662 | the decodable entry `i` gives the record at the index that counts the decodable entries before it |
| `Management.DependencyManagementsFlat` | src/java/org/apache/ivy/plugins/parser/m2/PomModuleDescriptorBuilder.java:631-664 | on a generic descriptor, the read throws iff the record of some decodable flat entry throws. Otherwise there is one record per decodable entry, in store order, each read back from the flat store for that entry's id |
| `Management.DefaultScope` | src/java/org/apache/ivy/plugins/parser/m2/PomModuleDescriptorBuilder.java:535-550 | always a scope the mapper knows: the managed scope when the mapper knows it, else "compile" |
| `MgtRoundTrip.WriteMgtInfosAppends` | src/java/org/apache/ivy/plugins/parser/m2/PomModuleDescriptorBuilder.java:425-444 | on a store holding none of the keys it writes, `addDependencyMgt` appends exactly the entry's version, scope and exclusion entries |
| `MgtRoundTrip.MgtFieldsWritten` | src/java/org/apache/ivy/plugins/parser/m2/PomModuleDescriptorBuilder.java:427-435 | on any store, the version key then holds the entry's version, and the scope key its scope when it has one, else what it held. Exclusion entries are not created, and on a store without these keys both are appended |
| `MgtRoundTrip.WriteExclusionsKeeps` | src/java/org/apache/ivy/plugins/parser/m2/PomModuleDescriptorBuilder.java:436-444 | the exclusion loop leaves every name outside the exclusion prefix reading as before |
| `MgtRoundTrip.WriteExclusionsAppends` | src/java/org/apache/ivy/plugins/parser/m2/PomModuleDescriptorBuilder.java:436-444 | the exclusion loop appends one fresh entry per module |
| `MgtRoundTrip.ScanExclusionEntries` | src/java/org/apache/ivy/plugins/parser/m2/PomModuleDescriptorBuilder.java:583-598 | scanning the written exclusion entries yields the excluded modules, in order |
| `MgtRoundTrip.VersionReadBack` | src/java/org/apache/ivy/plugins/parser/m2/PomModuleDescriptorBuilder.java:427-430 | on any store, the version written reads back under the version key |
| `MgtRoundTrip.ScopeReadBack` | src/java/org/apache/ivy/plugins/parser/m2/PomModuleDescriptorBuilder.java:431-435 | on any store, a scope written reads back under the scope key; without one, the key reads as before |
| `MgtRoundTrip.ExclusionsReadBack` | src/java/org/apache/ivy/plugins/parser/m2/PomModuleDescriptorBuilder.java:436-444 | on a store without earlier exclusion entries for the id, the exclusions written read back, in order, through the exclusion scan |
| `MgtRoundTrip.FlatRecordReadBack` | src/java/org/apache/ivy/plugins/parser/m2/PomModuleDescriptorBuilder.java:637-662 | the flat record of the written id holds the written version, scope (or the earlier one) and exclusions |
| `MgtRoundTrip.MgtMapRoundTrip` | src/java/org/apache/ivy/plugins/parser/m2/PomModuleDescriptorBuilder.java:605-629 | on any store without the entry's keys, the flat management map afterwards is the map before, updated at the entry's id to the last written content |
| `MgtRoundTrip.MgtRecordsRoundTrip` | src/java/org/apache/ivy/plugins/parser/m2/PomModuleDescriptorBuilder.java:631-664 | on any store without the entry's keys, the flat record list afterwards is the records of the earlier entries followed by the written record, once per written entry |
| `MgtRoundTrip.MgtRecordsFresh` | src/java/org/apache/ivy/plugins/parser/m2/PomModuleDescriptorBuilder.java:425-664 | on a store with no management entries, the flat record list is the entry itself (classifier dropped), once per written entry |
| `MgtRoundTrip.StoredDefaults` | src/java/org/apache/ivy/plugins/parser/m2/PomModuleDescriptorBuilder.java:524-550 | without a managed record, a declaration of the written module gets the written version as default version, and the written scope when the mapper knows it, else "compile", as default scope |
| `MgtRoundTrip.MgtFlatRoundTrip` | src/java/org/apache/ivy/plugins/parser/m2/PomModuleDescriptorBuilder.java:425-664 | all the read-backs of one written management entry at once, on any store without the entry's keys |
| `Text.SplitJoin` | src/java/org/apache/ivy/plugins/parser/m2/PomModuleDescriptorBuilder.java:617 | splitting the join of parts that do not contain or straddle the delimiter gives the parts back |
| `Text.JavaSplitJoin` | src/java/org/apache/ivy/plugins/parser/m2/PomModuleDescriptorBuilder.java:478-479 | the same for Java's split, which drops trailing empty parts |
| `Text.UnderscoreSplitJoin` | src/java/org/apache/ivy/plugins/parser/m2/PomModuleDescriptorBuilder.java:593 | `__`-joined safe parts split back into the same parts |
| `Text.TrailingUnderscoreAmbiguity` | src/java/org/apache/ivy/plugins/parser/m2/PomModuleDescriptorBuilder.java:552-556 | a part ending in `_` does not survive the `__` round trip |
| `Text.NatToStringInjective` | src/java/org/apache/ivy/plugins/parser/m2/PomModuleDescriptorBuilder.java:440-443 | different exclusion indexes render as different decimal strings |

## Left out

- The resolver lookup in `addMainArtifact` (lines 243-276) is a parameter,
  `ResolverAnswer`: no resolver, located, or not located. The artifact
  report, its download and the settings are not part of this model.
- Publication dates, log messages, the XML namespace registration and the
  mapping-override flag the constructor sets (line 209) are left out. They
  do not change the descriptor's content as modelled.
- `setHomePage`, `setDescription` and `setLicenses` (lines 229-241) only store
  their values and are left out.
- Configuration descriptions and visibility are left out. The model keeps
  each configuration's name and the configurations it extends.
- The deprecated `Map` overloads `addExtraInfos(Map)` and
  `extractPomProperties(Map)` (lines 666-671, 698-709) are left out. They
  behave like the list versions that are modelled, over an unordered map.
- Ivy's `DefaultDependencyDescriptor`, `DefaultModuleDescriptor` and
  `ModuleRevisionId` are not part of this model. Their behaviour as the
  builder relies on it is modelled directly:
  - a configuration mapping is an ordered owner list without duplicate
    targets;
  - extra-info lookup returns the first match;
  - revision ids compare by value.
- The order of `HashMap`/`LinkedHashMap` iteration is not modelled. The
  flat management map and the property map are maps, and the order of the
  records is the order of the entries.
- Object identity of the `depDescriptors` values is modelled as a position
  in the dependency list.
- A `null` packaging makes `addMainArtifact` throw in the source. The model
  takes a string.
- A `null` element inside an exclusion list is not modelled: excluded
  modules are values.
- The `Resource` argument of `addDependency` only feeds error messages and is
  dropped.
- `getMainArtifact`, `getModuleDescriptor` and the other getters return
  state the model exposes as fields.
- `PomDependencyDescriptor` (lines 762-780) is modelled as the descriptor's
  `origin` field.
- MgtRoundTrip.MgtMapRoundTrip: stated only for `__`-safe coordinates, on
  a store that holds none of the keys the entry writes, for the reasons
  given for `MgtRoundTrip.MgtFlatRoundTrip` below.
- MgtRoundTrip.MgtRecordsRoundTrip: stated only for `__`-safe coordinates
  and exclusions, on a store that holds none of the keys the entry writes,
  for the reasons given for `MgtRoundTrip.MgtFlatRoundTrip` below.
- MgtRoundTrip.MgtFlatRoundTrip: the round trip is stated only for
  `__`-safe coordinates and exclusions, on a store that holds none of the
  keys the entry writes. Arbitrary text can be split differently. Keys
  written earlier for the same id are overwritten in place, so the readers
  then see the old entries' positions.
- Codec.PluginsRoundTrip: stated only for plugins whose coordinates and
  version text are `__`-safe and contain no `|`, on a store without a plugin
  list. `Codec.PluginsExtendRoundTrip` covers a list that holds earlier
  plugins' values. A list holding other text is not covered: Java's split
  drops trailing empty parts, so such a list can read back differently.
  Other text can also split into a different number of parts. A missing
  version is written as the text "null" and reads back as that text, as in
  the source.
- Management.FlatRecordsShape: says only that each record is the flat
  record of one of the entries, and how many there are.
  `Management.FlatRecordsPositions` and `Management.FlatRecordsThrow` give
  which entry each record belongs to and when the read throws.
- The `force` and `changing` flags of a dependency descriptor are not
  modelled. A `PomDependencyDescriptor` is created forced and not
  changing (line 768), and the builder never reads either flag back.
- An artifact does not carry its owner's revision id. The source builds the
  main artifact from the builder's `mrid`, which is null before
  `setModuleRevId`; that case is not modelled.

=== FILE: builder.dfy ===
/** `PomModuleDescriptorBuilder`: the operations a POM parser calls, one by
    one, to turn a POM into a module descriptor. Every operation takes the
    builder and gives back the next one; an operation that throws gives
    back the exception instead. */
module PomBuilder {
  import opened Lang
  import opened Text
  import opened ExtraInfos
  import opened PomTypes
  import opened Codec
  import opened Confs
  import opened Management
  import opened DepDescriptors
  import opened MgtRoundTrip

  // ----- The descriptor invariant -----

  /** A dependency descriptor as the builder leaves it: a well-formed
      mapping whose owners are declared configurations, artifacts attached
      to declared configurations, and exclude rules only in owner
      configurations. */
  predicate DescriptorWellFormed(dd: DepDescriptor) {
    && WellFormedConfs(dd.confs)
    && (forall i :: 0 <= i < |dd.confs| ==> IsConfName(dd.confs[i].owner))
    && (forall i :: 0 <= i < |dd.artifacts| ==> IsConfName(dd.artifacts[i].conf))
    && (forall i :: 0 <= i < |dd.excludes| ==> HasOwner(dd.confs, dd.excludes[i].conf))
  }

  /** What every builder operation keeps: the main artifact, once set, is
      published in "master"; published artifacts sit in declared
      configurations; every dependency descriptor is well formed; and the
      management map holds one record per classified id. */
  predicate Invariant(b: Builder) {
    && (b.mainArtifact.Some? ==> ConfArtifact("master", b.mainArtifact.value) in b.md.artifacts)
    && (forall i :: 0 <= i < |b.md.artifacts| ==> IsConfName(b.md.artifacts[i].conf))
    && (forall i :: 0 <= i < |b.md.dependencies| ==> DescriptorWellFormed(b.md.dependencies[i]))
    && UniqueIds(b.md.mgts)
  }

  /** The configurations the builder publishes into or maps from are declared. */
  lemma NamedConfsDeclared(s: string)
    requires IsMappedScope(s) || s == "master" || s == "sources" || s == "javadoc" || s == "optional"
    ensures IsConfName(s)
  {
    assert Maven2Configurations[1].name == "master";
    assert Maven2Configurations[2].name == "compile";
    assert Maven2Configurations[3].name == "provided";
    assert Maven2Configurations[4].name == "runtime";
    assert Maven2Configurations[5].name == "test";
    assert Maven2Configurations[6].name == "system";
    assert Maven2Configurations[7].name == "sources";
    assert Maven2Configurations[8].name == "javadoc";
    assert Maven2Configurations[9].name == "optional";
  }

  // ----- Construction and module identity -----

  /** The constructor: an empty descriptor (its ten configurations are the
      constant `Maven2Configurations`) and no main artifact. */
  function Init(): (b: Builder)
    ensures Invariant(b)
    ensures b.md.revision.None? && b.mainArtifact.None?
  {
    Builder(Descriptor(None, None, [], [], [], [], []), None)
  }

  /** `setModuleRevId`: sets the revision id, and the status "integration"
      for a missing or SNAPSHOT version, "release" otherwise. */
  function SetModuleRevId(b: Builder, groupId: string, artifactId: string, version: Option<string>): (r: Builder)
    ensures r.md.revision == Some(RevisionId(groupId, artifactId, version))
    ensures r.md.status == Some("integration") <==> version.None? || EndsWith(version.value, "SNAPSHOT")
    ensures r.md.status == Some("release") <==> !(version.None? || EndsWith(version.value, "SNAPSHOT"))
    ensures r.md.(revision := b.md.revision, status := b.md.status) == b.md && r.mainArtifact == b.mainArtifact
    ensures Invariant(b) ==> Invariant(r)
  {
    var status := if version.None? || EndsWith(version.value, "SNAPSHOT") then "integration" else "release";
    b.(md := b.md.(revision := Some(RevisionId(groupId, artifactId, version)), status := Some(status)))
  }

  // ----- The module's own artifacts -----

  /** What the settings' resolver says about the default jar of a "pom"
      packaging: there is no resolver, or it locates the jar, or it does not. */
  datatype ResolverAnswer = NoResolver | Located | NotLocated

  /** The extension of the main artifact for a packaging. */
  function MainArtifactExt(packaging: string): string {
    if packaging in JarPackagings then "jar"
    else if packaging == "pear" then "phar"
    else packaging
  }

  /** `addMainArtifact`. A "pom" packaging publishes the default jar only
      when the resolver locates it; any other packaging publishes an
      artifact of that type in "master", with the extension its packaging
      implies. Only the artifacts and the main artifact change. */
  function AddMainArtifact(b: Builder, artifactId: string, packaging: string, resolver: ResolverAnswer): (r: Builder)
    ensures r.md.(artifacts := b.md.artifacts) == b.md
    ensures packaging == "pom" && resolver != Located ==> r == b
    ensures packaging == "pom" && resolver == Located ==>
              r.mainArtifact == Some(Artifact(artifactId, "jar", "jar", map[]))
    ensures packaging != "pom" ==>
              r.mainArtifact.Some? && r.mainArtifact.value.name == artifactId && r.mainArtifact.value.artType == packaging
    ensures packaging != "pom" && packaging in JarPackagings ==> r.mainArtifact.value.ext == "jar"
    ensures packaging == "pear" ==> r.mainArtifact.value.ext == "phar"
    ensures packaging != "pom" && packaging !in JarPackagings && packaging != "pear" ==> r.mainArtifact.value.ext == packaging
    ensures !(packaging == "pom" && resolver != Located) ==>
              r.mainArtifact.Some? && r.md.artifacts == b.md.artifacts + [ConfArtifact("master", r.mainArtifact.value)]
    ensures Invariant(b) ==> Invariant(r)
  {
    NamedConfsDeclared("master");
    if packaging == "pom" then
      if resolver == Located then
        var a := Artifact(artifactId, "jar", "jar", map[]);
        Builder(b.md.(artifacts := b.md.artifacts + [ConfArtifact("master", a)]), Some(a))
      else b
    else
      var a := Artifact(artifactId, packaging, MainArtifactExt(packaging), map[]);
      Builder(b.md.(artifacts := b.md.artifacts + [ConfArtifact("master", a)]), Some(a))
  }

  /** The attached artifacts: `getSourceArtifact`, `getSrcArtifact`, `getJavadocArtifact`. */
  datatype Attachment = Sources | Src | Javadoc

  /** The classifier an attachment is published under. */
  function AttachmentClassifier(kind: Attachment): string {
    match kind
    case Sources => "sources"
    case Src => "src"
    case Javadoc => "javadoc"
  }

  /** The configuration an attachment is published in. */
  function AttachmentConf(kind: Attachment): string {
    if kind == Javadoc then "javadoc" else "sources"
  }

  /** `getSourceArtifact` and its siblings: a jar named after the module,
      of type "source" (or "javadoc"), carrying the classifier. Before the
      revision id is set the module name is read from `null` and throws. */
  function AttachedArtifact(b: Builder, kind: Attachment): (r: Result<Artifact>)
    ensures r.Throws? <==> b.md.revision.None?
    ensures r.Ok? ==> r.value.name == b.md.revision.value.name && r.value.ext == "jar"
    ensures r.Ok? ==> r.value.extra == map[ClassifierAttribute := AttachmentClassifier(kind)]
    ensures r.Ok? ==> r.value.artType == if kind == Javadoc then "javadoc" else "source"
  {
    if b.md.revision.None? then Throws(NullPointer)
    else
      var artType := if kind == Javadoc then "javadoc" else "source";
      Ok(Artifact(b.md.revision.value.name, artType, "jar", map[ClassifierAttribute := AttachmentClassifier(kind)]))
  }

  /** `addSourceArtifact`, `addSrcArtifact`, `addJavadocArtifact`: publish the
      attached artifact in "sources" (or "javadoc"); nothing else changes. */
  function AddAttachedArtifact(b: Builder, kind: Attachment): (r: Result<Builder>)
    ensures r.Throws? <==> b.md.revision.None?
    ensures r.Ok? ==> r.value.mainArtifact == b.mainArtifact && r.value.md.(artifacts := b.md.artifacts) == b.md
    ensures r.Ok? ==> r.value.md.artifacts == b.md.artifacts + [ConfArtifact(AttachmentConf(kind), AttachedArtifact(b, kind).value)]
    ensures Invariant(b) && r.Ok? ==> Invariant(r.value)
  {
    NamedConfsDeclared(AttachmentConf(kind));
    match AttachedArtifact(b, kind)
    case Throws(x) => Throws(x)
    case Ok(a) => Ok(b.(md := b.md.(artifacts := b.md.artifacts + [ConfArtifact(AttachmentConf(kind), a)])))
  }

  // ----- Dependencies -----

  /** The module being built is `mid` itself. */
  predicate IsSelf(md: Descriptor, mid: ModuleId) {
    md.revision.Some? && md.revision.value.Module() == mid
  }

  /** The version `addDependency` uses: the declared one, or the managed
      default when the declaration has none or an empty one. */
  function EffectiveVersion(md: Descriptor, dep: DependencyData): Option<string> {
    if IsNullOrEmpty(dep.version) then DefaultVersion(md.mgts, md.infos, dep) else dep.version
  }

  /** The revision id `addDependency` files the dependency under. */
  function DependencyRevision(md: Descriptor, dep: DependencyData): RevisionId {
    RevisionId(dep.groupId, dep.artifactId, EffectiveVersion(md, dep))
  }

  /** The scope `addDependency` maps: a declared scope the mapping does not
      know becomes "compile"; a missing or empty one becomes the managed
      default. The result always has a mapping. */
  function EffectiveScope(md: Descriptor, dep: DependencyData): (s: string)
    ensures IsMappedScope(s)
    ensures dep.scope.Some? && IsMappedScope(dep.scope.value) ==> s == dep.scope.value
    ensures !IsNullOrEmpty(dep.scope) && !IsMappedScope(dep.scope.value) ==> s == "compile"
    ensures IsNullOrEmpty(dep.scope) ==> s == DefaultScope(md.mgts, md.infos, dep)
  {
    var declared := if !IsNullOrEmpty(dep.scope) && !IsMappedScope(dep.scope.value) then Some("compile") else dep.scope;
    if IsNullOrEmpty(declared) then DefaultScope(md.mgts, md.infos, dep) else declared.value
  }

  /** The exclusions `addDependency` applies: the declared ones, or, when the
      declaration has none, the managed ones (which may throw). */
  function EffectiveExclusions(md: Descriptor, dep: DependencyData): Result<seq<ModuleId>> {
    if |dep.excluded| == 0 then Exclusions(PomView(md.mgts, md.infos), dep.groupId, dep.artifactId, dep.classifier)
    else Ok(dep.excluded)
  }

  /** The `depDescriptors` index: the position of the last registered
      descriptor for `rid`. */
  function LastIndexOf(deps: seq<DepDescriptor>, rid: RevisionId): (r: Option<nat>)
    decreases |deps|
    ensures r.Some? ==> r.value < |deps| && deps[r.value].revision == rid
    ensures r.Some? ==> forall j :: r.value < j < |deps| ==> deps[j].revision != rid
    ensures r.None? ==> forall j :: 0 <= j < |deps| ==> deps[j].revision != rid
  {
    if |deps| == 0 then None
    else if deps[|deps| - 1].revision == rid then Some(|deps| - 1)
    else LastIndexOf(deps[..|deps| - 1], rid)
  }

  /** The descriptor registered before for `rid`, the one the index points at. */
  function PriorOf(deps: seq<DepDescriptor>, rid: RevisionId): (r: Option<DepDescriptor>)
    ensures r.Some? <==> exists j :: 0 <= j < |deps| && deps[j].revision == rid
    ensures r.Some? ==> r.value.revision == rid && r.value in deps
    ensures r.Some? ==> exists k :: 0 <= k < |deps| && deps[k] == r.value && forall j :: k < j < |deps| ==> deps[j].revision != rid
  {
    match LastIndexOf(deps, rid)
    case None => None
    case Some(k) => Some(deps[k])
  }

  /** The builder may augment the prior descriptor for `rid` in place: it
      exists and is a `DefaultDependencyDescriptor`. */
  predicate Mergeable(deps: seq<DepDescriptor>, rid: RevisionId) {
    PriorOf(deps, rid).Some? && PriorOf(deps, rid).value.builderOwned
  }

  /** Files `dd` under `rid`: in the prior descriptor's place when the builder
      may augment it, at the end otherwise. Either way the index then points
      at `dd` and every other entry stays. */
  function Register(deps: seq<DepDescriptor>, rid: RevisionId, dd: DepDescriptor): (r: seq<DepDescriptor>)
    requires dd.revision == rid
    ensures Mergeable(deps, rid) ==>
              var k := LastIndexOf(deps, rid).value;
              |r| == |deps| && r[k] == dd && forall j :: 0 <= j < |deps| && j != k ==> r[j] == deps[j]
    ensures !Mergeable(deps, rid) ==> |r| == |deps| + 1 && r[..|deps|] == deps && r[|deps|] == dd
    ensures LastIndexOf(r, rid).Some? && r[LastIndexOf(r, rid).value] == dd
  {
    var existing := LastIndexOf(deps, rid);
    if Mergeable(deps, rid) then
      var r := deps[existing.value := dd];
      assert LastIndexOf(r, rid) == existing by {
        LastIndexOfSameRevisions(r, deps, rid);
      }
      r
    else
      var r := deps + [dd];
      assert r[..|deps|] == deps;
      r
  }

  lemma LastIndexOfSameRevisions(a: seq<DepDescriptor>, b: seq<DepDescriptor>, rid: RevisionId)
    requires |a| == |b| && forall j :: 0 <= j < |a| ==> a[j].revision == b[j].revision
    ensures LastIndexOf(a, rid) == LastIndexOf(b, rid)
  {
    var ra := LastIndexOf(a, rid);
    var rb := LastIndexOf(b, rid);
    if ra.Some? && rb.Some? {
      assert !(ra.value < rb.value) && !(rb.value < ra.value);
    }
  }

  /** The artifact step of `addDependency` on descriptor `dd`, where `prior`
      is the descriptor registered before for the same revision id. A
      non-default artifact first backfills the default jar when the prior
      descriptor has no artifact (in its only configuration, or else in the
      optionalized scope), then adds itself; a default artifact is added
      explicitly only when a prior descriptor exists. */
  function AttachArtifacts(dd: DepDescriptor, prior: Option<DepDescriptor>, dep: DependencyData, optScope: string): (r: DepDescriptor)
    ensures r.(artifacts := dd.artifacts) == dd
    ensures |dd.artifacts| <= |r.artifacts| && r.artifacts[..|dd.artifacts|] == dd.artifacts
    ensures IsNonDefaultArtifact(dep) ==>
              |r.artifacts| == |dd.artifacts| + (if prior.Some? && |prior.value.artifacts| == 0 then 2 else 1)
              && r.artifacts[|r.artifacts| - 1] == DepArtifactEntry(optScope, ClassifiedDepArtifact(dd.revision.name, dep, optScope))
    ensures IsNonDefaultArtifact(dep) && prior.Some? && |prior.value.artifacts| == 0 ==>
              r.artifacts[|dd.artifacts|] ==
                DepArtifactEntry(if |prior.value.confs| == 1 then prior.value.confs[0].owner else optScope,
                                 DefaultDepArtifact(dd.revision.name))
    ensures !IsNonDefaultArtifact(dep) ==>
              r.artifacts == dd.artifacts + (if prior.Some? then [DepArtifactEntry(optScope, DefaultDepArtifact(dd.revision.name))] else [])
  {
    var name := dd.revision.name;
    var r :=
      if IsNonDefaultArtifact(dep) then
        var backfilled :=
          if prior.Some? && |prior.value.artifacts| == 0 then
            WithArtifact(dd, if |prior.value.confs| == 1 then prior.value.confs[0].owner else optScope, DefaultDepArtifact(name))
          else dd;
        WithArtifact(backfilled, optScope, ClassifiedDepArtifact(name, dep, optScope))
      else if prior.Some? then WithArtifact(dd, optScope, DefaultDepArtifact(name))
      else dd;
    assert r.artifacts[..|dd.artifacts|] == dd.artifacts;
    assert !IsNonDefaultArtifact(dep) && prior.None? ==> r.artifacts == dd.artifacts + [];
    r
  }

  /** The descriptor `addDependency` starts from: the prior one when the
      builder may augment it, else a new one that is transitive exactly when
      `*:*` is not excluded. */
  function BaseDescriptor(prior: Option<DepDescriptor>, dep: DependencyData, rid: RevisionId, excluded: seq<ModuleId>): (r: DepDescriptor)
    requires prior.Some? ==> prior.value.revision == rid
    ensures r.revision == rid
    ensures prior.Some? && prior.value.builderOwned ==> r == prior.value
    ensures !(prior.Some? && prior.value.builderOwned) ==>
              r.builderOwned && r.origin == Some(dep) && (r.transitive <==> Wildcard !in excluded)
              && r.confs == [] && r.artifacts == [] && r.excludes == []
  {
    if prior.Some? && prior.value.builderOwned then prior.value else NewPomDescriptor(dep, rid, !ExcludesAll(excluded))
  }

  /** The descriptor `addDependency` registers for `dep`: the base descriptor,
      then the scope's mapping rules, the artifacts and one exclude rule per
      owner and concrete exclusion. Only those three parts change. */
  function Augmented(md: Descriptor, dep: DependencyData, rid: RevisionId, excluded: seq<ModuleId>, prior: Option<DepDescriptor>): (r: DepDescriptor)
    requires prior.Some? ==> prior.value.revision == rid
    ensures var base := BaseDescriptor(prior, dep, rid, excluded);
            r.(confs := base.confs, artifacts := base.artifacts, excludes := base.excludes) == base
  {
    var base := BaseDescriptor(prior, dep, rid, excluded);
    var mapped := base.(confs := AddMappingConfs(base.confs, ScopeRules(EffectiveScope(md, dep), dep.optional)));
    var withArtifacts := AttachArtifacts(mapped, prior, dep, if dep.optional then "optional" else EffectiveScope(md, dep));
    withArtifacts.(excludes := withArtifacts.excludes + RulesFor(excluded, Owners(withArtifacts.confs)))
  }

  /** `addDependency(Resource, PomDependencyData)`. A dependency on the module
      itself is dropped. Otherwise the descriptor for its revision id is
      augmented in place when the builder may, or created and registered at
      the end; reading inherited exclusions may throw. Nothing but the
      dependency list changes. */
  function AddDependency(b: Builder, dep: DependencyData): (r: Result<Builder>)
    ensures IsSelf(b.md, ModuleId(dep.groupId, dep.artifactId)) ==> r == Ok(b)
    ensures r.Throws? <==> !IsSelf(b.md, ModuleId(dep.groupId, dep.artifactId)) && EffectiveExclusions(b.md, dep).Throws?
    ensures r.Ok? ==> r.value.mainArtifact == b.mainArtifact && r.value.md.(dependencies := b.md.dependencies) == b.md
    ensures r.Ok? ==> |b.md.dependencies| <= |r.value.md.dependencies| <= |b.md.dependencies| + 1
  {
    var md := b.md;
    var rid := DependencyRevision(md, dep);
    if IsSelf(md, rid.Module()) then Ok(b)
    else
      match EffectiveExclusions(md, dep)
      case Throws(x) => Throws(x)
      case Ok(excluded) =>
        var prior := PriorOf(md.dependencies, rid);
        Ok(b.(md := md.(dependencies := Register(md.dependencies, rid, Augmented(md, dep, rid, excluded, prior)))))
  }

  /** The descriptor `addDependency` files for `dep`, when it files one. */
  function Filed(md: Descriptor, dep: DependencyData): DepDescriptor
    requires EffectiveExclusions(md, dep).Ok?
  {
    var rid := DependencyRevision(md, dep);
    Augmented(md, dep, rid, EffectiveExclusions(md, dep).value, PriorOf(md.dependencies, rid))
  }

  /** `addDependency` on a declaration it does not drop or throw on files
      `Filed(md, dep)` under the dependency's revision id. */
  lemma AddDependencyFiles(b: Builder, dep: DependencyData)
    requires !IsSelf(b.md, ModuleId(dep.groupId, dep.artifactId))
    requires EffectiveExclusions(b.md, dep).Ok?
    ensures AddDependency(b, dep) ==
            Ok(b.(md := b.md.(dependencies := Register(b.md.dependencies, DependencyRevision(b.md, dep), Filed(b.md, dep)))))
  {
  }

  /** `addDependency(DependencyDescriptor)`: registers the descriptor as it
      is, unless it is a dependency on the module itself. */
  function AddDependencyDescriptor(b: Builder, d: DepDescriptor): (r: Builder)
    ensures IsSelf(b.md, d.revision.Module()) ==> r == b
    ensures !IsSelf(b.md, d.revision.Module()) ==> r.md.dependencies == b.md.dependencies + [d]
    ensures r.mainArtifact == b.mainArtifact && r.md.(dependencies := b.md.dependencies) == b.md
    ensures Invariant(b) && DescriptorWellFormed(d) ==> Invariant(r)
  {
    if IsSelf(b.md, d.revision.Module()) then b
    else b.(md := b.md.(dependencies := b.md.dependencies + [d]))
  }

  // ----- Dependency management, plugins, properties -----

  /** `addDependencyMgt`: records `m` in the management map, writes its
      version, scope and exclusions into the extra infos, and adds a
      mediator overriding the version of transitive requests for the module. */
  function AddDependencyMgt(b: Builder, m: DependencyMgt): (r: Builder)
    ensures MgtLookup(r.md.mgts, m.Id()) == Some(m)
    ensures forall id :: id != m.Id() ==> MgtLookup(r.md.mgts, id) == MgtLookup(b.md.mgts, id)
    ensures r.md.mediators == b.md.mediators + [Mediator(ModuleId(m.groupId, m.artifactId), m.version)]
    ensures ContentOf(r.md.infos, VersionKey(m.groupId, m.artifactId, m.classifier)) == m.version
    ensures ContentOf(r.md.infos, ScopeKey(m.groupId, m.artifactId, m.classifier)) ==
              if m.scope.Some? then m.scope else ContentOf(b.md.infos, ScopeKey(m.groupId, m.artifactId, m.classifier))
    ensures NoExclusionEntries(b.md.infos, m.groupId, m.artifactId, m.classifier) && SafeExclusions(m.excluded) ==>
              Exclusions(GenericView(r.md.infos), m.groupId, m.artifactId, m.classifier) == Ok(m.excluded)
    ensures Unwritten(b.md.infos, m) ==> r.md.infos == b.md.infos + MgtEntries(m)
    ensures r.md.(mgts := b.md.mgts, infos := b.md.infos, mediators := b.md.mediators) == b.md
    ensures r.mainArtifact == b.mainArtifact
    ensures Invariant(b) ==> Invariant(r)
  {
    VersionReadBack(b.md.infos, m);
    ScopeReadBack(b.md.infos, m);
    assert NoExclusionEntries(b.md.infos, m.groupId, m.artifactId, m.classifier) && SafeExclusions(m.excluded) ==>
             Exclusions(GenericView(WriteMgtInfos(b.md.infos, m)), m.groupId, m.artifactId, m.classifier) == Ok(m.excluded) by {
      if NoExclusionEntries(b.md.infos, m.groupId, m.artifactId, m.classifier) && SafeExclusions(m.excluded) {
        ExclusionsReadBack(b.md.infos, m);
      }
    }
    assert Unwritten(b.md.infos, m) ==> WriteMgtInfos(b.md.infos, m) == b.md.infos + MgtEntries(m) by {
      if Unwritten(b.md.infos, m) {
        WriteMgtInfosAppends(b.md.infos, m);
      }
    }
    b.(md := b.md.(mgts := PutMgt(b.md.mgts, m),
                   infos := WriteMgtInfos(b.md.infos, m),
                   mediators := b.md.mediators + [Mediator(ModuleId(m.groupId, m.artifactId), m.version)]))
  }

  /** `addPlugin`: appends the plugin to the plugin list entry. */
  function AddPlugin(b: Builder, p: DependencyMgt): (r: Builder)
    ensures r.md.(infos := b.md.infos) == b.md && r.mainArtifact == b.mainArtifact
    ensures HasName(r.md.infos, PluginsTag)
    ensures ContentOf(r.md.infos, PluginsTag) == Some(ExtendedList(ContentOf(b.md.infos, PluginsTag), PluginValue(p)))
    ensures forall n :: n != PluginsTag ==> ContentOf(r.md.infos, n) == ContentOf(b.md.infos, n)
    ensures Invariant(b) ==> Invariant(r)
  {
    PluginInfoTouchesOnlyPlugins(b.md.infos, p);
    b.(md := b.md.(infos := AddPluginInfo(b.md.infos, p)))
  }

  lemma PluginInfoTouchesOnlyPlugins(infos: seq<ExtraInfo>, p: DependencyMgt)
    ensures HasName(AddPluginInfo(infos, p), PluginsTag)
    ensures ContentOf(AddPluginInfo(infos, p), PluginsTag) == Some(ExtendedList(ContentOf(infos, PluginsTag), PluginValue(p)))
    ensures forall n :: n != PluginsTag ==> ContentOf(AddPluginInfo(infos, p), n) == ContentOf(infos, n)
  {
    var r := AddPluginInfo(infos, p);
    PluginListExtended(infos, p);
    FindNone(infos, PluginsTag);
    match Find(infos, PluginsTag)
    case None =>
      assert r == infos + [ExtraInfo(PluginsTag, Some(PluginValue(p)))];
      assert r[|infos|].name == PluginsTag;
      forall n | n != PluginsTag
        ensures ContentOf(r, n) == ContentOf(infos, n)
      {
        ContentOfAppend(infos, ExtraInfo(PluginsTag, Some(PluginValue(p))), n);
        FindNone(infos, n);
      }
    case Some(i) =>
      assert r[i].name == PluginsTag;
      forall n | n != PluginsTag
        ensures ContentOf(r, n) == ContentOf(infos, n)
      {
        FindSameNames(r, infos, n);
      }
  }

  /** `addProperty`: records the property under its key, unless a property
      of that name was recorded before. */
  function AddProperty(b: Builder, name: string, value: Option<string>): (r: Builder)
    ensures r.md.(infos := b.md.infos) == b.md && r.mainArtifact == b.mainArtifact
    ensures ContentOf(r.md.infos, PropertyKey(name)) ==
            if HasName(b.md.infos, PropertyKey(name)) then ContentOf(b.md.infos, PropertyKey(name)) else value
    ensures forall n :: n != PropertyKey(name) ==> ContentOf(r.md.infos, n) == ContentOf(b.md.infos, n)
    ensures |b.md.infos| <= |r.md.infos| && r.md.infos[..|b.md.infos|] == b.md.infos
    ensures Invariant(b) ==> Invariant(r)
  {
    b.(md := b.md.(infos := AddExtraInfo(b.md.infos, PropertyKey(name), value)))
  }

  /** `addExtraInfos(List)`: inserts each entry unless its name is already held. */
  function AddExtraInfoList(b: Builder, entries: seq<ExtraInfo>): (r: Builder)
    ensures r.md.(infos := b.md.infos) == b.md && r.mainArtifact == b.mainArtifact
    ensures |b.md.infos| <= |r.md.infos| && r.md.infos[..|b.md.infos|] == b.md.infos
    ensures UniqueNames(b.md.infos) ==> UniqueNames(r.md.infos)
    ensures forall n :: HasName(r.md.infos, n) <==> HasName(b.md.infos + entries, n)
    ensures forall i :: 0 <= i < |entries| ==> HasName(r.md.infos, entries[i].name)
    ensures forall n :: HasName(b.md.infos, n) ==> ContentOf(r.md.infos, n) == ContentOf(b.md.infos, n)
    ensures forall n :: !HasName(b.md.infos, n) ==> ContentOf(r.md.infos, n) == ContentOf(entries, n)
    ensures Invariant(b) ==> Invariant(r)
  {
    forall n | !HasName(b.md.infos, n)
      ensures ContentOf(AddExtraInfos(b.md.infos, entries), n) == ContentOf(entries, n)
    {
      ContentOfConcat(b.md.infos, entries, n);
    }
    b.(md := b.md.(infos := AddExtraInfos(b.md.infos, entries)))
  }
}

=== FILE: builder_examples.dfy ===
/** Concrete runs of the builder. Two declarations of the same module and
    version, one plain compile dependency and one classified test
    dependency, are filed into one descriptor; the artifacts it ends up with
    depend on the order of the declarations. */
module BuilderExamples {
  import opened Lang
  import opened PomTypes
  import opened Confs
  import opened Management
  import opened DepDescriptors
  import opened PomBuilder
  import opened Seqs

  const Group := "org.example"
  const Name := "lib"
  const Rid := RevisionId(Group, Name, Some("1.0"))

  /** A plain compile dependency. */
  const PlainCompile := DependencyData(Group, Name, Some("1.0"), Some("compile"), None, None, false, [])

  /** The same module and version with a classifier, in the test scope. */
  const ClassifiedTest := DependencyData(Group, Name, Some("1.0"), Some("test"), Some("sources"), None, false, [])

  const CompileEntry := ConfEntry("compile", ["compile(*)", "master(*)"])
  const RuntimeEntry := ConfEntry("runtime", ["runtime(*)"])
  const TestEntry := ConfEntry("test", ["runtime(*)", "master(*)"])

  /** The classified artifact of `ClassifiedTest`, attached in "test". */
  const SourcesArtifact := DepArtifact(Name, "jar", "jar", map[ClassifierAttribute := "sources"], ["test"])

  // ----- The mappings of the two scopes -----

  lemma CompileRules()
    ensures ScopeRules("compile", false) == [ConfPair("compile", "compile(*)"), ConfPair("compile", "master(*)"), ConfPair("runtime", "runtime(*)")]
  {
  }

  lemma TestRules()
    ensures ScopeRules("test", false) == [ConfPair("test", "runtime(*)"), ConfPair("test", "master(*)")]
  {
  }

  lemma MappingOne(confs: seq<ConfEntry>, a: ConfPair)
    ensures AddMappingConfs(confs, [a]) == AddDependencyConfiguration(confs, a.owner, a.depConf)
  {
    assert [a][..0] == [];
  }

  lemma MappingTwo(confs: seq<ConfEntry>, a: ConfPair, b: ConfPair)
    ensures AddMappingConfs(confs, [a, b]) ==
            AddDependencyConfiguration(AddMappingConfs(confs, [a]), b.owner, b.depConf)
  {
    assert [a, b][..1] == [a];
  }

  lemma MappingThree(confs: seq<ConfEntry>, a: ConfPair, b: ConfPair, c: ConfPair)
    ensures AddMappingConfs(confs, [a, b, c]) ==
            AddDependencyConfiguration(AddMappingConfs(confs, [a, b]), c.owner, c.depConf)
  {
    assert [a, b, c][..2] == [a, b];
  }

  /** A rule for a new owner opens an entry at the end. */
  lemma NewOwnerStep(confs: seq<ConfEntry>, owner: string, depConf: string)
    requires !HasOwner(confs, owner)
    ensures AddDependencyConfiguration(confs, owner, depConf) == confs + [ConfEntry(owner, [depConf])]
  {
    assert AddDependencyConfiguration(confs, owner, depConf) == InsertRule(confs, owner, depConf);
  }

  /** A new rule for the owner of the last entry extends that entry. */
  lemma LastOwnerStep(confs: seq<ConfEntry>, e: ConfEntry, depConf: string)
    requires !HasOwner(confs, e.owner) && depConf !in e.depConfs
    ensures AddDependencyConfiguration(confs + [e], e.owner, depConf) == confs + [ConfEntry(e.owner, e.depConfs + [depConf])]
  {
    var all := confs + [e];
    assert AddDependencyConfiguration(all, e.owner, depConf) == InsertRule(all, e.owner, depConf);
    assert all[|all| - 1] == e;
  }

  /** One rule for a new owner opens an entry holding it. */
  lemma OneRuleNewOwner(confs: seq<ConfEntry>, owner: string, d1: string)
    requires !HasOwner(confs, owner)
    ensures AddMappingConfs(confs, [ConfPair(owner, d1)]) == confs + [ConfEntry(owner, [d1])]
  {
    MappingOne(confs, ConfPair(owner, d1));
    NewOwnerStep(confs, owner, d1);
  }

  /** Two distinct rules for a new owner open one entry holding both. */
  lemma TwoRulesOneOwner(confs: seq<ConfEntry>, owner: string, d1: string, d2: string)
    requires !HasOwner(confs, owner) && d1 != d2
    ensures AddMappingConfs(confs, [ConfPair(owner, d1), ConfPair(owner, d2)]) == confs + [ConfEntry(owner, [d1, d2])]
  {
    var e1 := ConfEntry(owner, [d1]);
    OneRuleNewOwner(confs, owner, d1);
    MappingTwo(confs, ConfPair(owner, d1), ConfPair(owner, d2));
    assert d2 !in e1.depConfs;
    LastOwnerStep(confs, e1, d2);
    assert e1.depConfs + [d2] == [d1, d2];
  }

  lemma HasOwnerSnoc(confs: seq<ConfEntry>, e: ConfEntry, o: string)
    ensures HasOwner(confs + [e], o) <==> HasOwner(confs, o) || e.owner == o
  {
    var all := confs + [e];
    if HasOwner(all, o) && e.owner != o {
      var i :| 0 <= i < |all| && all[i].owner == o;
      assert all[i] == confs[i];
    }
    if HasOwner(confs, o) {
      var i :| 0 <= i < |confs| && confs[i].owner == o;
      assert all[i] == confs[i];
    }
    assert all[|confs|] == e;
  }

  /** The first two compile rules fill the compile entry. */
  lemma CompileEntryMapping(confs: seq<ConfEntry>)
    requires !HasOwner(confs, "compile")
    ensures AddMappingConfs(confs, [ConfPair("compile", "compile(*)"), ConfPair("compile", "master(*)")]) == confs + [CompileEntry]
  {
    TwoRulesOneOwner(confs, "compile", "compile(*)", "master(*)");
  }

  lemma CompileRulesMapping(confs: seq<ConfEntry>)
    requires !HasOwner(confs, "compile") && !HasOwner(confs, "runtime")
    ensures AddMappingConfs(confs, [ConfPair("compile", "compile(*)"), ConfPair("compile", "master(*)"), ConfPair("runtime", "runtime(*)")]) ==
            confs + [CompileEntry] + [RuntimeEntry]
  {
    var a, b, c := ConfPair("compile", "compile(*)"), ConfPair("compile", "master(*)"), ConfPair("runtime", "runtime(*)");
    CompileEntryMapping(confs);
    var c2 := confs + [CompileEntry];
    MappingThree(confs, a, b, c);
    HasOwnerSnoc(confs, CompileEntry, "runtime");
    NewOwnerStep(c2, "runtime", "runtime(*)");
  }

  /** The compile scope maps compile to compile and master, and runtime to
      runtime, after any entries for other owners. */
  lemma CompileMapping(confs: seq<ConfEntry>)
    requires !HasOwner(confs, "compile") && !HasOwner(confs, "runtime")
    ensures AddMappingConfs(confs, ScopeRules("compile", false)) == confs + [CompileEntry, RuntimeEntry]
  {
    CompileRules();
    CompileRulesMapping(confs);
    AppendTwo(confs, CompileEntry, RuntimeEntry);
  }

  lemma TestRulesMapping(confs: seq<ConfEntry>)
    requires !HasOwner(confs, "test")
    ensures AddMappingConfs(confs, [ConfPair("test", "runtime(*)"), ConfPair("test", "master(*)")]) == confs + [TestEntry]
  {
    TwoRulesOneOwner(confs, "test", "runtime(*)", "master(*)");
  }

  /** The test scope maps test to runtime and master, after any entries for
      other owners. */
  lemma TestMapping(confs: seq<ConfEntry>)
    requires !HasOwner(confs, "test")
    ensures AddMappingConfs(confs, ScopeRules("test", false)) == confs + [TestEntry]
  {
    TestRules();
    TestRulesMapping(confs);
  }

  // ----- Filing the two declarations -----

  /** The default jar of the module. */
  const DefaultJar := DefaultDepArtifact(Name)

  /** The descriptor each declaration gets on its own. */
  const CompileAlone := DepDescriptor(Rid, true, true, Some(PlainCompile), [CompileEntry, RuntimeEntry], [], [])
  const TestAlone := DepDescriptor(Rid, true, true, Some(ClassifiedTest), [TestEntry], [DepArtifactEntry("test", SourcesArtifact)], [])

  /** A descriptor with no management records or extra infos, as the two
      declarations see it. */
  predicate Unmanaged(md: Descriptor) {
    md.revision.None? && md.mgts == [] && md.infos == []
  }

  lemma UnmanagedDefaults(md: Descriptor, dep: DependencyData)
    requires Unmanaged(md) && dep == if dep.scope == Some("test") then ClassifiedTest else PlainCompile
    ensures EffectiveExclusions(md, dep) == Ok([])
    ensures DependencyRevision(md, dep) == Rid
    ensures EffectiveScope(md, dep) == dep.scope.value
    ensures !IsSelf(md, ModuleId(dep.groupId, dep.artifactId))
  {
    assert MgtLookup([], dep.Id()) == None;
  }

  lemma SourcesArtifactOf()
    ensures ClassifiedDepArtifact(Name, ClassifiedTest, "test") == SourcesArtifact
    ensures IsNonDefaultArtifact(ClassifiedTest) && !IsNonDefaultArtifact(PlainCompile)
  {
    assert "jar" !in JarPackagings;
  }

  /** What `Filed` reduces to on an unmanaged descriptor. */
  lemma FiledUnmanaged(md: Descriptor, dep: DependencyData)
    requires Unmanaged(md) && dep == if dep.scope == Some("test") then ClassifiedTest else PlainCompile
    ensures Filed(md, dep) == Augmented(md, dep, Rid, [], PriorOf(md.dependencies, Rid))
    ensures EffectiveScope(md, dep) == dep.scope.value
  {
    UnmanagedDefaults(md, dep);
  }

  /** On a descriptor without a prior entry, each declaration files the
      descriptor it gets on its own. */
  lemma FiledAlone(md: Descriptor, dep: DependencyData)
    requires Unmanaged(md) && md.dependencies == []
    requires dep == if dep.scope == Some("test") then ClassifiedTest else PlainCompile
    ensures Filed(md, dep) == if dep == ClassifiedTest then TestAlone else CompileAlone
  {
    FiledUnmanaged(md, dep);
    assert PriorOf([], Rid) == None;
    var base := NewPomDescriptor(dep, Rid, true);
    assert BaseDescriptor(None, dep, Rid, []) == base;
    if dep == ClassifiedTest {
      TestMapping([]);
      TestAloneAttached();
      AugmentedUnfold(md, dep, Rid, None, base, "test", [TestEntry], TestAlone);
    } else {
      CompileMapping([]);
      CompileAloneAttached();
      AugmentedUnfold(md, dep, Rid, None, base, "compile", [CompileEntry, RuntimeEntry], CompileAlone);
    }
  }

  lemma TestAloneAttached()
    ensures AttachArtifacts(TestAlone.(artifacts := []), None, ClassifiedTest, "test") == TestAlone
  {
    SourcesArtifactOf();
  }

  lemma CompileAloneAttached()
    ensures AttachArtifacts(CompileAlone, None, PlainCompile, "compile") == CompileAlone
  {
    SourcesArtifactOf();
  }

  /** The test declaration merged into the compile one: the mapping gains
      test, and since the compile descriptor had no artifact and two
      configurations, the default jar is backfilled in "test" only, before
      the sources artifact. */
  lemma FiledTestAfterCompile(md: Descriptor)
    requires Unmanaged(md) && md.dependencies == [CompileAlone]
    ensures Filed(md, ClassifiedTest) == CompileThenTest
  {
    FiledUnmanaged(md, ClassifiedTest);
    assert PriorOf(md.dependencies, Rid) == Some(CompileAlone);
    TestAfterCompileMapped();
    TestAfterCompileAttached();
    AugmentedUnfold(md, ClassifiedTest, Rid, Some(CompileAlone), CompileAlone, "test",
                    [CompileEntry, RuntimeEntry, TestEntry], CompileThenTest);
  }

  lemma TestAfterCompileMapped()
    ensures AddMappingConfs(CompileAlone.confs, ScopeRules("test", false)) == CompileThenTest.confs
  {
    HasOwnerSnoc([CompileEntry], RuntimeEntry, "test");
    HasOwnerSnoc([], CompileEntry, "test");
    assert [] + [CompileEntry] == [CompileEntry] && [CompileEntry] + [RuntimeEntry] == CompileAlone.confs;
    TestMapping(CompileAlone.confs);
  }

  lemma TestAfterCompileAttached()
    ensures AttachArtifacts(CompileThenTest.(artifacts := []), Some(CompileAlone), ClassifiedTest, "test") == CompileThenTest
  {
    SourcesArtifactOf();
    AppendTwo([], DepArtifactEntry("test", DefaultJar), DepArtifactEntry("test", SourcesArtifact));
  }

  /** The compile declaration merged into the test one: the mapping gains
      compile and runtime, and the default jar is added in "compile" after
      the sources artifact. */
  lemma FiledCompileAfterTest(md: Descriptor)
    requires Unmanaged(md) && md.dependencies == [TestAlone]
    ensures Filed(md, PlainCompile) == TestThenCompile
  {
    FiledUnmanaged(md, PlainCompile);
    assert PriorOf(md.dependencies, Rid) == Some(TestAlone);
    CompileAfterTestMapped();
    CompileAfterTestAttached();
    AugmentedUnfold(md, PlainCompile, Rid, Some(TestAlone), TestAlone, "compile",
                    [TestEntry, CompileEntry, RuntimeEntry], TestThenCompile);
  }

  lemma CompileAfterTestMapped()
    ensures AddMappingConfs(TestAlone.confs, ScopeRules("compile", false)) == TestThenCompile.confs
  {
    HasOwnerSnoc([], TestEntry, "compile");
    HasOwnerSnoc([], TestEntry, "runtime");
    assert [] + [TestEntry] == TestAlone.confs;
    CompileMapping(TestAlone.confs);
  }

  lemma CompileAfterTestAttached()
    ensures AttachArtifacts(TestThenCompile.(artifacts := TestAlone.artifacts), Some(TestAlone), PlainCompile, "compile") == TestThenCompile
  {
    SourcesArtifactOf();
    AppendTwo([], DepArtifactEntry("test", SourcesArtifact), DepArtifactEntry("compile", DefaultJar));
  }

  /** `Augmented` for a declaration without exclusions or the optional flag,
      step by step. */
  lemma AugmentedUnfold(md: Descriptor, dep: DependencyData, rid: RevisionId, prior: Option<DepDescriptor>,
                        base: DepDescriptor, scope: string, mappedConfs: seq<ConfEntry>, attached: DepDescriptor)
    requires prior.Some? ==> prior.value.revision == rid
    requires BaseDescriptor(prior, dep, rid, []) == base
    requires EffectiveScope(md, dep) == scope && !dep.optional
    requires AddMappingConfs(base.confs, ScopeRules(scope, false)) == mappedConfs
    requires AttachArtifacts(base.(confs := mappedConfs), prior, dep, scope) == attached
    requires attached.excludes == []
    ensures Augmented(md, dep, rid, [], prior) == attached
  {
    NoRules(Owners(attached.confs));
  }

  lemma NoRules(owners: seq<string>)
    ensures RulesFor([], owners) == []
  {
  }

  // ----- The builder runs -----

  /** The builder after registering the given dependency list. */
  function WithDependencies(deps: seq<DepDescriptor>): Builder {
    Init().(md := Init().md.(dependencies := deps))
  }

  lemma RegisterAlone(dd: DepDescriptor)
    requires dd.revision == Rid
    ensures Register([], Rid, dd) == [dd]
  {
    assert PriorOf([], Rid) == None;
  }

  lemma RegisterOver(prior: DepDescriptor, dd: DepDescriptor)
    requires prior.revision == Rid && prior.builderOwned && dd.revision == Rid
    ensures Register([prior], Rid, dd) == [dd]
  {
    assert LastIndexOf([prior], Rid) == Some(0);
  }

  /** Either declaration on a fresh builder files its own descriptor. */
  lemma FirstDeclaration(dep: DependencyData)
    requires dep == if dep.scope == Some("test") then ClassifiedTest else PlainCompile
    ensures AddDependency(Init(), dep) == Ok(WithDependencies([if dep == ClassifiedTest then TestAlone else CompileAlone]))
  {
    var b := Init();
    UnmanagedDefaults(b.md, dep);
    AddDependencyFiles(b, dep);
    FiledAlone(b.md, dep);
    RegisterAlone(Filed(b.md, dep));
  }

  /** The descriptor of the declarations in the order compile, test. */
  const CompileThenTest := CompileAlone.(confs := [CompileEntry, RuntimeEntry, TestEntry],
                                         artifacts := [DepArtifactEntry("test", DefaultJar), DepArtifactEntry("test", SourcesArtifact)])

  /** The descriptor of the declarations in the order test, compile. */
  const TestThenCompile := TestAlone.(confs := [TestEntry, CompileEntry, RuntimeEntry],
                                      artifacts := [DepArtifactEntry("test", SourcesArtifact), DepArtifactEntry("compile", DefaultJar)])

  lemma SecondDeclaration(first: DependencyData, second: DependencyData)
    requires (first, second) == (PlainCompile, ClassifiedTest) || (first, second) == (ClassifiedTest, PlainCompile)
    ensures var alone := if first == ClassifiedTest then TestAlone else CompileAlone;
            AddDependency(WithDependencies([alone]), second) ==
            Ok(WithDependencies([if first == ClassifiedTest then TestThenCompile else CompileThenTest]))
  {
    var alone := if first == ClassifiedTest then TestAlone else CompileAlone;
    var b := WithDependencies([alone]);
    UnmanagedDefaults(b.md, second);
    AddDependencyFiles(b, second);
    if first == ClassifiedTest {
      FiledCompileAfterTest(b.md);
    } else {
      FiledTestAfterCompile(b.md);
    }
    RegisterOver(alone, Filed(b.md, second));
  }

  /** Both orders give the same mapping, in another owner order. */
  lemma SameMappingEitherOrder()
    ensures forall o, d :: Maps(CompileThenTest.confs, o, d) <==> Maps(TestThenCompile.confs, o, d)
  {
    var ct, tc := CompileThenTest.confs, TestThenCompile.confs;
    assert ct == [CompileEntry, RuntimeEntry, TestEntry] && tc == [TestEntry, CompileEntry, RuntimeEntry];
    RotatedMaps(CompileEntry, RuntimeEntry, TestEntry);
  }

  lemma RotatedMaps(x: ConfEntry, y: ConfEntry, z: ConfEntry)
    ensures forall o, d :: Maps([x, y, z], o, d) <==> Maps([z, x, y], o, d)
  {
    var ct, tc := [x, y, z], [z, x, y];
    forall o, d
      ensures Maps(ct, o, d) <==> Maps(tc, o, d)
    {
      if Maps(ct, o, d) {
        var i :| 0 <= i < 3 && ct[i].owner == o && d in ct[i].depConfs;
        var j := if i == 2 then 0 else i + 1;
        assert tc[j] == ct[i];
      }
      if Maps(tc, o, d) {
        var j :| 0 <= j < 3 && tc[j].owner == o && d in tc[j].depConfs;
        var i := if j == 0 then 2 else j - 1;
        assert tc[j] == ct[i];
      }
    }
  }

  /** Where the default jar goes in either order. */
  lemma DefaultJarPlacement()
    ensures DepArtifactEntry("test", DefaultJar) in CompileThenTest.artifacts
    ensures DepArtifactEntry("test", DefaultJar) !in TestThenCompile.artifacts
    ensures DepArtifactEntry("compile", DefaultJar) in TestThenCompile.artifacts
    ensures forall e :: e in CompileThenTest.artifacts ==> e.conf == "test"
  {
    assert DefaultJar != SourcesArtifact by {
      assert ClassifierAttribute in SourcesArtifact.extra;
    }
    assert "test" != "compile";
  }

  /** The order of two declarations of one module and version decides where
      the default jar goes. Compile then test: the compile descriptor has
      no artifact yet, so the test declaration backfills the default jar in
      "test", the scope of the later declaration, and compile is left with
      no artifact of its own. Test then compile: the default jar is added
      in "compile". The mapping holds the same rules either way. */
  lemma DeclarationOrderDecidesArtifacts()
    ensures var ab := AddDependency(Init(), PlainCompile);
            var ba := AddDependency(Init(), ClassifiedTest);
            && ab.Ok? && AddDependency(ab.value, ClassifiedTest) == Ok(WithDependencies([CompileThenTest]))
            && ba.Ok? && AddDependency(ba.value, PlainCompile) == Ok(WithDependencies([TestThenCompile]))
    ensures (forall o, d :: Maps(CompileThenTest.confs, o, d) <==> Maps(TestThenCompile.confs, o, d))
    ensures DepArtifactEntry("test", DefaultJar) in CompileThenTest.artifacts
    ensures DepArtifactEntry("test", DefaultJar) !in TestThenCompile.artifacts
    ensures DepArtifactEntry("compile", DefaultJar) in TestThenCompile.artifacts
  {
    FirstDeclaration(PlainCompile);
    FirstDeclaration(ClassifiedTest);
    SecondDeclaration(PlainCompile, ClassifiedTest);
    SecondDeclaration(ClassifiedTest, PlainCompile);
    SameMappingEitherOrder();
    DefaultJarPlacement();
  }
}

=== FILE: builder_lemmas.dfy ===
/** Properties of `addDependency` and `addDependencyMgt` that relate several
    parts of the builder: the descriptor invariant is kept, the descriptor
    registered for a dependency carries its scope's mapping and its
    exclusions, a reused descriptor keeps its place and transitivity, and
    a managed record supplies the defaults of later declarations. */
module BuilderProperties {
  import opened Lang
  import opened ExtraInfos
  import opened PomTypes
  import opened Codec
  import opened Confs
  import opened Management
  import opened DepDescriptors
  import opened PomBuilder

  // ----- The invariant -----

  lemma {:induction false} MappedWellFormed(dd: DepDescriptor, rules: seq<ConfPair>)
    requires DescriptorWellFormed(dd)
    requires forall k :: 0 <= k < |rules| ==> IsConfName(rules[k].owner)
    ensures DescriptorWellFormed(dd.(confs := AddMappingConfs(dd.confs, rules)))
  {
    var confs := AddMappingConfs(dd.confs, rules);
    forall i | 0 <= i < |confs|
      ensures IsConfName(confs[i].owner)
    {
      var o := confs[i].owner;
      assert HasOwner(confs, o);
      if HasOwner(dd.confs, o) {
        var j :| 0 <= j < |dd.confs| && dd.confs[j].owner == o;
      } else {
        assert o in RuleOwners(rules);
        var k :| 0 <= k < |rules| && rules[k].owner == o;
      }
    }
  }

  lemma AttachedWellFormed(dd: DepDescriptor, prior: Option<DepDescriptor>, dep: DependencyData, optScope: string)
    requires DescriptorWellFormed(dd) && IsConfName(optScope)
    requires prior.Some? ==> DescriptorWellFormed(prior.value)
    ensures DescriptorWellFormed(AttachArtifacts(dd, prior, dep, optScope))
  {
    if prior.Some? && |prior.value.confs| == 1 {
      assert IsConfName(prior.value.confs[0].owner);
    }
  }

  lemma RulesWellFormed(dd: DepDescriptor, excluded: seq<ModuleId>)
    requires DescriptorWellFormed(dd)
    ensures DescriptorWellFormed(dd.(excludes := dd.excludes + RulesFor(excluded, Owners(dd.confs))))
  {
    var rules := RulesFor(excluded, Owners(dd.confs));
    var all := dd.excludes + rules;
    forall i | 0 <= i < |all|
      ensures HasOwner(dd.confs, all[i].conf)
    {
      if i >= |dd.excludes| {
        assert all[i] == rules[i - |dd.excludes|];
        assert all[i] in rules;
        HasOwnerIffOwner(dd.confs, all[i].conf);
      }
    }
  }

  /** The descriptor `addDependency` registers is well formed whenever the
      prior one for its revision id is. */
  lemma AugmentedWellFormed(md: Descriptor, dep: DependencyData, rid: RevisionId, excluded: seq<ModuleId>, prior: Option<DepDescriptor>)
    requires prior.Some? ==> prior.value.revision == rid && DescriptorWellFormed(prior.value)
    ensures DescriptorWellFormed(Augmented(md, dep, rid, excluded, prior))
  {
    var base := BaseDescriptor(prior, dep, rid, excluded);
    var scope := EffectiveScope(md, dep);
    var rules := ScopeRules(scope, dep.optional);
    MappedWellFormed(base, rules);
    var mapped := base.(confs := AddMappingConfs(base.confs, rules));
    var optScope := if dep.optional then "optional" else scope;
    NamedConfsDeclared(optScope);
    AttachedWellFormed(mapped, prior, dep, optScope);
    RulesWellFormed(AttachArtifacts(mapped, prior, dep, optScope), excluded);
  }

  lemma RegisterWellFormed(deps: seq<DepDescriptor>, rid: RevisionId, dd: DepDescriptor)
    requires dd.revision == rid && DescriptorWellFormed(dd)
    requires forall i :: 0 <= i < |deps| ==> DescriptorWellFormed(deps[i])
    ensures var r := Register(deps, rid, dd);
            forall i :: 0 <= i < |r| ==> DescriptorWellFormed(r[i])
  {
    var r := Register(deps, rid, dd);
    forall i | 0 <= i < |r|
      ensures DescriptorWellFormed(r[i])
    {
      if !Mergeable(deps, rid) && i < |deps| {
        assert r[i] == r[..|deps|][i];
      }
    }
  }

  /** `addDependency` keeps the builder invariant. */
  lemma AddDependencyKeepsInvariant(b: Builder, dep: DependencyData)
    requires Invariant(b)
    requires AddDependency(b, dep).Ok?
    ensures Invariant(AddDependency(b, dep).value)
  {
    if !IsSelf(b.md, ModuleId(dep.groupId, dep.artifactId)) {
      var rid := DependencyRevision(b.md, dep);
      var prior := PriorOf(b.md.dependencies, rid);
      if prior.Some? {
        var k := LastIndexOf(b.md.dependencies, rid).value;
        assert prior.value == b.md.dependencies[k];
      }
      AugmentedWellFormed(b.md, dep, rid, EffectiveExclusions(b.md, dep).value, prior);
      RegisterWellFormed(b.md.dependencies, rid, Filed(b.md, dep));
      AddDependencyFiles(b, dep);
      var r := AddDependency(b, dep).value;
      assert r.md == b.md.(dependencies := Register(b.md.dependencies, rid, Filed(b.md, dep)));
      assert r.mainArtifact == b.mainArtifact;
    }
  }

  // ----- What `addDependency` registers -----

  /** Augmenting never loses anything: the owner list, the artifacts and
      the exclude rules of the base descriptor stay, in front. */
  lemma AugmentedExtends(md: Descriptor, dep: DependencyData, rid: RevisionId, excluded: seq<ModuleId>, prior: Option<DepDescriptor>)
    requires prior.Some? ==> prior.value.revision == rid
    ensures var base := BaseDescriptor(prior, dep, rid, excluded);
            var r := Augmented(md, dep, rid, excluded, prior);
            && |base.confs| <= |r.confs| && Owners(r.confs)[..|base.confs|] == Owners(base.confs)
            && |base.artifacts| <= |r.artifacts| && r.artifacts[..|base.artifacts|] == base.artifacts
            && |base.excludes| <= |r.excludes| && r.excludes[..|base.excludes|] == base.excludes
  {
    var base := BaseDescriptor(prior, dep, rid, excluded);
    var r := Augmented(md, dep, rid, excluded, prior);
    var mapped := base.(confs := AddMappingConfs(base.confs, ScopeRules(EffectiveScope(md, dep), dep.optional)));
    var attached := AttachArtifacts(mapped, prior, dep, if dep.optional then "optional" else EffectiveScope(md, dep));
    assert r.excludes == base.excludes + RulesFor(excluded, Owners(attached.confs));
    assert r.excludes[..|base.excludes|] == base.excludes;
  }

  /** A dependency whose revision id already has a descriptor the builder
      may augment is merged into it: the list keeps its length and every
      other entry, and the merged descriptor keeps its revision id, origin
      and transitivity, and the configurations, artifacts and exclude rules
      it had, which stay in front. */
  lemma AddDependencyMergesIntoOwned(b: Builder, dep: DependencyData)
    requires !IsSelf(b.md, ModuleId(dep.groupId, dep.artifactId))
    requires EffectiveExclusions(b.md, dep).Ok?
    requires Mergeable(b.md.dependencies, DependencyRevision(b.md, dep))
    ensures AddDependency(b, dep).Ok?
    ensures var deps := b.md.dependencies;
            var deps' := AddDependency(b, dep).value.md.dependencies;
            var k := LastIndexOf(deps, DependencyRevision(b.md, dep)).value;
            && |deps'| == |deps|
            && (forall j :: 0 <= j < |deps| && j != k ==> deps'[j] == deps[j])
            && deps'[k].revision == deps[k].revision
            && deps'[k].origin == deps[k].origin
            && deps'[k].transitive == deps[k].transitive
            && deps'[k].builderOwned
            && |deps[k].confs| <= |deps'[k].confs| && Owners(deps'[k].confs)[..|deps[k].confs|] == Owners(deps[k].confs)
            && |deps[k].artifacts| <= |deps'[k].artifacts| && deps'[k].artifacts[..|deps[k].artifacts|] == deps[k].artifacts
            && |deps[k].excludes| <= |deps'[k].excludes| && deps'[k].excludes[..|deps[k].excludes|] == deps[k].excludes
  {
    var rid := DependencyRevision(b.md, dep);
    var excluded := EffectiveExclusions(b.md, dep).value;
    var prior := PriorOf(b.md.dependencies, rid);
    AddDependencyFiles(b, dep);
    AugmentedExtends(b.md, dep, rid, excluded, prior);
  }

  /** A dependency whose revision id has no descriptor the builder may
      augment gets a new one, appended: it is builder-owned, remembers the
      declaration, is transitive unless `*:*` is excluded, and becomes the
      descriptor the index points at. */
  lemma AddDependencyRegistersNew(b: Builder, dep: DependencyData)
    requires !IsSelf(b.md, ModuleId(dep.groupId, dep.artifactId))
    requires EffectiveExclusions(b.md, dep).Ok?
    requires !Mergeable(b.md.dependencies, DependencyRevision(b.md, dep))
    ensures AddDependency(b, dep).Ok?
    ensures var deps := b.md.dependencies;
            var deps' := AddDependency(b, dep).value.md.dependencies;
            && |deps'| == |deps| + 1
            && deps'[..|deps|] == deps
            && deps'[|deps|].revision == DependencyRevision(b.md, dep)
            && deps'[|deps|].builderOwned
            && deps'[|deps|].origin == Some(dep)
            && (deps'[|deps|].transitive <==> Wildcard !in EffectiveExclusions(b.md, dep).value)
            && LastIndexOf(deps', DependencyRevision(b.md, dep)) == Some(|deps|)
  {
    AddDependencyFiles(b, dep);
  }

  /** The descriptor filed for a dependency maps every rule of its scope
      (optional flag included), and excludes every concrete excluded module
      in every one of its configurations. */
  lemma FiledDescriptorApplies(md: Descriptor, dep: DependencyData)
    requires EffectiveExclusions(md, dep).Ok?
    ensures var dd := Filed(md, dep);
            var excluded := EffectiveExclusions(md, dep).value;
            var rules := ScopeRules(EffectiveScope(md, dep), dep.optional);
            && (forall k :: 0 <= k < |rules| ==> Maps(dd.confs, rules[k].owner, rules[k].depConf))
            && (forall o, t :: HasOwner(dd.confs, o) && t in excluded && t != Wildcard ==> ExcludeRule(o, t) in dd.excludes)
  {
    var rid := DependencyRevision(md, dep);
    var excluded := EffectiveExclusions(md, dep).value;
    var prior := PriorOf(md.dependencies, rid);
    var base := BaseDescriptor(prior, dep, rid, excluded);
    var rules := ScopeRules(EffectiveScope(md, dep), dep.optional);
    var mapped := base.(confs := AddMappingConfs(base.confs, rules));
    var attached := AttachArtifacts(mapped, prior, dep, if dep.optional then "optional" else EffectiveScope(md, dep));
    var dd := Filed(md, dep);
    assert dd.confs == mapped.confs;
    assert dd.excludes == attached.excludes + RulesFor(excluded, Owners(mapped.confs));
    forall k | 0 <= k < |rules|
      ensures Maps(dd.confs, rules[k].owner, rules[k].depConf)
    {
      assert ConfPair(rules[k].owner, rules[k].depConf) in rules;
    }
    forall o, t | HasOwner(dd.confs, o) && t in excluded && t != Wildcard
      ensures ExcludeRule(o, t) in dd.excludes
    {
      HasOwnerIffOwner(dd.confs, o);
    }
  }

  /** The artifacts of the descriptor filed for a dependency: those of the
      base descriptor, then, for a non-default artifact (a classifier, or a
      type other than "jar"), the default jar when the prior descriptor had
      no artifact, then the artifact itself with its extension and classifier
      attribute; a default artifact is listed explicitly only when a prior
      descriptor exists, and a first default-artifact declaration lists none. */
  lemma FiledArtifacts(md: Descriptor, dep: DependencyData)
    requires EffectiveExclusions(md, dep).Ok?
    ensures var rid := DependencyRevision(md, dep);
            var prior := PriorOf(md.dependencies, rid);
            var base := BaseDescriptor(prior, dep, rid, EffectiveExclusions(md, dep).value);
            var conf := if dep.optional then "optional" else EffectiveScope(md, dep);
            var dd := Filed(md, dep);
            && |base.artifacts| <= |dd.artifacts| && dd.artifacts[..|base.artifacts|] == base.artifacts
            && (IsNonDefaultArtifact(dep) ==>
                  |dd.artifacts| == |base.artifacts| + (if prior.Some? && |prior.value.artifacts| == 0 then 2 else 1)
                  && dd.artifacts[|dd.artifacts| - 1] == DepArtifactEntry(conf, ClassifiedDepArtifact(rid.name, dep, conf)))
            && (IsNonDefaultArtifact(dep) && prior.Some? && |prior.value.artifacts| == 0 ==>
                  dd.artifacts[|base.artifacts|] ==
                    DepArtifactEntry(if |prior.value.confs| == 1 then prior.value.confs[0].owner else conf, DefaultDepArtifact(rid.name)))
            && (!IsNonDefaultArtifact(dep) ==>
                  dd.artifacts == base.artifacts + (if prior.Some? then [DepArtifactEntry(conf, DefaultDepArtifact(rid.name))] else []))
            && (prior.None? && !IsNonDefaultArtifact(dep) ==> dd.artifacts == [])
  {
    var rid := DependencyRevision(md, dep);
    var excluded := EffectiveExclusions(md, dep).value;
    var prior := PriorOf(md.dependencies, rid);
    var base := BaseDescriptor(prior, dep, rid, excluded);
    var conf := if dep.optional then "optional" else EffectiveScope(md, dep);
    var mapped := base.(confs := AddMappingConfs(base.confs, ScopeRules(EffectiveScope(md, dep), dep.optional)));
    var attached := AttachArtifacts(mapped, prior, dep, conf);
    assert Filed(md, dep).artifacts == attached.artifacts;
    assert mapped.revision.name == rid.name;
  }

  // ----- Dependency management feeds later declarations -----

  /** After `addDependencyMgt(m)`, a declaration of the same module without
      a version, scope or exclusions of its own takes `m`'s version, `m`'s
      scope when it has a mapping ("compile" otherwise), and `m`'s
      exclusions. */
  lemma ManagedDefaults(b: Builder, m: DependencyMgt, dep: DependencyData)
    requires dep.Id() == m.Id()
    ensures var md := AddDependencyMgt(b, m).md;
            && (IsNullOrEmpty(dep.version) ==> EffectiveVersion(md, dep) == m.version)
            && (IsNullOrEmpty(dep.scope) ==>
                  EffectiveScope(md, dep) == if m.scope.Some? && IsMappedScope(m.scope.value) then m.scope.value else "compile")
            && (|dep.excluded| == 0 ==> EffectiveExclusions(md, dep) == Ok(m.excluded))
  {
    var md := AddDependencyMgt(b, m).md;
    assert MgtLookup(md.mgts, dep.Id()) == Some(m);
    assert ClassifiedId(dep.groupId, dep.artifactId, dep.classifier) == m.Id();
  }
}

=== FILE: codec.dfy ===
/** The flat text encodings the builder writes into the extra-info store for
    data the Ivy descriptor has no slot for: dependency-management keys,
    exclusion contents, the plugin list and property keys, with the decoders
    the readers use and the conditions under which a round trip is exact.
    Fields are concatenated without escaping, so a field holding the
    delimiter (or, for `__`, ending in `_`) does not come back. */
module Codec {
  import opened Lang
  import opened Text
  import opened ExtraInfos
  import opened PomTypes
  import opened Seqs

  const Delimiter := "__"
  const DependencyManagementTag := "m:dependency.management"
  const PropertiesTag := "m:properties"
  const PluginsTag := "m:maven.plugins"
  const PluginSeparator := "|"

  /** `DEPENDENCY_MANAGEMENT_KEY_PARTS_COUNT`. */
  const KeyPartsCount := 5

  /** A dependency-management key: tag, group, artifact, classifier (`null`
      written as the text "null") and field name, joined with `__`. */
  function MgtKey(groupId: string, artifactId: string, classifier: Option<string>, field: string): string {
    KeyBase(groupId, artifactId, classifier) + field
  }

  /** The part of a dependency-management key before the field name. */
  function KeyBase(groupId: string, artifactId: string, classifier: Option<string>): string {
    DependencyManagementTag + (Delimiter + groupId + Delimiter + artifactId + Delimiter + NullText(classifier) + Delimiter)
  }

  function VersionKey(groupId: string, artifactId: string, classifier: Option<string>): string {
    MgtKey(groupId, artifactId, classifier, "version")
  }

  function ScopeKey(groupId: string, artifactId: string, classifier: Option<string>): string {
    MgtKey(groupId, artifactId, classifier, "scope")
  }

  function ExclusionPrefix(groupId: string, artifactId: string, classifier: Option<string>): string {
    MgtKey(groupId, artifactId, classifier, "exclusion_")
  }

  /** The key of the `index`-th managed exclusion. */
  function ExclusionKey(groupId: string, artifactId: string, classifier: Option<string>, index: nat): string {
    ExclusionPrefix(groupId, artifactId, classifier) + NatToString(index)
  }

  /** The content stored for an excluded module: `org__name`. */
  function ExclusionContent(m: ModuleId): string {
    m.org + Delimiter + m.name
  }

  /** The classified id a dependency-management key names, when it splits
      into exactly five parts; the classifier comes back as text. */
  function DecodeMgtKey(key: string): Option<ClassifiedId> {
    var parts := JavaSplit(key, Delimiter);
    if |parts| != KeyPartsCount then None else Some(ClassifiedId(parts[1], parts[2], Some(parts[3])))
  }

  /** The excluded module an exclusion content names, when it splits into
      exactly two parts. */
  function DecodeExclusion(content: string): Option<ModuleId> {
    var parts := JavaSplit(content, Delimiter);
    if |parts| != 2 then None else Some(ModuleId(parts[0], parts[1]))
  }

  lemma NoUnderscoreSafe(f: string)
    requires |f| > 0 && '_' !in f
    ensures UnderscoreSafe(f)
  {
    assert f[|f| - 1] in f;
    forall i | 0 <= i < |f| - 1
      ensures !(f[i] == '_' && f[i + 1] == '_')
    {
      assert f[i] in f;
    }
  }

  lemma TagsSafe()
    ensures UnderscoreSafe(DependencyManagementTag)
    ensures UnderscoreSafe("version") && UnderscoreSafe("scope")
  {
    NoUnderscoreSafe(DependencyManagementTag);
    NoUnderscoreSafe("version");
    NoUnderscoreSafe("scope");
  }

  /** The field of an exclusion key, `exclusion_<index>`, has one `_`, followed by a digit. */
  lemma ExclusionFieldSafe(index: nat)
    ensures UnderscoreSafe("exclusion_" + NatToString(index))
  {
    var digits := NatToString(index);
    var f := "exclusion_" + digits;
    assert f[|f| - 1] == digits[|digits| - 1];
    forall i | 0 <= i < |f| - 1
      ensures !(f[i] == '_' && f[i + 1] == '_')
    {
      if i < 9 {
        assert f[i] == "exclusion_"[i];
        assert f[i] != '_';
      } else if i == 9 {
        assert f[i + 1] == digits[0];
      } else {
        assert f[i] == digits[i - 10];
      }
    }
  }

  /** Three fields joined with the delimiter. */
  lemma Join3(x: string, y: string, z: string, d: string)
    ensures Join([x, y, z], d) == x + d + y + d + z
  {
    assert [x, y, z][1..] == [y, z];
    assert [y, z][1..] == [z];
    assert Join([y, z], d) == y + d + z;
    assert Join([x, y, z], d) == x + d + (y + d + z);
    assert x + d + (y + d + z) == x + d + y + d + z;
  }

  lemma MgtKeyIsJoin(groupId: string, artifactId: string, classifier: Option<string>, field: string)
    ensures MgtKey(groupId, artifactId, classifier, field) ==
              Join([DependencyManagementTag, groupId, artifactId, NullText(classifier), field], Delimiter)
  {
    var d := Delimiter;
    var ps := [DependencyManagementTag, groupId, artifactId, NullText(classifier), field];
    Join3(artifactId, NullText(classifier), field, d);
    assert ps[1..][1..] == [artifactId, NullText(classifier), field];
    assert Join(ps[1..], d) == groupId + d + Join(ps[1..][1..], d);
    assert Join(ps, d) == DependencyManagementTag + d + Join(ps[1..], d);
  }

  /** Fields that survive a `__` round trip. */
  predicate SafeCoordinates(groupId: string, artifactId: string, classifier: Option<string>) {
    UnderscoreSafe(groupId) && UnderscoreSafe(artifactId) && UnderscoreSafe(NullText(classifier))
  }

  /** A key written for `field` splits into exactly the five parts it was made of. */
  lemma MgtKeySplits(groupId: string, artifactId: string, classifier: Option<string>, field: string)
    requires SafeCoordinates(groupId, artifactId, classifier) && UnderscoreSafe(field)
    ensures JavaSplit(MgtKey(groupId, artifactId, classifier, field), Delimiter) ==
              [DependencyManagementTag, groupId, artifactId, NullText(classifier), field]
    ensures DecodeMgtKey(MgtKey(groupId, artifactId, classifier, field)) ==
              Some(ClassifiedId(groupId, artifactId, Some(NullText(classifier))))
  {
    TagsSafe();
    MgtKeyIsJoin(groupId, artifactId, classifier, field);
    UnderscoreSplitJoin([DependencyManagementTag, groupId, artifactId, NullText(classifier), field]);
  }

  /** Version and scope keys decode back to their coordinates. */
  lemma FieldKeysDecode(groupId: string, artifactId: string, classifier: Option<string>)
    requires SafeCoordinates(groupId, artifactId, classifier)
    ensures DecodeMgtKey(VersionKey(groupId, artifactId, classifier)) == Some(ClassifiedId(groupId, artifactId, Some(NullText(classifier))))
    ensures DecodeMgtKey(ScopeKey(groupId, artifactId, classifier)) == Some(ClassifiedId(groupId, artifactId, Some(NullText(classifier))))
  {
    TagsSafe();
    MgtKeySplits(groupId, artifactId, classifier, "version");
    MgtKeySplits(groupId, artifactId, classifier, "scope");
  }

  lemma ExclusionKeyIsMgtKey(groupId: string, artifactId: string, classifier: Option<string>, index: nat)
    ensures ExclusionKey(groupId, artifactId, classifier, index) ==
            MgtKey(groupId, artifactId, classifier, "exclusion_" + NatToString(index))
  {
    var base := KeyBase(groupId, artifactId, classifier);
    assert base + "exclusion_" + NatToString(index) == base + ("exclusion_" + NatToString(index));
  }

  /** Every exclusion key decodes back to its coordinates, so exclusion keys
      also count as five-part dependency-management keys. */
  lemma ExclusionKeyDecodes(groupId: string, artifactId: string, classifier: Option<string>, index: nat)
    requires SafeCoordinates(groupId, artifactId, classifier)
    ensures DecodeMgtKey(ExclusionKey(groupId, artifactId, classifier, index)) == Some(ClassifiedId(groupId, artifactId, Some(NullText(classifier))))
  {
    ExclusionFieldSafe(index);
    MgtKeySplits(groupId, artifactId, classifier, "exclusion_" + NatToString(index));
    ExclusionKeyIsMgtKey(groupId, artifactId, classifier, index);
  }

  /** An excluded module whose fields are `__`-safe is read back as itself. */
  lemma ExclusionRoundTrip(m: ModuleId)
    requires UnderscoreSafe(m.org) && UnderscoreSafe(m.name)
    ensures DecodeExclusion(ExclusionContent(m)) == Some(m)
  {
    assert [m.org, m.name][1..] == [m.name];
    UnderscoreSplitJoin([m.org, m.name]);
  }

  /** Keys of different fields for the same coordinates differ, and none of
      them is an exclusion key unless it was written as one. */
  lemma MgtKeysDistinct(groupId: string, artifactId: string, classifier: Option<string>)
    ensures VersionKey(groupId, artifactId, classifier) != ScopeKey(groupId, artifactId, classifier)
    ensures !StartsWith(VersionKey(groupId, artifactId, classifier), ExclusionPrefix(groupId, artifactId, classifier))
    ensures !StartsWith(ScopeKey(groupId, artifactId, classifier), ExclusionPrefix(groupId, artifactId, classifier))
  {
    var base := KeyBase(groupId, artifactId, classifier);
    assert (base + "version")[|base|] == 'v';
    assert (base + "scope")[|base|] == 's';
    assert (base + "exclusion_")[|base|] == 'e';
  }

  /** Exclusion keys of different indices differ. */
  lemma ExclusionKeysDistinct(groupId: string, artifactId: string, classifier: Option<string>, i: nat, j: nat)
    requires i != j
    ensures ExclusionKey(groupId, artifactId, classifier, i) != ExclusionKey(groupId, artifactId, classifier, j)
  {
    var p := ExclusionPrefix(groupId, artifactId, classifier);
    if p + NatToString(i) == p + NatToString(j) {
      assert NatToString(i) == (p + NatToString(i))[|p|..];
      NatToStringInjective(i, j);
    }
  }

  /** Every dependency-management key starts with the dependency-management tag. */
  lemma MgtKeyTagged(groupId: string, artifactId: string, classifier: Option<string>, field: string)
    ensures StartsWith(MgtKey(groupId, artifactId, classifier, field), DependencyManagementTag)
  {
    var base := KeyBase(groupId, artifactId, classifier);
    StartsWithConcat(DependencyManagementTag, base[|DependencyManagementTag|..]);
    assert base == DependencyManagementTag + base[|DependencyManagementTag|..];
    StartsWithConcat(base, field);
    StartsWithTransitive(base + field, base, DependencyManagementTag);
  }

  // ----- Plugins -----

  /** The text a plugin contributes to the plugin list: `group__artifact__version`. */
  function PluginValue(p: DependencyMgt): string {
    p.groupId + Delimiter + p.artifactId + Delimiter + NullText(p.version)
  }

  /** The record `getPlugins` makes for one plugin (`PomPluginElement`). */
  function PluginElement(groupId: string, artifactId: string, version: string): DependencyMgt {
    DependencyMgt(groupId, artifactId, Some(version), None, Some("defaultclassifier"), [])
  }

  /** One plugin value read back; fewer than three parts is an array index error. */
  function DecodePlugin(value: string): Result<DependencyMgt> {
    var parts := JavaSplit(value, Delimiter);
    if |parts| < 3 then Throws(IndexOutOfBounds) else Ok(PluginElement(parts[0], parts[1], parts[2]))
  }

  /** Every plugin value decoded; the first that does not split into three
      parts makes the whole read throw. */
  function DecodePlugins(values: seq<string>): (r: Result<seq<DependencyMgt>>)
    decreases |values|
    ensures r.Ok? <==> forall i :: 0 <= i < |values| ==> DecodePlugin(values[i]).Ok?
    ensures r.Ok? ==> |r.value| == |values|
    ensures r.Ok? ==> forall i :: 0 <= i < |values| ==> DecodePlugin(values[i]) == Ok(r.value[i])
  {
    if |values| == 0 then Ok([])
    else
      var init, last := values[..|values| - 1], values[|values| - 1];
      assert forall i :: 0 <= i < |init| ==> init[i] == values[i];
      match DecodePlugins(init)
      case Throws(e) => Throws(e)
      case Ok(ps) =>
        match DecodePlugin(last)
        case Throws(e) => Throws(e)
        case Ok(p) =>
          assert forall i :: 0 <= i < |values| ==> DecodePlugin(values[i]) == Ok((ps + [p])[i]);
          Ok(ps + [p])
  }

  /** `addPlugin` on the store: append the plugin value to the first
      `m:maven.plugins` entry, separated by `|`, creating the entry if needed. */
  function AddPluginInfo(infos: seq<ExtraInfo>, p: DependencyMgt): seq<ExtraInfo> {
    var value := PluginValue(p);
    match Find(infos, PluginsTag)
    case None => infos + [ExtraInfo(PluginsTag, Some(value))]
    case Some(i) =>
      infos[i := ExtraInfo(PluginsTag, Some(if infos[i].content.None? then value
                                             else infos[i].content.value + PluginSeparator + value))]
  }

  /** The plugin list after `value` is appended to `list`; a missing or
      `null` list starts afresh. */
  function ExtendedList(list: Option<string>, value: string): string {
    if list.None? then value else list.value + PluginSeparator + value
  }

  /** Read by first match, the plugin list after `addPlugin` is the list
      before with the plugin's value appended. */
  lemma PluginListExtended(infos: seq<ExtraInfo>, p: DependencyMgt)
    ensures ContentOf(AddPluginInfo(infos, p), PluginsTag) == Some(ExtendedList(ContentOf(infos, PluginsTag), PluginValue(p)))
  {
    var r := AddPluginInfo(infos, p);
    match Find(infos, PluginsTag)
    case None =>
      FindNone(infos, PluginsTag);
      ContentOfAppend(infos, ExtraInfo(PluginsTag, Some(PluginValue(p))), PluginsTag);
    case Some(i) =>
      FindCharacterized(infos, PluginsTag, i);
      FindSameNames(r, infos, PluginsTag);
  }

  /** Plugins added one after the other. */
  function AddPluginInfos(infos: seq<ExtraInfo>, ps: seq<DependencyMgt>): seq<ExtraInfo>
    decreases |ps|
  {
    if |ps| == 0 then infos else AddPluginInfo(AddPluginInfos(infos, ps[..|ps| - 1]), ps[|ps| - 1])
  }

  /** `getPlugins`: every plugin recorded in the plugin list, in order. */
  function GetPlugins(infos: seq<ExtraInfo>): Result<seq<DependencyMgt>> {
    match ContentOf(infos, PluginsTag)
    case None => Ok([])
    case Some(list) => DecodePlugins(JavaSplit(list, PluginSeparator))
  }

  /** Plugin coordinates that survive the list encoding (a `null` version
      is written, and read back, as the text "null"). */
  predicate PluginSafe(p: DependencyMgt) {
    && UnderscoreSafe(p.groupId) && BarSafe(p.groupId)
    && UnderscoreSafe(p.artifactId) && BarSafe(p.artifactId)
    && UnderscoreSafe(NullText(p.version)) && BarSafe(NullText(p.version))
  }

  /** What `getPlugins` gives back for a plugin that was added. */
  function PluginReadBack(p: DependencyMgt): DependencyMgt {
    PluginElement(p.groupId, p.artifactId, NullText(p.version))
  }

  lemma {:induction false} JoinSnoc(xs: seq<string>, x: string, d: string)
    requires |xs| > 0
    ensures Join(xs + [x], d) == Join(xs, d) + d + x
    decreases |xs|
  {
    if |xs| == 1 {
      assert (xs + [x])[1..] == [x];
    } else {
      assert (xs + [x])[1..] == xs[1..] + [x];
      JoinSnoc(xs[1..], x, d);
    }
  }

  /** The value of every plugin, in order. */
  function PluginValues(ps: seq<DependencyMgt>): (vs: seq<string>)
    decreases |ps|
    ensures |vs| == |ps|
    ensures forall i :: 0 <= i < |ps| ==> vs[i] == PluginValue(ps[i])
  {
    if |ps| == 0 then [] else PluginValues(ps[..|ps| - 1]) + [PluginValue(ps[|ps| - 1])]
  }

  /** After adding plugins to a store without a plugin list, the list is one
      new entry at the end holding the plugin values joined with `|`. */
  lemma {:induction false} AddPluginInfosShape(infos: seq<ExtraInfo>, ps: seq<DependencyMgt>)
    requires !HasName(infos, PluginsTag) && |ps| > 0
    ensures AddPluginInfos(infos, ps) == infos + [ExtraInfo(PluginsTag, Some(Join(PluginValues(ps), PluginSeparator)))]
    decreases |ps|
  {
    var n := |ps|;
    var init := ps[..n - 1];
    FindNone(infos, PluginsTag);
    if n == 1 {
      assert AddPluginInfos(infos, init) == infos;
    } else {
      AddPluginInfosShape(infos, init);
      var prev := Join(PluginValues(init), PluginSeparator);
      FindAppend(infos, ExtraInfo(PluginsTag, Some(prev)), PluginsTag);
      JoinSnoc(PluginValues(init), PluginValue(ps[n - 1]), PluginSeparator);
    }
  }

  lemma PluginValueSplits(p: DependencyMgt)
    requires PluginSafe(p)
    ensures BarSafe(PluginValue(p))
    ensures DecodePlugin(PluginValue(p)) == Ok(PluginReadBack(p))
  {
    var ps := [p.groupId, p.artifactId, NullText(p.version)];
    Join3(p.groupId, p.artifactId, NullText(p.version), Delimiter);
    UnderscoreSplitJoin(ps);
  }

  /** `PluginReadBack` of every plugin, in order. */
  function PluginReadBacks(ps: seq<DependencyMgt>): (rs: seq<DependencyMgt>)
    decreases |ps|
    ensures |rs| == |ps|
    ensures forall i :: 0 <= i < |ps| ==> rs[i] == PluginReadBack(ps[i])
  {
    if |ps| == 0 then [] else PluginReadBacks(ps[..|ps| - 1]) + [PluginReadBack(ps[|ps| - 1])]
  }

  lemma DecodePluginsSnoc(values: seq<string>, rs: seq<DependencyMgt>, v: string, r: DependencyMgt)
    requires DecodePlugins(values) == Ok(rs) && DecodePlugin(v) == Ok(r)
    ensures DecodePlugins(values + [v]) == Ok(rs + [r])
  {
    assert (values + [v])[..|values|] == values;
  }

  /** Values that each decode to the matching record decode together to the records. */
  lemma {:induction false} DecodePluginsPointwise(values: seq<string>, rs: seq<DependencyMgt>)
    requires |values| == |rs|
    requires forall i :: 0 <= i < |values| ==> DecodePlugin(values[i]) == Ok(rs[i])
    ensures DecodePlugins(values) == Ok(rs)
    decreases |values|
  {
    if |values| > 0 {
      var n := |values| - 1;
      var init, inits := values[..n], rs[..n];
      assert forall i :: 0 <= i < n ==> init[i] == values[i] && inits[i] == rs[i];
      DecodePluginsPointwise(init, inits);
      DecodePluginsSnoc(init, inits, values[n], rs[n]);
      TakeSnoc(values);
      TakeSnoc(rs);
    }
  }

  lemma DecodePluginValues(ps: seq<DependencyMgt>)
    requires forall i :: 0 <= i < |ps| ==> PluginSafe(ps[i])
    ensures DecodePlugins(PluginValues(ps)) == Ok(PluginReadBacks(ps))
  {
    forall i | 0 <= i < |ps|
      ensures DecodePlugin(PluginValues(ps)[i]) == Ok(PluginReadBacks(ps)[i])
    {
      PluginValueSplits(ps[i]);
    }
    DecodePluginsPointwise(PluginValues(ps), PluginReadBacks(ps));
  }

  lemma {:induction false} PluginValuesSeparable(ps: seq<DependencyMgt>)
    requires forall i :: 0 <= i < |ps| ==> PluginSafe(ps[i])
    ensures forall i :: 0 <= i < |ps| ==> Separable(PluginValues(ps)[i], PluginSeparator)
    decreases |ps|
  {
    if |ps| > 0 {
      var n := |ps| - 1;
      PluginValuesSeparable(ps[..n]);
      PluginValueSplits(ps[n]);
      BarSafeSeparable(PluginValue(ps[n]));
    }
  }

  /** Plugins added to a store without a plugin list are read back in
      insertion order, as `PomPluginElement`s of the same coordinates. */
  lemma PluginsRoundTrip(infos: seq<ExtraInfo>, ps: seq<DependencyMgt>)
    requires !HasName(infos, PluginsTag)
    requires forall i :: 0 <= i < |ps| ==> PluginSafe(ps[i])
    ensures GetPlugins(AddPluginInfos(infos, ps)) ==
              Ok(PluginReadBacks(ps))
  {
    if |ps| == 0 {
      FindNone(infos, PluginsTag);
    } else {
      AddPluginInfosShape(infos, ps);
      var list := Join(PluginValues(ps), PluginSeparator);
      ContentOfAppend(infos, ExtraInfo(PluginsTag, Some(list)), PluginsTag);
      PluginValuesSeparable(ps);
      JavaSplitJoin(PluginValues(ps), PluginSeparator);
      DecodePluginValues(ps);
    }
  }

  /** A plugin list written by earlier `addPlugin` calls keeps growing: the
      plugins added later are read back after the earlier ones. */
  lemma {:induction false} PluginListGrows(infos: seq<ExtraInfo>, qs: seq<DependencyMgt>, ps: seq<DependencyMgt>)
    requires |qs| > 0
    requires ContentOf(infos, PluginsTag) == Some(Join(PluginValues(qs), PluginSeparator))
    ensures ContentOf(AddPluginInfos(infos, ps), PluginsTag) == Some(Join(PluginValues(qs + ps), PluginSeparator))
    decreases |ps|
  {
    if |ps| == 0 {
      assert qs + ps == qs;
    } else {
      var n := |ps| - 1;
      var init := ps[..n];
      var before := AddPluginInfos(infos, init);
      var vs := PluginValues(qs + init);
      assert AddPluginInfos(infos, ps) == AddPluginInfo(before, ps[n]);
      assert PluginValues(qs + ps) == vs + [PluginValue(ps[n])] by {
        assert (qs + ps)[..|qs + ps| - 1] == qs + init;
      }
      PluginListGrows(infos, qs, init);
      PluginListExtended(before, ps[n]);
      JoinSnoc(vs, PluginValue(ps[n]), PluginSeparator);
    }
  }

  /** Plugins added to a store whose plugin list holds earlier plugins are
      read back after them, in insertion order. */
  lemma PluginsExtendRoundTrip(infos: seq<ExtraInfo>, qs: seq<DependencyMgt>, ps: seq<DependencyMgt>)
    requires |qs| > 0
    requires ContentOf(infos, PluginsTag) == Some(Join(PluginValues(qs), PluginSeparator))
    requires forall i :: 0 <= i < |qs| ==> PluginSafe(qs[i])
    requires forall i :: 0 <= i < |ps| ==> PluginSafe(ps[i])
    ensures GetPlugins(AddPluginInfos(infos, ps)) == Ok(PluginReadBacks(qs + ps))
  {
    var all := qs + ps;
    assert forall i :: 0 <= i < |all| ==> PluginSafe(all[i]) by {
      forall i | 0 <= i < |all| ensures PluginSafe(all[i]) {
        if i >= |qs| { assert all[i] == ps[i - |qs|]; }
      }
    }
    PluginListGrows(infos, qs, ps);
    PluginValuesSeparable(all);
    JavaSplitJoin(PluginValues(all), PluginSeparator);
    DecodePluginValues(all);
  }

  // ----- Properties -----

  /** The key a POM property is stored under: `m:properties__name`. */
  function PropertyKey(name: string): string {
    PropertiesTag + Delimiter + name
  }

  /** An entry `extractPomProperties` takes a property from: tagged
      `m:properties` and long enough for the cut after `m:properties__`. */
  predicate IsPropertyEntry(e: ExtraInfo) {
    StartsWith(e.name, PropertiesTag) && |e.name| >= |PropertiesTag| + |Delimiter|
  }

  /** The property name a property entry stands for. */
  function PropertyName(e: ExtraInfo): string
    requires IsPropertyEntry(e)
  {
    e.name[|PropertiesTag| + |Delimiter|..]
  }

  /** `v` is the content of the last property entry of `infos` for `k`. */
  predicate LastPropertyEntry(infos: seq<ExtraInfo>, k: string, v: Option<string>) {
    exists i :: 0 <= i < |infos| && IsPropertyEntry(infos[i]) && PropertyName(infos[i]) == k && infos[i].content == v
                && forall j :: i < j < |infos| && IsPropertyEntry(infos[j]) ==> PropertyName(infos[j]) != k
  }

  /** `extractPomProperties(List)`: every entry whose name starts with
      `m:properties` contributes the name's text after `m:properties__`
      (Java's `substring(14)`, which throws on a shorter name) with the
      entry's content; a later entry overrides an earlier one. */
  function ExtractPomProperties(infos: seq<ExtraInfo>): (r: Result<map<string, Option<string>>>)
    decreases |infos|
    ensures r.Throws? <==>
              exists i :: 0 <= i < |infos| && StartsWith(infos[i].name, PropertiesTag)
                          && |infos[i].name| < |PropertiesTag| + |Delimiter|
    ensures r.Ok? ==> forall k :: k in r.value <==>
              exists i :: 0 <= i < |infos| && StartsWith(infos[i].name, PropertiesTag)
                          && infos[i].name[|PropertiesTag| + |Delimiter|..] == k
    ensures r.Ok? ==> forall k :: k in r.value ==> LastPropertyEntry(infos, k, r.value[k])
  {
    if |infos| == 0 then Ok(map[])
    else
      var init := infos[..|infos| - 1];
      var e := infos[|infos| - 1];
      assert forall i :: 0 <= i < |init| ==> init[i] == infos[i];
      match ExtractPomProperties(init)
      case Throws(x) => Throws(x)
      case Ok(m) =>
        if !StartsWith(e.name, PropertiesTag) then
          LastPropertyStep(infos, m);
          Ok(m)
        else if |e.name| < |PropertiesTag| + |Delimiter| then Throws(IndexOutOfBounds)
        else
          LastPropertyStep(infos, m);
          Ok(m[e.name[|PropertiesTag| + |Delimiter|..] := e.content])
  }

  /** One more entry: it becomes the last property entry for its own name
      and leaves the last entry of every other name where it was. */
  lemma LastPropertyStep(infos: seq<ExtraInfo>, m: map<string, Option<string>>)
    requires |infos| > 0
    requires forall k :: k in m ==> LastPropertyEntry(infos[..|infos| - 1], k, m[k])
    ensures var e := infos[|infos| - 1];
            var m' := if IsPropertyEntry(e) then m[PropertyName(e) := e.content] else m;
            forall k :: k in m' ==> LastPropertyEntry(infos, k, m'[k])
  {
    var n := |infos| - 1;
    var init := infos[..n];
    var e := infos[n];
    var m' := if IsPropertyEntry(e) then m[PropertyName(e) := e.content] else m;
    forall k | k in m'
      ensures LastPropertyEntry(infos, k, m'[k])
    {
      if IsPropertyEntry(e) && k == PropertyName(e) {
        assert LastPropertyEntry(infos, k, m'[k]) by {
          assert IsPropertyEntry(infos[n]) && PropertyName(infos[n]) == k && infos[n].content == m'[k];
        }
      } else {
        assert LastPropertyEntry(init, k, m[k]);
        var i :| 0 <= i < |init| && IsPropertyEntry(init[i]) && PropertyName(init[i]) == k && init[i].content == m[k]
                 && forall j :: i < j < |init| && IsPropertyEntry(init[j]) ==> PropertyName(init[j]) != k;
        assert infos[i] == init[i];
        forall j | i < j < |infos| && IsPropertyEntry(infos[j])
          ensures PropertyName(infos[j]) != k
        {
          if j < n {
            assert infos[j] == init[j];
          }
        }
      }
    }
  }

  /** A property key always reads back as the property's own name. */
  lemma PropertyKeyRoundTrip(name: string)
    ensures StartsWith(PropertyKey(name), PropertiesTag)
    ensures PropertyKey(name)[|PropertiesTag| + |Delimiter|..] == name
  {
    assert PropertyKey(name) == PropertiesTag + (Delimiter + name);
    StartsWithConcat(PropertiesTag, Delimiter + name);
  }

  /** `addProperty` followed by extraction: a new property shows up with its
      value, and the other properties are unchanged. */
  lemma AddPropertyExtracted(infos: seq<ExtraInfo>, name: string, value: Option<string>, m: map<string, Option<string>>)
    requires ExtractPomProperties(infos) == Ok(m)
    requires !HasName(infos, PropertyKey(name))
    ensures ExtractPomProperties(AddExtraInfo(infos, PropertyKey(name), value)) == Ok(m[name := value])
  {
    FindNone(infos, PropertyKey(name));
    var r := infos + [ExtraInfo(PropertyKey(name), value)];
    assert AddExtraInfo(infos, PropertyKey(name), value) == r;
    assert r[..|r| - 1] == infos;
    PropertyKeyRoundTrip(name);
  }
}

=== FILE: confs.dfy ===
/** The ten Maven-flavoured configurations every POM-derived descriptor
    declares, and the fixed table that maps a Maven scope (plus the optional
    flag) to configuration-mapping rules. */
module Confs {

  /** A configuration of the descriptor: its name and the configurations it extends. */
  datatype Configuration = Configuration(name: string, parents: seq<string>)

  /** `MAVEN2_CONFIGURATIONS`, in declaration order. */
  const Maven2Configurations: seq<Configuration> := [
    Configuration("default", ["runtime", "master"]),
    Configuration("master", []),
    Configuration("compile", []),
    Configuration("provided", []),
    Configuration("runtime", ["compile"]),
    Configuration("test", ["runtime"]),
    Configuration("system", []),
    Configuration("sources", []),
    Configuration("javadoc", []),
    Configuration("optional", [])
  ]

  predicate IsConfName(n: string) {
    exists i :: 0 <= i < |Maven2Configurations| && Maven2Configurations[i].name == n
  }

  /** The number of configurations `c` inherits from, directly or not. */
  function ExtendsDepth(c: string): nat {
    if c == "default" then 2
    else if c == "runtime" then 1
    else if c == "test" then 2
    else 0
  }

  /** The configurations are well formed: names are distinct, every extended
      configuration is declared, and extension never loops (each extended
      configuration sits strictly lower in the hierarchy). */
  lemma ConfigurationsWellFormed()
    ensures forall i, j :: 0 <= i < j < |Maven2Configurations| ==>
              Maven2Configurations[i].name != Maven2Configurations[j].name
    ensures forall i, k :: 0 <= i < |Maven2Configurations| && 0 <= k < |Maven2Configurations[i].parents| ==>
              IsConfName(Maven2Configurations[i].parents[k]) &&
              ExtendsDepth(Maven2Configurations[i].parents[k]) < ExtendsDepth(Maven2Configurations[i].name)
  {
    assert Maven2Configurations[1].name == "master";
    assert Maven2Configurations[2].name == "compile";
    assert Maven2Configurations[4].name == "runtime";
  }

  /** The keys of `MAVEN2_CONF_MAPPING`. */
  predicate IsMappedScope(scope: string) {
    scope == "compile" || scope == "provided" || scope == "runtime" || scope == "test" || scope == "system"
  }

  /** A rule `(owner, depConf)`: the owner configuration of the depending
      module pulls in the dependency's `depConf`. */
  datatype ConfPair = ConfPair(owner: string, depConf: string)

  /** The dependency configurations the rules pull in: every configuration
      `t(*)` of the dependency for one of these four names `t`. */
  predicate IsTargetPattern(depConf: string) {
    depConf == "compile(*)" || depConf == "provided(*)" || depConf == "runtime(*)" || depConf == "master(*)"
  }

  /** Each target pattern names a declared configuration. */
  lemma TargetPatternsDeclared(depConf: string)
    requires IsTargetPattern(depConf)
    ensures exists t :: IsConfName(t) && depConf == t + "(*)"
  {
    assert Maven2Configurations[1].name == "master";
    assert Maven2Configurations[2].name == "compile";
    assert Maven2Configurations[3].name == "provided";
    assert Maven2Configurations[4].name == "runtime";
    if depConf == "compile(*)" {
      assert depConf == "compile" + "(*)";
    } else if depConf == "provided(*)" {
      assert depConf == "provided" + "(*)";
    } else if depConf == "runtime(*)" {
      assert depConf == "runtime" + "(*)";
    } else {
      assert depConf == "master" + "(*)";
    }
  }

  /** The rules the `ConfMapper` of `scope` adds, in order. The mapper has no
      entry for any other scope, so callers must normalise first. */
  function ScopeRules(scope: string, optional: bool): (rules: seq<ConfPair>)
    requires IsMappedScope(scope)
    ensures |rules| > 0
    ensures forall i :: 0 <= i < |rules| ==> IsConfName(rules[i].owner)
    ensures forall i :: 0 <= i < |rules| ==> IsTargetPattern(rules[i].depConf)
    ensures forall i, j :: 0 <= i < j < |rules| ==> rules[i] != rules[j]
    ensures optional && scope != "test" && scope != "system" ==>
              forall i :: 0 <= i < |rules| ==> rules[i].owner == "optional"
    ensures !optional || scope == "test" || scope == "system" ==>
              forall i :: 0 <= i < |rules| ==>
                rules[i].owner == scope || (scope == "compile" && rules[i].owner == "runtime")
  {
    assert Maven2Configurations[1].name == "master";
    assert Maven2Configurations[2].name == "compile";
    assert Maven2Configurations[3].name == "provided";
    assert Maven2Configurations[4].name == "runtime";
    assert Maven2Configurations[5].name == "test";
    assert Maven2Configurations[6].name == "system";
    assert Maven2Configurations[9].name == "optional";
    if scope == "compile" then
      if optional then [ConfPair("optional", "compile(*)"), ConfPair("optional", "master(*)")]
      else [ConfPair("compile", "compile(*)"), ConfPair("compile", "master(*)"), ConfPair("runtime", "runtime(*)")]
    else if scope == "provided" then
      if optional then
        [ConfPair("optional", "compile(*)"), ConfPair("optional", "provided(*)"), ConfPair("optional", "runtime(*)"), ConfPair("optional", "master(*)")]
      else
        [ConfPair("provided", "compile(*)"), ConfPair("provided", "provided(*)"), ConfPair("provided", "runtime(*)"), ConfPair("provided", "master(*)")]
    else if scope == "runtime" then
      if optional then [ConfPair("optional", "compile(*)"), ConfPair("optional", "provided(*)"), ConfPair("optional", "master(*)")]
      else [ConfPair("runtime", "compile(*)"), ConfPair("runtime", "runtime(*)"), ConfPair("runtime", "master(*)")]
    else if scope == "test" then
      [ConfPair("test", "runtime(*)"), ConfPair("test", "master(*)")]
    else
      [ConfPair("system", "master(*)")]
  }

  /** The optional flag makes no difference in the test and system scopes. */
  lemma OptionalIgnoredOutsideMainScopes(scope: string)
    requires scope == "test" || scope == "system"
    ensures ScopeRules(scope, true) == ScopeRules(scope, false)
  {
  }
}

=== FILE: dep_descriptors.dfy ===
/** The parts of a dependency descriptor that `addDependency` builds: the
    configuration mapping, the dependency artifacts and the exclude rules.
    `DefaultDependencyDescriptor` is not part of this model; its three add
    operations are modelled as Ivy implements them: a configuration mapping
    is a list of `(owner, targets)` entries in first-insertion order of the
    owner, where a target already listed for its owner is not added again,
    while artifacts and exclude rules are appended. */
module DepDescriptors {
  import opened Lang
  import opened PomTypes
  import opened Confs
  import opened Seqs

  // ----- Configuration mapping -----

  /** Module configuration `owner` pulls in the dependency's `depConf`. */
  predicate Maps(confs: seq<ConfEntry>, owner: string, depConf: string) {
    exists i :: 0 <= i < |confs| && confs[i].owner == owner && depConf in confs[i].depConfs
  }

  predicate HasOwner(confs: seq<ConfEntry>, owner: string) {
    exists i :: 0 <= i < |confs| && confs[i].owner == owner
  }

  /** The mapping invariant: one entry per owner, no target twice for an owner. */
  predicate WellFormedConfs(confs: seq<ConfEntry>) {
    && (forall i, j :: 0 <= i < j < |confs| ==> confs[i].owner != confs[j].owner)
    && (forall i, p, q :: 0 <= i < |confs| && 0 <= p < q < |confs[i].depConfs| ==>
          confs[i].depConfs[p] != confs[i].depConfs[q])
  }

  /** `getModuleConfigurations`: the owners in first-insertion order. */
  function Owners(confs: seq<ConfEntry>): (r: seq<string>)
    decreases |confs|
    ensures |r| == |confs|
    ensures forall i :: 0 <= i < |confs| ==> r[i] == confs[i].owner
  {
    if |confs| == 0 then [] else Owners(confs[..|confs| - 1]) + [confs[|confs| - 1].owner]
  }

  /** The position of the entry for `owner`, if any. */
  function OwnerIndex(confs: seq<ConfEntry>, owner: string): (r: Option<nat>)
    decreases |confs|
    ensures r.Some? ==> r.value < |confs| && confs[r.value].owner == owner
    ensures r.None? <==> !HasOwner(confs, owner)
  {
    if |confs| == 0 then None
    else if confs[|confs| - 1].owner == owner then Some(|confs| - 1)
    else
      var r := OwnerIndex(confs[..|confs| - 1], owner);
      assert forall i :: 0 <= i < |confs| - 1 ==> confs[..|confs| - 1][i] == confs[i];
      r
  }

  /** The entry list after adding `owner -> depConf`, as Ivy stores it. */
  function InsertRule(confs: seq<ConfEntry>, owner: string, depConf: string): seq<ConfEntry> {
    match OwnerIndex(confs, owner)
    case None => confs + [ConfEntry(owner, [depConf])]
    case Some(k) =>
      if depConf in confs[k].depConfs then confs
      else confs[k := ConfEntry(owner, confs[k].depConfs + [depConf])]
  }

  lemma InsertRuleMaps(confs: seq<ConfEntry>, owner: string, depConf: string)
    ensures forall o, d :: Maps(InsertRule(confs, owner, depConf), o, d) <==> Maps(confs, o, d) || (o == owner && d == depConf)
  {
    var r := InsertRule(confs, owner, depConf);
    match OwnerIndex(confs, owner)
    case None =>
      assert r[|confs|].owner == owner && depConf in r[|confs|].depConfs;
      assert forall i :: 0 <= i < |confs| ==> r[i] == confs[i];
    case Some(k) =>
      if depConf !in confs[k].depConfs {
        forall o, d | Maps(confs, o, d)
          ensures Maps(r, o, d)
        {
          var i :| 0 <= i < |confs| && confs[i].owner == o && d in confs[i].depConfs;
          assert d in r[i].depConfs;
        }
        assert depConf in r[k].depConfs;
      }
  }

  lemma InsertRuleOwners(confs: seq<ConfEntry>, owner: string, depConf: string)
    ensures Owners(InsertRule(confs, owner, depConf)) ==
            if HasOwner(confs, owner) then Owners(confs) else Owners(confs) + [owner]
  {
    var r := InsertRule(confs, owner, depConf);
    if !HasOwner(confs, owner) {
      assert r == confs + [ConfEntry(owner, [depConf])];
      assert forall i :: 0 <= i < |confs| ==> r[i] == confs[i];
    }
  }

  lemma InsertRuleWellFormed(confs: seq<ConfEntry>, owner: string, depConf: string)
    requires WellFormedConfs(confs)
    ensures WellFormedConfs(InsertRule(confs, owner, depConf))
  {
    var r := InsertRule(confs, owner, depConf);
    if !HasOwner(confs, owner) {
      assert forall i :: 0 <= i < |confs| ==> r[i] == confs[i];
    }
  }

  /** `addDependencyConfiguration(owner, depConf)`: the mapping gains exactly
      the rule `owner -> depConf`; the owner list gains `owner` at its end
      when it is new, and is otherwise unchanged; the invariant is kept. */
  function AddDependencyConfiguration(confs: seq<ConfEntry>, owner: string, depConf: string): (r: seq<ConfEntry>)
    ensures forall o, d :: Maps(r, o, d) <==> Maps(confs, o, d) || (o == owner && d == depConf)
    ensures Owners(r) == if HasOwner(confs, owner) then Owners(confs) else Owners(confs) + [owner]
    ensures WellFormedConfs(confs) ==> WellFormedConfs(r)
  {
    InsertRuleMaps(confs, owner, depConf);
    InsertRuleOwners(confs, owner, depConf);
    assert WellFormedConfs(confs) ==> WellFormedConfs(InsertRule(confs, owner, depConf)) by {
      if WellFormedConfs(confs) {
        InsertRuleWellFormed(confs, owner, depConf);
      }
    }
    InsertRule(confs, owner, depConf)
  }

  /** The owners named by a list of rules. */
  function RuleOwners(rules: seq<ConfPair>): set<string> {
    set k | 0 <= k < |rules| :: rules[k].owner
  }

  lemma RuleOwnersSnoc(rules: seq<ConfPair>)
    requires |rules| > 0
    ensures RuleOwners(rules) == RuleOwners(rules[..|rules| - 1]) + {rules[|rules| - 1].owner}
  {
    var init := rules[..|rules| - 1];
    forall o | o in RuleOwners(rules)
      ensures o in RuleOwners(init) || o == rules[|rules| - 1].owner
    {
      var k :| 0 <= k < |rules| && rules[k].owner == o;
      if k < |init| {
        assert init[k] == rules[k];
      }
    }
    forall o | o in RuleOwners(init)
      ensures o in RuleOwners(rules)
    {
      var k :| 0 <= k < |init| && init[k].owner == o;
      assert rules[k] == init[k];
    }
  }

  lemma HasOwnerIffOwner(confs: seq<ConfEntry>, o: string)
    ensures HasOwner(confs, o) <==> o in Owners(confs)
  {
    if o in Owners(confs) {
      var i :| 0 <= i < |confs| && Owners(confs)[i] == o;
    }
  }

  lemma MappingStepOwners(confs: seq<ConfEntry>, rules: seq<ConfPair>, before: seq<ConfEntry>)
    requires |rules| > 0
    requires forall o :: HasOwner(before, o) <==> HasOwner(confs, o) || o in RuleOwners(rules[..|rules| - 1])
    ensures forall o :: HasOwner(AddDependencyConfiguration(before, rules[|rules| - 1].owner, rules[|rules| - 1].depConf), o) <==>
                        HasOwner(confs, o) || o in RuleOwners(rules)
  {
    var last := rules[|rules| - 1];
    var r := AddDependencyConfiguration(before, last.owner, last.depConf);
    RuleOwnersSnoc(rules);
    forall o
      ensures HasOwner(r, o) <==> HasOwner(before, o) || o == last.owner
    {
      HasOwnerIffOwner(r, o);
      HasOwnerIffOwner(before, o);
      HasOwnerIffOwner(before, last.owner);
    }
  }

  lemma MappingStepMaps(confs: seq<ConfEntry>, rules: seq<ConfPair>, before: seq<ConfEntry>)
    requires |rules| > 0
    requires forall o, d :: Maps(before, o, d) <==> Maps(confs, o, d) || ConfPair(o, d) in rules[..|rules| - 1]
    ensures forall o, d :: Maps(AddDependencyConfiguration(before, rules[|rules| - 1].owner, rules[|rules| - 1].depConf), o, d) <==>
                           Maps(confs, o, d) || ConfPair(o, d) in rules
  {
    TakeSnoc(rules);
  }

  lemma MappingStepPrefix(confs: seq<ConfEntry>, before: seq<ConfEntry>, owner: string, depConf: string)
    requires |confs| <= |before| && Owners(before)[..|confs|] == Owners(confs)
    ensures var r := AddDependencyConfiguration(before, owner, depConf);
            |confs| <= |r| && Owners(r)[..|confs|] == Owners(confs)
  {
    var r := AddDependencyConfiguration(before, owner, depConf);
    assert Owners(r)[..|before|] == Owners(before);
    assert Owners(r)[..|confs|] == Owners(before)[..|confs|];
  }

  /** `ConfMapper.addMappingConfs`: every rule added in order. The mapping
      gains exactly the rules; the owner list keeps its prefix and gains
      exactly the new owners of the rules. */
  function AddMappingConfs(confs: seq<ConfEntry>, rules: seq<ConfPair>): (r: seq<ConfEntry>)
    decreases |rules|
    ensures forall o, d :: Maps(r, o, d) <==> Maps(confs, o, d) || ConfPair(o, d) in rules
    ensures forall o :: HasOwner(r, o) <==> HasOwner(confs, o) || o in RuleOwners(rules)
    ensures |confs| <= |r| && Owners(r)[..|confs|] == Owners(confs)
    ensures WellFormedConfs(confs) ==> WellFormedConfs(r)
  {
    if |rules| == 0 then confs
    else
      var last := rules[|rules| - 1];
      var before := AddMappingConfs(confs, rules[..|rules| - 1]);
      MappingStepMaps(confs, rules, before);
      MappingStepOwners(confs, rules, before);
      MappingStepPrefix(confs, before, last.owner, last.depConf);
      AddDependencyConfiguration(before, last.owner, last.depConf)
  }

  // ----- Dependency artifacts -----

  /** `JAR_PACKAGINGS`: packagings whose artifact is a jar file. */
  const JarPackagings: seq<string> :=
    ["ejb", "bundle", "maven-plugin", "eclipse-plugin", "jbi-component", "jbi-shared-library", "orbit", "hk2-jar"]

  /** `isNonDefaultArtifact`: a classifier, or a type other than "jar". */
  predicate IsNonDefaultArtifact(dep: DependencyData) {
    dep.classifier.Some? || (dep.depType.Some? && dep.depType.value != "jar")
  }

  /** `createDefaultArtifact`: the plain jar, attached to no configuration of its own. */
  function DefaultDepArtifact(name: string): DepArtifact {
    DepArtifact(name, "jar", "jar", map[], [])
  }

  /** The extension of a dependency artifact of type `t`. */
  function DepArtifactExt(t: string): string {
    if t == "test-jar" || t in JarPackagings then "jar" else t
  }

  /** The artifact `addDependency` attaches for a non-default dependency: the
      declared type (default "jar"), its extension, and the classifier as the
      `m:classifier` attribute, where a test-jar means classifier "tests"
      unless the declaration names one. */
  function ClassifiedDepArtifact(name: string, dep: DependencyData, conf: string): (a: DepArtifact)
    ensures a.name == name && a.confs == [conf]
    ensures a.artType == dep.depType.GetOr("jar")
    ensures a.ext == "jar" <==> a.artType == "jar" || a.artType == "test-jar" || a.artType in JarPackagings
    ensures a.ext == if a.artType == "test-jar" || a.artType in JarPackagings then "jar" else a.artType
    ensures ClassifierAttribute in a.extra <==> dep.classifier.Some? || a.artType == "test-jar"
    ensures dep.classifier.Some? ==> a.extra[ClassifierAttribute] == dep.classifier.value
    ensures a.extra.Keys <= {ClassifierAttribute}
  {
    var t := dep.depType.GetOr("jar");
    var extra :=
      if dep.classifier.Some? then map[ClassifierAttribute := dep.classifier.value]
      else if t == "test-jar" then map[ClassifierAttribute := "tests"]
      else map[];
    DepArtifact(name, t, DepArtifactExt(t), extra, [conf])
  }

  /** The file an artifact stands for: everything but the configurations. */
  function FileOf(a: DepArtifact): (string, string, string, map<string, string>) {
    (a.name, a.artType, a.ext, a.extra)
  }

  /** `isNonDefaultArtifact` holds exactly when the attached artifact names
      another file than the default jar. */
  lemma NonDefaultIffOtherFile(name: string, dep: DependencyData, conf: string)
    ensures IsNonDefaultArtifact(dep) <==> FileOf(ClassifiedDepArtifact(name, dep, conf)) != FileOf(DefaultDepArtifact(name))
  {
    var a := ClassifiedDepArtifact(name, dep, conf);
    if dep.classifier.Some? {
      assert ClassifierAttribute in a.extra;
    }
  }

  /** A test-jar without a classifier is the "tests" jar. */
  lemma TestJarArtifact(name: string, dep: DependencyData, conf: string)
    requires dep.depType == Some("test-jar") && dep.classifier.None?
    ensures ClassifiedDepArtifact(name, dep, conf) ==
            DepArtifact(name, "test-jar", "jar", map[ClassifierAttribute := "tests"], [conf])
  {
    var a := ClassifiedDepArtifact(name, dep, conf);
    assert a.extra == map[ClassifierAttribute := "tests"] by {
      assert a.extra.Keys == {ClassifierAttribute};
    }
  }

  // ----- Exclusions -----

  /** The exclusion `*:*`, which drops every transitive dependency. */
  const Wildcard := ModuleId("*", "*")

  /** `shouldExcludeAllTransitiveDeps`. */
  function ExcludesAll(excluded: seq<ModuleId>): (r: bool)
    decreases |excluded|
    ensures r <==> Wildcard in excluded
  {
    if |excluded| == 0 then false
    else
      assert excluded == excluded[..|excluded| - 1] + [excluded[|excluded| - 1]];
      excluded[|excluded| - 1] == Wildcard || ExcludesAll(excluded[..|excluded| - 1])
  }

  /** The number of exclusions other than `*:*`. */
  function ConcreteCount(excluded: seq<ModuleId>): nat
    decreases |excluded|
  {
    if |excluded| == 0 then 0
    else ConcreteCount(excluded[..|excluded| - 1]) + (if excluded[|excluded| - 1] == Wildcard then 0 else 1)
  }

  /** One rule per owner for `target`, in owner order. */
  function RulesForModule(owners: seq<string>, target: ModuleId): (r: seq<ExcludeRule>)
    decreases |owners|
    ensures |r| == |owners|
    ensures forall i :: 0 <= i < |owners| ==> r[i] == ExcludeRule(owners[i], target)
  {
    if |owners| == 0 then [] else RulesForModule(owners[..|owners| - 1], target) + [ExcludeRule(owners[|owners| - 1], target)]
  }

  lemma MulSucc(a: nat, c: nat)
    ensures a * (c + 1) == a * c + a
  {
  }

  /** The exclude rules of `addDependency`: for every exclusion but `*:*`, in
      order, one exact-match rule in every owner configuration. A rule is
      emitted exactly for an owner and a concrete excluded module, never for
      the wildcard, and there are `|owners|` of them per concrete exclusion. */
  function RulesFor(excluded: seq<ModuleId>, owners: seq<string>): (r: seq<ExcludeRule>)
    decreases |excluded|
    ensures forall rule :: rule in r <==> rule.conf in owners && rule.target in excluded && rule.target != Wildcard
    ensures |r| == |owners| * ConcreteCount(excluded)
  {
    if |excluded| == 0 then []
    else
      var init := excluded[..|excluded| - 1];
      var t := excluded[|excluded| - 1];
      var before := RulesFor(init, owners);
      TakeSnoc(excluded);
      var added := RulesForModule(owners, t);
      var r := if t == Wildcard then before else before + added;
      forall rule: ExcludeRule | rule in r && rule !in before
        ensures rule.conf in owners && rule.target == t
      {
        assert rule in added;
        var j :| 0 <= j < |added| && added[j] == rule;
        assert owners[j] == rule.conf;
      }
      forall rule: ExcludeRule | rule.conf in owners && rule.target == t && t != Wildcard
        ensures rule in r
      {
        var i :| 0 <= i < |owners| && owners[i] == rule.conf;
        assert r[|before| + i] == rule;
      }
      var cc := ConcreteCount(init);
      assert ConcreteCount(excluded) == cc + (if t == Wildcard then 0 else 1);
      assert |r| == |owners| * ConcreteCount(excluded) by {
        if t != Wildcard {
          MulSucc(|owners|, cc);
        }
      }
      r
  }

  lemma RulesForSnoc(excluded: seq<ModuleId>, k: nat, owners: seq<string>)
    requires k < |excluded|
    ensures RulesFor(excluded[..k + 1], owners) ==
            RulesFor(excluded[..k], owners) + (if excluded[k] == Wildcard then [] else RulesForModule(owners, excluded[k]))
  {
    assert excluded[..k + 1][..k] == excluded[..k];
  }

  lemma RulesForModuleSnoc(owners: seq<string>, i: nat, target: ModuleId)
    requires i < |owners|
    ensures RulesForModule(owners[..i + 1], target) == RulesForModule(owners[..i], target) + [ExcludeRule(owners[i], target)]
  {
    assert owners[..i + 1][..i] == owners[..i];
  }

  /** The nested loops of `addDependency` that emit the exclude rules. */
  method ExcludeRules(excluded: seq<ModuleId>, owners: seq<string>) returns (rules: seq<ExcludeRule>)
    ensures rules == RulesFor(excluded, owners)
  {
    rules := [];
    var k := 0;
    while k < |excluded|
      invariant 0 <= k <= |excluded|
      invariant rules == RulesFor(excluded[..k], owners)
    {
      var target := excluded[k];
      RulesForSnoc(excluded, k, owners);
      if target != Wildcard {
        var before := rules;
        var i := 0;
        while i < |owners|
          invariant 0 <= i <= |owners|
          invariant rules == before + RulesForModule(owners[..i], target)
        {
          RulesForModuleSnoc(owners, i, target);
          AppendAssoc(before, RulesForModule(owners[..i], target), [ExcludeRule(owners[i], target)]);
          rules := rules + [ExcludeRule(owners[i], target)];
          i := i + 1;
        }
        assert owners[..|owners|] == owners;
      }
      k := k + 1;
    }
    assert excluded[..|excluded|] == excluded;
  }

  // ----- The descriptor -----

  /** A new `PomDependencyDescriptor` for `dep`. The source creates it forced
      and not changing; `DepDescriptor` keeps neither flag. */
  function NewPomDescriptor(dep: DependencyData, rid: RevisionId, transitive: bool): DepDescriptor {
    DepDescriptor(rid, transitive, true, Some(dep), [], [], [])
  }

  /** `addDependencyArtifact(conf, a)`. */
  function WithArtifact(dd: DepDescriptor, conf: string, a: DepArtifact): DepDescriptor {
    dd.(artifacts := dd.artifacts + [DepArtifactEntry(conf, a)])
  }
}

=== FILE: extra_infos.dfy ===
/** The descriptor's extra-info store: an ordered list of `(name, content)`
    entries, read by first match on the name, written in one of two modes
    (insert-once and overwrite-or-append). */
module ExtraInfos {
  import opened Lang

  /** An `ExtraInfoHolder`: a named entry whose content may be `null`. */
  datatype ExtraInfo = ExtraInfo(name: string, content: Option<string>)

  predicate HasName(infos: seq<ExtraInfo>, name: string) {
    exists i :: 0 <= i < |infos| && infos[i].name == name
  }

  /** The store invariant: no two entries share a name. */
  predicate UniqueNames(infos: seq<ExtraInfo>) {
    forall i, j :: 0 <= i < j < |infos| ==> infos[i].name != infos[j].name
  }

  /** The position of the first entry at or after `k` named `name`. */
  function FindFrom(infos: seq<ExtraInfo>, name: string, k: nat): (r: Option<nat>)
    decreases |infos| - k
    ensures r.Some? ==> k <= r.value < |infos| && infos[r.value].name == name
    ensures r.Some? ==> forall j :: k <= j < r.value ==> infos[j].name != name
    ensures r.None? ==> forall j :: k <= j < |infos| ==> infos[j].name != name
  {
    if k >= |infos| then None
    else if infos[k].name == name then Some(k)
    else FindFrom(infos, name, k + 1)
  }

  /** `getExtraInfoByTagName`: the position of the first entry named `name`. */
  function Find(infos: seq<ExtraInfo>, name: string): Option<nat> {
    FindFrom(infos, name, 0)
  }

  /** `getExtraInfoContentByTagName`: the content of the first entry named
      `name`, `null` when there is none. */
  function ContentOf(infos: seq<ExtraInfo>, name: string): Option<string> {
    match Find(infos, name)
    case None => None
    case Some(i) => infos[i].content
  }

  lemma FindCharacterized(infos: seq<ExtraInfo>, name: string, i: nat)
    requires i < |infos| && infos[i].name == name
    requires forall j :: 0 <= j < i ==> infos[j].name != name
    ensures Find(infos, name) == Some(i)
  {
  }

  lemma FindNone(infos: seq<ExtraInfo>, name: string)
    ensures Find(infos, name).None? <==> !HasName(infos, name)
  {
  }

  /** Entries with the same names in the same order are searched alike. */
  lemma FindSameNames(a: seq<ExtraInfo>, b: seq<ExtraInfo>, name: string)
    requires |a| == |b|
    requires forall i :: 0 <= i < |a| ==> a[i].name == b[i].name
    ensures Find(a, name) == Find(b, name)
  {
    var r := Find(a, name);
    if r.Some? {
      FindCharacterized(b, name, r.value);
    } else {
      assert !HasName(b, name);
      FindNone(b, name);
    }
  }

  /** An appended entry is found only when no earlier entry has its name. */
  lemma FindAppend(infos: seq<ExtraInfo>, e: ExtraInfo, name: string)
    ensures Find(infos + [e], name) ==
              if HasName(infos, name) then Find(infos, name)
              else if e.name == name then Some(|infos|)
              else None
  {
    var s := infos + [e];
    if HasName(infos, name) {
      var i := Find(infos, name).value;
      FindCharacterized(s, name, i);
    } else if e.name == name {
      FindCharacterized(s, name, |infos|);
    } else {
      assert !HasName(s, name);
      FindNone(s, name);
    }
  }

  lemma ContentOfAppend(infos: seq<ExtraInfo>, e: ExtraInfo, name: string)
    ensures ContentOf(infos + [e], name) ==
              if HasName(infos, name) then ContentOf(infos, name)
              else if e.name == name then e.content
              else None
  {
    FindAppend(infos, e, name);
    FindNone(infos, name);
  }

  /** `addExtraInfo`: appends `(name, content)` unless some entry already has
      that name, in which case nothing changes. */
  function AddExtraInfo(infos: seq<ExtraInfo>, name: string, content: Option<string>): (r: seq<ExtraInfo>)
    ensures HasName(r, name)
    ensures forall n :: HasName(r, n) <==> HasName(infos, n) || n == name
    ensures |infos| <= |r| && r[..|infos|] == infos
    ensures ContentOf(r, name) == if HasName(infos, name) then ContentOf(infos, name) else content
    ensures forall n :: n != name ==> ContentOf(r, n) == ContentOf(infos, n)
    ensures UniqueNames(infos) ==> UniqueNames(r)
  {
    FindNone(infos, name);
    if Find(infos, name).None? then
      var r := infos + [ExtraInfo(name, content)];
      assert r[|infos|].name == name;
      assert forall n :: HasName(r, n) <==> HasName(infos, n) || n == name by {
        forall n
          ensures HasName(r, n) <==> HasName(infos, n) || n == name
        {
          HasNameConcat(infos, [ExtraInfo(name, content)], n);
        }
      }
      assert r[..|infos|] == infos;
      assert forall n :: ContentOf(r, n) == (if HasName(infos, n) then ContentOf(infos, n) else if n == name then content else None) by {
        forall n
          ensures ContentOf(r, n) == (if HasName(infos, n) then ContentOf(infos, n) else if n == name then content else None)
        {
          ContentOfAppend(infos, ExtraInfo(name, content), n);
        }
      }
      assert forall n :: !HasName(infos, n) ==> ContentOf(infos, n) == None by {
        forall n
          ensures !HasName(infos, n) ==> ContentOf(infos, n) == None
        {
          FindNone(infos, n);
        }
      }
      r
    else
      infos
  }

  /** Inserting the same name twice changes nothing the second time. */
  lemma AddExtraInfoIdempotent(infos: seq<ExtraInfo>, name: string, c1: Option<string>, c2: Option<string>)
    ensures AddExtraInfo(AddExtraInfo(infos, name, c1), name, c2) == AddExtraInfo(infos, name, c1)
  {
    var r := AddExtraInfo(infos, name, c1);
    assert HasName(r, name);
    FindNone(r, name);
  }

  /** Every entry named `name` gets `content`; the others are kept. */
  function SetContents(infos: seq<ExtraInfo>, name: string, content: Option<string>): (r: seq<ExtraInfo>)
    ensures |r| == |infos|
    ensures forall i :: 0 <= i < |infos| ==>
              r[i] == (if infos[i].name == name then ExtraInfo(name, content) else infos[i])
  {
    seq(|infos|, i requires 0 <= i < |infos| =>
      if infos[i].name == name then ExtraInfo(name, content) else infos[i])
  }

  /** `overwriteExtraInfoIfExists`: sets the content of every entry named
      `name`, or appends `(name, content)` when there is none; the other
      entries are untouched. */
  function Overwrite(infos: seq<ExtraInfo>, name: string, content: Option<string>): (r: seq<ExtraInfo>)
    ensures |r| == |infos| + (if HasName(infos, name) then 0 else 1)
    ensures forall i :: 0 <= i < |infos| ==>
              r[i] == (if infos[i].name == name then ExtraInfo(name, content) else infos[i])
    ensures !HasName(infos, name) ==> r[|infos|] == ExtraInfo(name, content)
    ensures ContentOf(r, name) == content
    ensures forall n :: n != name ==> ContentOf(r, n) == ContentOf(infos, n)
    ensures UniqueNames(infos) ==> UniqueNames(r)
  {
    var updated := SetContents(infos, name, content);
    forall n
      ensures Find(updated, n) == Find(infos, n)
    {
      FindSameNames(updated, infos, n);
    }
    FindNone(infos, name);
    if Find(infos, name).Some? then
      updated
    else
      var r := updated + [ExtraInfo(name, content)];
      forall n
        ensures ContentOf(r, n) == (if n == name then content else ContentOf(infos, n))
      {
        ContentOfAppend(updated, ExtraInfo(name, content), n);
        FindNone(updated, n);
        FindNone(infos, n);
      }
      r
  }

  lemma HasNameConcat(a: seq<ExtraInfo>, b: seq<ExtraInfo>, name: string)
    ensures HasName(a + b, name) <==> HasName(a, name) || HasName(b, name)
  {
    if HasName(a, name) {
      var j :| 0 <= j < |a| && a[j].name == name;
      assert (a + b)[j] == a[j];
    }
    if HasName(b, name) {
      var j :| 0 <= j < |b| && b[j].name == name;
      assert (a + b)[|a| + j] == b[j];
    }
    if HasName(a + b, name) {
      var j :| 0 <= j < |a + b| && (a + b)[j].name == name;
      if j >= |a| {
        assert b[j - |a|] == (a + b)[j];
      } else {
        assert a[j] == (a + b)[j];
      }
    }
  }

  /** Overwriting a name the store does not hold appends one entry. */
  lemma OverwriteAbsent(infos: seq<ExtraInfo>, name: string, content: Option<string>)
    requires !HasName(infos, name)
    ensures Overwrite(infos, name, content) == infos + [ExtraInfo(name, content)]
  {
    var r := Overwrite(infos, name, content);
    assert forall i :: 0 <= i < |infos| ==> r[i] == infos[i];
  }

  /** Reading from a concatenation: the first part wins when it has the name. */
  lemma ContentOfConcat(a: seq<ExtraInfo>, b: seq<ExtraInfo>, name: string)
    ensures ContentOf(a + b, name) == if HasName(a, name) then ContentOf(a, name) else ContentOf(b, name)
  {
    FindNone(a, name);
    if HasName(a, name) {
      FindCharacterized(a + b, name, Find(a, name).value);
    } else if HasName(b, name) {
      FindNone(b, name);
      var j := Find(b, name).value;
      assert (a + b)[|a| + j] == b[j];
      FindCharacterized(a + b, name, |a| + j);
    } else {
      assert !HasName(a + b, name);
      FindNone(a + b, name);
      FindNone(b, name);
    }
  }

  /** Overwriting with the same name and content twice is the same as once. */
  lemma OverwriteIdempotent(infos: seq<ExtraInfo>, name: string, content: Option<string>)
    ensures Overwrite(Overwrite(infos, name, content), name, content) == Overwrite(infos, name, content)
  {
    var r := Overwrite(infos, name, content);
    var rr := Overwrite(r, name, content);
    assert HasName(r, name) by {
      if !HasName(infos, name) {
        assert r[|infos|].name == name;
      }
    }
    assert |rr| == |r|;
    forall i | 0 <= i < |r|
      ensures rr[i] == r[i]
    {
    }
  }

  /** `addExtraInfos(List)`: inserts each entry once, in order. Read by
      first match, the result answers every name as the old entries followed
      by all the given ones would: an old name keeps its content and a new
      name gets the content of its first occurrence among the given entries. */
  function AddExtraInfos(infos: seq<ExtraInfo>, entries: seq<ExtraInfo>): (r: seq<ExtraInfo>)
    decreases |entries|
    ensures |infos| <= |r| && r[..|infos|] == infos
    ensures UniqueNames(infos) ==> UniqueNames(r)
    ensures forall i :: 0 <= i < |entries| ==> HasName(r, entries[i].name)
    ensures forall n :: HasName(infos, n) ==> ContentOf(r, n) == ContentOf(infos, n)
    ensures forall n :: HasName(r, n) <==> HasName(infos + entries, n)
    ensures forall n :: ContentOf(r, n) == ContentOf(infos + entries, n)
  {
    if |entries| == 0 then
      assert infos + entries == infos;
      infos
    else
      var step := AddExtraInfo(infos, entries[0].name, entries[0].content);
      var r := AddExtraInfos(step, entries[1..]);
      assert r[..|infos|] == r[..|step|][..|infos|];
      forall n
        ensures HasName(r, n) <==> HasName(infos + entries, n)
        ensures ContentOf(r, n) == ContentOf(infos + entries, n)
      {
        InsertOnceStep(infos, step, entries, n);
      }
      ReadAsAppended(infos, entries, r);
      r
  }

  /** A store read as the old entries followed by the given ones holds every
      given name and answers every old name as the old entries do. */
  lemma ReadAsAppended(infos: seq<ExtraInfo>, entries: seq<ExtraInfo>, r: seq<ExtraInfo>)
    requires forall n :: HasName(r, n) <==> HasName(infos + entries, n)
    requires forall n :: ContentOf(r, n) == ContentOf(infos + entries, n)
    ensures forall i :: 0 <= i < |entries| ==> HasName(r, entries[i].name)
    ensures forall n :: HasName(infos, n) ==> ContentOf(r, n) == ContentOf(infos, n)
  {
    forall i | 0 <= i < |entries|
      ensures HasName(r, entries[i].name)
    {
      HasNameConcat(infos, entries, entries[i].name);
    }
    forall n | HasName(infos, n)
      ensures ContentOf(r, n) == ContentOf(infos, n)
    {
      ContentOfConcat(infos, entries, n);
    }
  }

  /** Inserting the first given entry once, then reading the rest after it,
      answers a name as reading all the given entries after the old ones. */
  lemma InsertOnceStep(infos: seq<ExtraInfo>, step: seq<ExtraInfo>, entries: seq<ExtraInfo>, n: string)
    requires |entries| > 0
    requires step == AddExtraInfo(infos, entries[0].name, entries[0].content)
    ensures HasName(step + entries[1..], n) <==> HasName(infos + entries, n)
    ensures ContentOf(step + entries[1..], n) == ContentOf(infos + entries, n)
  {
    var e := entries[0];
    var rest := entries[1..];
    assert entries == [e] + rest;
    assert infos + entries == (infos + [e]) + rest;
    HasNameConcat(step, rest, n);
    HasNameConcat(infos + [e], rest, n);
    HasNameConcat(infos, [e], n);
    ContentOfConcat(step, rest, n);
    ContentOfConcat(infos + [e], rest, n);
    ContentOfAppend(infos, e, n);
  }
}

=== FILE: keyed.dfy ===
/** Walks over a sequence whose elements may carry a key: the map from each
    key to the value of its last element, the results of a fallible function
    of the keys in order, and the count of keyed elements. The flat readers of
    the dependency-management entries are such walks, keyed by the id an
    entry name decodes to; their properties are stated here for any key and
    any value, so that the proofs never unfold the decoding of names. */
module Keyed {
  import opened Lang

  // ----- Definitions -----

  /** How many of the first `i` elements of `xs` carry a key. */
  function CountBefore<T, K>(xs: seq<T>, i: nat, key: T -> Option<K>): nat
    requires i <= |xs|
    decreases i
  {
    if i == 0 then 0 else CountBefore(xs, i - 1, key) + (if key(xs[i - 1]).Some? then 1 else 0)
  }

  /** Each key carried by one of the first `n` elements, mapped to `val` of
      the last such element: a later element overrides an earlier one. */
  function LastValues<T, K, V>(xs: seq<T>, n: nat, key: T -> Option<K>, val: T -> V): map<K, V>
    requires n <= |xs|
    decreases n
  {
    if n == 0 then map[]
    else
      var m := LastValues(xs, n - 1, key, val);
      match key(xs[n - 1])
      case None => m
      case Some(k) => m[k := val(xs[n - 1])]
  }

  /** What `f` gives, in order, for the keys of the first `n` elements; the
      first failure ends the walk. */
  function Results<T, K, V>(xs: seq<T>, n: nat, key: T -> Option<K>, f: K -> Result<V>): Result<seq<V>>
    requires n <= |xs|
    decreases n
  {
    if n == 0 then Ok([])
    else
      match Results(xs, n - 1, key, f)
      case Throws(x) => Throws(x)
      case Ok(rs) =>
        match key(xs[n - 1])
        case None => Ok(rs)
        case Some(k) =>
          match f(k)
          case Throws(x) => Throws(x)
          case Ok(v) => Ok(rs + [v])
  }

  /** `r` with `tail` appended to its value, when it has one. */
  function AppendOk<V>(r: Result<seq<V>>, tail: seq<V>): Result<seq<V>> {
    match r
    case Ok(rs) => Ok(rs + tail)
    case Throws(x) => Throws(x)
  }

  /** `k` copies of `x`. */
  function Repeat<T>(x: T, k: nat): (r: seq<T>)
    ensures |r| == k
    ensures forall i :: 0 <= i < k ==> r[i] == x
  {
    if k == 0 then [] else Repeat(x, k - 1) + [x]
  }

  /** One of the first `n` elements carries `k`. */
  predicate KeyedBefore<T, K(==)>(xs: seq<T>, n: nat, key: T -> Option<K>, k: K) {
    exists i :: 0 <= i < n && i < |xs| && key(xs[i]) == Some(k)
  }

  /** Position `j` is the last of the first `n` that carries `k`. */
  predicate LastKeyed<T, K(==)>(xs: seq<T>, n: nat, key: T -> Option<K>, k: K, j: int) {
    0 <= j < n <= |xs| && key(xs[j]) == Some(k) && forall i :: j < i < n ==> key(xs[i]) != Some(k)
  }

  /** The key of one of the first `n` elements makes `f` fail. */
  predicate SomeFails<T, K, V>(xs: seq<T>, n: nat, key: T -> Option<K>, f: K -> Result<V>) {
    exists i :: 0 <= i < n && i < |xs| && key(xs[i]).Some? && f(key(xs[i]).value).Throws?
  }

  // ----- The map of last values -----

  /** The map holds exactly the keys the elements carry. */
  lemma {:induction false} LastValuesKeys<T, K, V>(xs: seq<T>, n: nat, key: T -> Option<K>, val: T -> V)
    requires n <= |xs|
    ensures forall k :: k in LastValues(xs, n, key, val) <==> KeyedBefore(xs, n, key, k)
    decreases n
  {
    if n > 0 {
      LastValuesKeys(xs, n - 1, key, val);
      forall k | KeyedBefore(xs, n, key, k) && key(xs[n - 1]) != Some(k)
        ensures KeyedBefore(xs, n - 1, key, k)
      {
        var i :| 0 <= i < n && i < |xs| && key(xs[i]) == Some(k);
        assert i < n - 1;
      }
    }
  }

  /** Every key maps to the value of the last element carrying it. */
  lemma {:induction false} LastValuesLast<T, K, V>(xs: seq<T>, n: nat, key: T -> Option<K>, val: T -> V)
    requires n <= |xs|
    ensures forall k :: k in LastValues(xs, n, key, val) ==>
              exists j :: 0 <= j < n && LastKeyed(xs, n, key, k, j) && LastValues(xs, n, key, val)[k] == val(xs[j])
    decreases n
  {
    if n > 0 {
      LastValuesLast(xs, n - 1, key, val);
      var m := LastValues(xs, n - 1, key, val);
      var r := LastValues(xs, n, key, val);
      forall k | k in r
        ensures exists j :: 0 <= j < n && LastKeyed(xs, n, key, k, j) && r[k] == val(xs[j])
      {
        if key(xs[n - 1]) == Some(k) {
          assert LastKeyed(xs, n, key, k, n - 1) && r[k] == val(xs[n - 1]);
        } else {
          var j :| 0 <= j < n - 1 && LastKeyed(xs, n - 1, key, k, j) && m[k] == val(xs[j]);
          assert LastKeyed(xs, n, key, k, j);
        }
      }
    }
  }

  /** Without keyed elements the map is empty. */
  lemma {:induction false} LastValuesNone<T, K, V>(xs: seq<T>, n: nat, key: T -> Option<K>, val: T -> V)
    requires n <= |xs|
    requires forall i :: 0 <= i < n ==> key(xs[i]).None?
    ensures LastValues(xs, n, key, val) == map[]
    decreases n
  {
    if n > 0 {
      LastValuesNone(xs, n - 1, key, val);
    }
  }

  /** A run of elements that all carry `k` leaves `k` with the last one's
      value and every other key as it was. */
  lemma {:induction false} LastValuesRun<T, K, V>(xs: seq<T>, p: nat, n: nat, key: T -> Option<K>, val: T -> V, k: K)
    requires p < n <= |xs|
    requires forall i :: p <= i < n ==> key(xs[i]) == Some(k)
    ensures LastValues(xs, n, key, val) == LastValues(xs, p, key, val)[k := val(xs[n - 1])]
    decreases n
  {
    if n - 1 > p {
      LastValuesRun(xs, p, n - 1, key, val, k);
    }
  }

  /** A store that keeps `xs` in front and then has only elements carrying
      `k` maps `k` to the last one's value and every other key as `xs` does. */
  lemma LastValuesAppended<T, K, V>(xs: seq<T>, all: seq<T>, key: T -> Option<K>, val: T -> V, k: K)
    requires |xs| < |all| && all[..|xs|] == xs[..|xs|]
    requires forall i :: |xs| <= i < |all| ==> key(all[i]) == Some(k)
    ensures LastValues(all, |all|, key, val) == LastValues(xs, |xs|, key, val)[k := val(all[|all| - 1])]
  {
    LastValuesRun(all, |xs|, |all|, key, val, k);
    LastValuesPrefix(all, xs, |xs|, key, val);
  }

  /** The walk over the first `n` elements sees only those elements. */
  lemma {:induction false} LastValuesPrefix<T, K, V>(xs: seq<T>, ys: seq<T>, n: nat, key: T -> Option<K>, val: T -> V)
    requires n <= |xs| && n <= |ys| && xs[..n] == ys[..n]
    ensures LastValues(xs, n, key, val) == LastValues(ys, n, key, val)
    decreases n
  {
    if n > 0 {
      assert xs[n - 1] == xs[..n][n - 1] == ys[n - 1];
      assert xs[..n - 1] == xs[..n][..n - 1];
      assert ys[..n - 1] == ys[..n][..n - 1];
      LastValuesPrefix(xs, ys, n - 1, key, val);
    }
  }

  /** Elements appended after `xs` that all carry `k` carry it in place. */
  lemma KeyedSuffix<T, K>(xs: seq<T>, ys: seq<T>, key: T -> Option<K>, k: K)
    requires forall i :: 0 <= i < |ys| ==> key(ys[i]) == Some(k)
    ensures forall i :: |xs| <= i < |xs + ys| ==> key((xs + ys)[i]) == Some(k)
  {
    forall i | |xs| <= i < |xs + ys|
      ensures key((xs + ys)[i]) == Some(k)
    {
      assert (xs + ys)[i] == ys[i - |xs|];
    }
  }

  // ----- The list of results -----

  /** The walk fails exactly when `f` fails on the key of some element. */
  lemma {:induction false} ResultsThrow<T, K, V>(xs: seq<T>, n: nat, key: T -> Option<K>, f: K -> Result<V>)
    requires n <= |xs|
    ensures Results(xs, n, key, f).Throws? <==> SomeFails(xs, n, key, f)
    decreases n
  {
    if n > 0 {
      ResultsThrow(xs, n - 1, key, f);
      if SomeFails(xs, n, key, f) && Results(xs, n - 1, key, f).Ok? {
        var i :| 0 <= i < n && i < |xs| && key(xs[i]).Some? && f(key(xs[i]).value).Throws?;
        assert i == n - 1;
      }
    }
  }

  /** One result per keyed element. */
  lemma {:induction false} ResultsLength<T, K, V>(xs: seq<T>, n: nat, key: T -> Option<K>, f: K -> Result<V>)
    requires n <= |xs| && Results(xs, n, key, f).Ok?
    ensures |Results(xs, n, key, f).value| == CountBefore(xs, n, key)
    decreases n
  {
    if n > 0 {
      ResultsLength(xs, n - 1, key, f);
    }
  }

  /** The keyed element `i` gives the result at the index that counts the
      keyed elements before it. */
  lemma {:induction false} ResultAt<T, K, V>(xs: seq<T>, n: nat, key: T -> Option<K>, f: K -> Result<V>, i: nat)
    requires i < n <= |xs| && Results(xs, n, key, f).Ok? && key(xs[i]).Some?
    ensures CountBefore(xs, i, key) < |Results(xs, n, key, f).value|
    ensures f(key(xs[i]).value) == Ok(Results(xs, n, key, f).value[CountBefore(xs, i, key)])
    decreases n
  {
    if i < n - 1 {
      ResultAt(xs, n - 1, key, f, i);
    } else {
      ResultsLength(xs, n - 1, key, f);
    }
  }

  /** Every result is what `f` gives for the key of some element. */
  lemma {:induction false} ResultsSound<T, K, V>(xs: seq<T>, n: nat, key: T -> Option<K>, f: K -> Result<V>)
    requires n <= |xs| && Results(xs, n, key, f).Ok?
    ensures forall r :: r in Results(xs, n, key, f).value ==>
              exists i :: 0 <= i < n && key(xs[i]).Some? && f(key(xs[i]).value) == Ok(r)
    decreases n
  {
    if n > 0 {
      ResultsSound(xs, n - 1, key, f);
      var rs := Results(xs, n - 1, key, f).value;
      forall r | r in Results(xs, n, key, f).value
        ensures exists i :: 0 <= i < n && key(xs[i]).Some? && f(key(xs[i]).value) == Ok(r)
      {
        if r !in rs {
          assert key(xs[n - 1]).Some? && f(key(xs[n - 1]).value) == Ok(r);
        }
      }
    }
  }

  /** Without keyed elements there are no results. */
  lemma {:induction false} ResultsNone<T, K, V>(xs: seq<T>, n: nat, key: T -> Option<K>, f: K -> Result<V>)
    requires n <= |xs|
    requires forall i :: 0 <= i < n ==> key(xs[i]).None?
    ensures Results(xs, n, key, f) == Ok([])
    decreases n
  {
    if n > 0 {
      ResultsNone(xs, n - 1, key, f);
    }
  }

  /** A run of elements that all carry `k`, with `f(k) == Ok(v)`, appends
      one `v` per element to whatever the walk before the run gave. */
  lemma {:induction false} ResultsRun<T, K, V>(xs: seq<T>, p: nat, n: nat, key: T -> Option<K>, f: K -> Result<V>, k: K, v: V)
    requires p <= n <= |xs|
    requires forall i :: p <= i < n ==> key(xs[i]) == Some(k)
    requires f(k) == Ok(v)
    ensures Results(xs, n, key, f) == AppendOk(Results(xs, p, key, f), Repeat(v, n - p))
    decreases n
  {
    if n > p {
      ResultsRun(xs, p, n - 1, key, f, k, v);
      if Results(xs, p, key, f).Ok? {
        var rs := Results(xs, p, key, f).value;
        assert rs + Repeat(v, n - 1 - p) + [v] == rs + Repeat(v, n - p);
      }
    } else {
      if Results(xs, p, key, f).Ok? {
        assert Results(xs, p, key, f).value + [] == Results(xs, p, key, f).value;
      }
    }
  }
}

=== FILE: lang.dfy ===
/** Java references that may be `null`, and the unchecked exceptions the
    modelled builder can raise, as plain values. */
module Lang {

  /** A Java reference that may be `null` (`None`). */
  datatype Option<T> = None | Some(value: T) {

    /** The value, or `default` when it is `null`. */
    function GetOr(default: T): T {
      if Some? then value else default
    }
  }

  /** The unchecked exceptions the modelled code can raise. */
  datatype JavaException =
    | NullPointer       // a method called on a `null` string
    | IndexOutOfBounds  // an array or substring index past the end

  /** The outcome of a call that returns normally or throws. */
  datatype Result<T> = Ok(value: T) | Throws(exception: JavaException)

  /** `StringUtils.isNullOrEmpty`. */
  predicate IsNullOrEmpty(s: Option<string>) {
    s.None? || s.value == ""
  }

  /** What Java string concatenation writes for a possibly-`null` string. */
  function NullText(s: Option<string>): string {
    if s.Some? then s.value else "null"
  }
}

/** Facts about sequences stated for any element type, so that using them
    never looks inside the elements. */
module Seqs {

  lemma AppendAssoc<T>(a: seq<T>, b: seq<T>, c: seq<T>)
    ensures a + b + c == a + (b + c)
  {
  }

  lemma AppendTwo<T>(a: seq<T>, x: T, y: T)
    ensures a + [x] + [y] == a + [x, y]
  {
  }

  lemma TakeAppend<T>(a: seq<T>, b: seq<T>)
    ensures (a + b)[..|a|] == a
    ensures (a + b)[|a|..] == b
  {
  }

  lemma TakeSnoc<T>(a: seq<T>)
    requires |a| > 0
    ensures a[..|a| - 1] + [a[|a| - 1]] == a
  {
  }
}

=== FILE: management.dfy ===
/** Dependency management: the `PomModuleDescriptor`'s map of management
    records, the flat extra-info entries `addDependencyMgt` writes next to it,
    and the readers that recover version, scope and exclusions from either
    source. A reader is given a `View` of the descriptor it inspects: a
    POM-derived descriptor offers its management map, any other descriptor
    only its extra infos. */
module Management {
  import opened Lang
  import opened Text
  import opened ExtraInfos
  import opened PomTypes
  import opened Codec
  import opened Confs
  import opened Keyed

  // ----- The management map (a `LinkedHashMap` keyed by classified id) -----

  /** The position of the first record at or after `k` with classified id `id`. */
  function MgtIndexFrom(mgts: seq<DependencyMgt>, id: ClassifiedId, k: nat): (r: Option<nat>)
    decreases |mgts| - k
    ensures r.Some? ==> k <= r.value < |mgts| && mgts[r.value].Id() == id
    ensures r.Some? ==> forall j :: k <= j < r.value ==> mgts[j].Id() != id
    ensures r.None? ==> forall j :: k <= j < |mgts| ==> mgts[j].Id() != id
  {
    if k >= |mgts| then None
    else if mgts[k].Id() == id then Some(k)
    else MgtIndexFrom(mgts, id, k + 1)
  }

  function MgtIndex(mgts: seq<DependencyMgt>, id: ClassifiedId): Option<nat> {
    MgtIndexFrom(mgts, id, 0)
  }

  /** `getDependencyManagementMap().get(id)`. */
  function MgtLookup(mgts: seq<DependencyMgt>, id: ClassifiedId): Option<DependencyMgt> {
    match MgtIndex(mgts, id)
    case None => None
    case Some(i) => Some(mgts[i])
  }

  /** The map invariant: one record per classified id. */
  predicate UniqueIds(mgts: seq<DependencyMgt>) {
    forall i, j :: 0 <= i < j < |mgts| ==> mgts[i].Id() != mgts[j].Id()
  }

  lemma MgtIndexCharacterized(mgts: seq<DependencyMgt>, id: ClassifiedId, i: nat)
    requires i < |mgts| && mgts[i].Id() == id
    requires forall j :: 0 <= j < i ==> mgts[j].Id() != id
    ensures MgtIndex(mgts, id) == Some(i)
  {
  }

  /** Records with the same ids in the same order are looked up at the same positions. */
  lemma MgtIndexSameIds(a: seq<DependencyMgt>, b: seq<DependencyMgt>, id: ClassifiedId)
    requires |a| == |b|
    requires forall i :: 0 <= i < |a| ==> a[i].Id() == b[i].Id()
    ensures MgtIndex(a, id) == MgtIndex(b, id)
  {
    var r := MgtIndex(a, id);
    if r.Some? {
      MgtIndexCharacterized(b, id, r.value);
    }
  }

  /** `addDependencyManagement`: `LinkedHashMap.put` keyed by the record's
      classified id. A record with a known id replaces the old one in its
      place; a record with a new id goes at the end. */
  function PutMgt(mgts: seq<DependencyMgt>, m: DependencyMgt): (r: seq<DependencyMgt>)
    ensures MgtLookup(r, m.Id()) == Some(m)
    ensures forall id :: id != m.Id() ==> MgtLookup(r, id) == MgtLookup(mgts, id)
    ensures |r| == |mgts| + (if MgtLookup(mgts, m.Id()).Some? then 0 else 1)
    ensures UniqueIds(mgts) ==> UniqueIds(r)
  {
    match MgtIndex(mgts, m.Id())
    case Some(i) =>
      var r := mgts[i := m];
      forall id
        ensures MgtIndex(r, id) == MgtIndex(mgts, id)
      {
        MgtIndexSameIds(r, mgts, id);
      }
      r
    case None =>
      var r := mgts + [m];
      MgtIndexCharacterized(r, m.Id(), |mgts|);
      forall id | id != m.Id()
        ensures MgtLookup(r, id) == MgtLookup(mgts, id)
      {
        var k := MgtIndex(mgts, id);
        if k.Some? {
          MgtIndexCharacterized(r, id, k.value);
        } else {
          assert MgtIndexFrom(r, id, 0).None?;
        }
      }
      r
  }

  // ----- What `addDependencyMgt` writes into the extra infos -----

  /** The exclusion entries for `excluded`, the `k`-th under `exclusion_k`. */
  function ExclusionEntries(groupId: string, artifactId: string, classifier: Option<string>, excluded: seq<ModuleId>): (es: seq<ExtraInfo>)
    ensures |es| == |excluded|
    ensures forall k :: 0 <= k < |excluded| ==>
              es[k] == ExtraInfo(ExclusionKey(groupId, artifactId, classifier, k), Some(ExclusionContent(excluded[k])))
    decreases |excluded|
  {
    if |excluded| == 0 then []
    else
      var n := |excluded| - 1;
      ExclusionEntries(groupId, artifactId, classifier, excluded[..n])
        + [ExtraInfo(ExclusionKey(groupId, artifactId, classifier, n), Some(ExclusionContent(excluded[n])))]
  }

  /** The exclusion loop of `addDependencyMgt`: the `k`-th excluded module is
      written, in overwrite mode, under `exclusion_k`. */
  function WriteExclusions(infos: seq<ExtraInfo>, groupId: string, artifactId: string, classifier: Option<string>, excluded: seq<ModuleId>): (r: seq<ExtraInfo>)
    decreases |excluded|
    ensures |infos| <= |r|
  {
    if |excluded| == 0 then infos
    else
      var n := |excluded| - 1;
      Overwrite(WriteExclusions(infos, groupId, artifactId, classifier, excluded[..n]),
                ExclusionKey(groupId, artifactId, classifier, n), Some(ExclusionContent(excluded[n])))
  }

  /** The field writes of `addDependencyMgt`: the version (always, `null`
      included), then the scope when there is one, each in overwrite mode. */
  function WriteMgtFields(infos: seq<ExtraInfo>, m: DependencyMgt): (r: seq<ExtraInfo>)
    ensures |infos| <= |r|
  {
    var withVersion := Overwrite(infos, VersionKey(m.groupId, m.artifactId, m.classifier), m.version);
    if m.scope.Some? then Overwrite(withVersion, ScopeKey(m.groupId, m.artifactId, m.classifier), m.scope)
    else withVersion
  }

  /** Everything `addDependencyMgt` writes into the extra infos: the fields,
      then the exclusions. */
  function WriteMgtInfos(infos: seq<ExtraInfo>, m: DependencyMgt): (r: seq<ExtraInfo>)
    ensures |infos| <= |r|
  {
    WriteExclusions(WriteMgtFields(infos, m), m.groupId, m.artifactId, m.classifier, m.excluded)
  }

  /** The version entry, then the scope entry when there is a scope. */
  function MgtFieldEntries(m: DependencyMgt): seq<ExtraInfo> {
    if m.scope.Some? then
      [ExtraInfo(VersionKey(m.groupId, m.artifactId, m.classifier), m.version),
       ExtraInfo(ScopeKey(m.groupId, m.artifactId, m.classifier), m.scope)]
    else
      [ExtraInfo(VersionKey(m.groupId, m.artifactId, m.classifier), m.version)]
  }

  /** The entries `WriteMgtInfos` appends to a store that holds none of them. */
  function MgtEntries(m: DependencyMgt): seq<ExtraInfo> {
    MgtFieldEntries(m) + ExclusionEntries(m.groupId, m.artifactId, m.classifier, m.excluded)
  }

  // ----- Readers -----

  /** The descriptor a reader inspects. */
  datatype View =
    | PomView(mgts: seq<DependencyMgt>, infos: seq<ExtraInfo>)  // a `PomModuleDescriptor`
    | GenericView(infos: seq<ExtraInfo>)                        // any other module descriptor

  /** Some entry whose name starts with `prefix` has a content naming `m`. */
  predicate NamedByEntry(infos: seq<ExtraInfo>, prefix: string, m: ModuleId) {
    exists i :: 0 <= i < |infos| && StartsWith(infos[i].name, prefix) && infos[i].content.Some?
                && DecodeExclusion(infos[i].content.value) == Some(m)
  }

  /** The exclusion scan of `getDependencyMgtExclusions`: every entry whose
      name starts with `prefix` contributes the module its content names; a
      content that does not split into two parts is skipped (and logged),
      and a `null` content makes the split throw. */
  function ScanExclusions(infos: seq<ExtraInfo>, prefix: string): (r: Result<seq<ModuleId>>)
    decreases |infos|
    ensures r.Throws? <==> exists i :: 0 <= i < |infos| && StartsWith(infos[i].name, prefix) && infos[i].content.None?
  {
    if |infos| == 0 then Ok([])
    else
      var init := infos[..|infos| - 1];
      var e := infos[|infos| - 1];
      assert forall i :: 0 <= i < |init| ==> init[i] == infos[i];
      match ScanExclusions(init, prefix)
      case Throws(x) => Throws(x)
      case Ok(xs) =>
        if !StartsWith(e.name, prefix) then Ok(xs)
        else if e.content.None? then Throws(NullPointer)
        else match DecodeExclusion(e.content.value)
          case None => Ok(xs)
          case Some(excl) => Ok(xs + [excl])
  }

  /** One step of the scan: the last entry adds its module, or nothing. */
  lemma ScanExclusionsStep(infos: seq<ExtraInfo>, prefix: string)
    requires |infos| > 0 && ScanExclusions(infos, prefix).Ok?
    ensures ScanExclusions(infos[..|infos| - 1], prefix).Ok?
    ensures StartsWith(infos[|infos| - 1].name, prefix) ==> infos[|infos| - 1].content.Some?
    ensures ScanExclusions(infos, prefix).value ==
              ScanExclusions(infos[..|infos| - 1], prefix).value +
              (if StartsWith(infos[|infos| - 1].name, prefix)
                  && DecodeExclusion(infos[|infos| - 1].content.value).Some?
               then [DecodeExclusion(infos[|infos| - 1].content.value).value] else [])
  {
  }

  /** Every module the scan returns comes from a matching entry. */
  lemma {:induction false} ScanExclusionsSound(infos: seq<ExtraInfo>, prefix: string)
    requires ScanExclusions(infos, prefix).Ok?
    ensures forall k :: 0 <= k < |ScanExclusions(infos, prefix).value| ==>
              NamedByEntry(infos, prefix, ScanExclusions(infos, prefix).value[k])
    decreases |infos|
  {
    if |infos| > 0 {
      var n := |infos| - 1;
      var init := infos[..n];
      ScanExclusionsStep(infos, prefix);
      ScanExclusionsSound(init, prefix);
      var xs := ScanExclusions(init, prefix).value;
      var r := ScanExclusions(infos, prefix).value;
      forall k | 0 <= k < |r|
        ensures NamedByEntry(infos, prefix, r[k])
      {
        if k < |xs| {
          assert r[k] == xs[k];
          assert NamedByEntry(init, prefix, xs[k]);
          var i :| 0 <= i < |init| && StartsWith(init[i].name, prefix) && init[i].content.Some?
                   && DecodeExclusion(init[i].content.value) == Some(xs[k]);
          assert infos[i] == init[i];
        } else {
          assert r[k] == DecodeExclusion(infos[n].content.value).value;
        }
      }
    }
  }

  /** Every matching entry has a content, and contributes its module when
      that content splits into two parts. */
  lemma {:induction false} ScanExclusionsComplete(infos: seq<ExtraInfo>, prefix: string)
    requires ScanExclusions(infos, prefix).Ok?
    ensures forall i :: 0 <= i < |infos| && StartsWith(infos[i].name, prefix) ==>
              infos[i].content.Some? &&
              (DecodeExclusion(infos[i].content.value).Some? ==>
                 DecodeExclusion(infos[i].content.value).value in ScanExclusions(infos, prefix).value)
    decreases |infos|
  {
    if |infos| > 0 {
      var n := |infos| - 1;
      var init := infos[..n];
      ScanExclusionsStep(infos, prefix);
      ScanExclusionsComplete(init, prefix);
      var xs := ScanExclusions(init, prefix).value;
      var r := ScanExclusions(infos, prefix).value;
      assert forall x :: x in xs ==> x in r;
      forall i | 0 <= i < |infos| && StartsWith(infos[i].name, prefix)
        ensures infos[i].content.Some?
        ensures DecodeExclusion(infos[i].content.value).Some? ==> DecodeExclusion(infos[i].content.value).value in r
      {
        if i < n {
          assert infos[i] == init[i];
        }
      }
    }
  }

  /** `getDependencyMgtExclusions`: the excluded modules of the managed record
      for `(groupId, artifactId, classifier)` when the descriptor is
      POM-derived and has one. Otherwise the exclusion entries of the extra
      infos are scanned: the read throws exactly when one of them is `null`,
      and else every module returned is named by one of them and every one
      of them that names a module contributes it. */
  function Exclusions(view: View, groupId: string, artifactId: string, classifier: Option<string>): (r: Result<seq<ModuleId>>)
    ensures view.PomView? && MgtLookup(view.mgts, ClassifiedId(groupId, artifactId, classifier)).Some? ==>
              r == Ok(MgtLookup(view.mgts, ClassifiedId(groupId, artifactId, classifier)).value.excluded)
    ensures var prefix := ExclusionPrefix(groupId, artifactId, classifier);
            (view.GenericView? || MgtLookup(view.mgts, ClassifiedId(groupId, artifactId, classifier)).None?) ==>
              && (r.Throws? <==> exists i :: 0 <= i < |view.infos| && StartsWith(view.infos[i].name, prefix) && view.infos[i].content.None?)
              && (r.Ok? ==> forall k :: 0 <= k < |r.value| ==> NamedByEntry(view.infos, prefix, r.value[k]))
              && (r.Ok? ==> forall i :: 0 <= i < |view.infos| && StartsWith(view.infos[i].name, prefix)
                                        && DecodeExclusion(view.infos[i].content.value).Some? ==>
                                          DecodeExclusion(view.infos[i].content.value).value in r.value)
  {
    if view.PomView? && MgtLookup(view.mgts, ClassifiedId(groupId, artifactId, classifier)).Some? then
      Ok(MgtLookup(view.mgts, ClassifiedId(groupId, artifactId, classifier)).value.excluded)
    else
      var prefix := ExclusionPrefix(groupId, artifactId, classifier);
      var r := ScanExclusions(view.infos, prefix);
      if r.Ok? then
        ScanExclusionsSound(view.infos, prefix);
        ScanExclusionsComplete(view.infos, prefix);
        r
      else
        r
  }

  /** The classified id an entry stands for in the flat readers: its name
      starts with the management tag and splits into five parts. */
  function MgtEntryId(e: ExtraInfo): Option<ClassifiedId> {
    if StartsWith(e.name, DependencyManagementTag) then DecodeMgtKey(e.name) else None
  }

  /** The content of an entry, as the flat map stores it. */
  function EntryContent(e: ExtraInfo): Option<string> {
    e.content
  }

  /** The flat branch of `getDependencyManagementMap`: each five-part
      management entry puts its content under the id its key decodes to, so
      for one id the LAST such entry wins, whatever field (version, scope or
      exclusion) it was written for. Keys with another part count are skipped. */
  function FlatMgtMap(infos: seq<ExtraInfo>): map<ClassifiedId, Option<string>> {
    LastValues(infos, |infos|, MgtEntryId, EntryContent)
  }

  /** The flat map holds exactly the ids some five-part management entry names. */
  lemma FlatMgtMapKeys(infos: seq<ExtraInfo>)
    ensures forall id :: id in FlatMgtMap(infos) <==> exists i :: 0 <= i < |infos| && MgtEntryId(infos[i]) == Some(id)
  {
    LastValuesKeys(infos, |infos|, MgtEntryId, EntryContent);
    assert forall id :: KeyedBefore(infos, |infos|, MgtEntryId, id) <==>
      exists i :: 0 <= i < |infos| && MgtEntryId(infos[i]) == Some(id);
  }

  /** The structured branch of `getDependencyManagementMap`: each managed id
      with its record's version. */
  function MgtVersions(mgts: seq<DependencyMgt>): (r: map<ClassifiedId, Option<string>>)
    decreases |mgts|
    ensures forall id :: id in r <==> MgtLookup(mgts, id).Some?
    ensures forall id :: id in r ==> r[id] == MgtLookup(mgts, id).value.version
  {
    if |mgts| == 0 then map[]
    else
      var init := mgts[..|mgts| - 1];
      var last := mgts[|mgts| - 1];
      var m := MgtVersions(init);
      forall id
        ensures MgtLookup(mgts, id) ==
                  if MgtLookup(init, id).Some? then MgtLookup(init, id)
                  else if last.Id() == id then Some(last) else None
      {
        var k := MgtIndex(init, id);
        if k.Some? {
          MgtIndexCharacterized(mgts, id, k.value);
        } else if last.Id() == id {
          MgtIndexCharacterized(mgts, id, |init|);
        } else {
          assert forall j :: 0 <= j < |mgts| ==> mgts[j].Id() != id by {
            assert forall j :: 0 <= j < |init| ==> init[j] == mgts[j];
          }
        }
      }
      if last.Id() in m then m else m[last.Id() := last.version]
  }


  /** `v` is the content of the last five-part management entry of `infos`
      naming `id`. */
  predicate LastMgtEntry(infos: seq<ExtraInfo>, id: ClassifiedId, v: Option<string>) {
    exists j :: 0 <= j < |infos| && LastKeyed(infos, |infos|, MgtEntryId, id, j) && infos[j].content == v
  }

  /** Every id of the flat map holds the content of its last entry. */
  lemma FlatMgtMapValues(infos: seq<ExtraInfo>)
    ensures forall id :: id in FlatMgtMap(infos) ==> LastMgtEntry(infos, id, FlatMgtMap(infos)[id])
  {
    LastValuesLast(infos, |infos|, MgtEntryId, EntryContent);
    forall id | id in FlatMgtMap(infos)
      ensures LastMgtEntry(infos, id, FlatMgtMap(infos)[id])
    {
      var j :| 0 <= j < |infos| && LastKeyed(infos, |infos|, MgtEntryId, id, j)
               && FlatMgtMap(infos)[id] == EntryContent(infos[j]);
    }
  }


  /** `getDependencyManagementMap`: for a POM-derived descriptor, each
      managed id with its record's version; otherwise each id a five-part
      management entry names, with the content of the last such entry. */
  function DependencyManagementMap(view: View): (r: map<ClassifiedId, Option<string>>)
    ensures view.PomView? ==> forall id :: id in r <==> MgtLookup(view.mgts, id).Some?
    ensures view.PomView? ==> forall id :: id in r ==> r[id] == MgtLookup(view.mgts, id).value.version
    ensures view.GenericView? ==> forall id :: id in r <==> exists i :: 0 <= i < |view.infos| && MgtEntryId(view.infos[i]) == Some(id)
    ensures view.GenericView? ==> forall id :: id in r ==> LastMgtEntry(view.infos, id, r[id])
  {
    match view
    case PomView(mgts, _) => MgtVersions(mgts)
    case GenericView(infos) =>
      FlatMgtMapKeys(infos);
      FlatMgtMapValues(infos);
      FlatMgtMap(infos)
  }


  /** The record the flat branch of `getDependencyManagements` builds for a
      five-part key naming `id`: version and scope are read back through the
      rebuilt keys, exclusions through `getDependencyMgtExclusions` (which
      scans, the descriptor not being POM-derived), and the classifier is not
      carried over. */
  function FlatRecord(infos: seq<ExtraInfo>, id: ClassifiedId): Result<DependencyMgt> {
    var version := ContentOf(infos, VersionKey(id.group, id.artifact, id.classifier));
    var scope := ContentOf(infos, ScopeKey(id.group, id.artifact, id.classifier));
    match Exclusions(GenericView(infos), id.group, id.artifact, id.classifier)
    case Throws(x) => Throws(x)
    case Ok(excluded) => Ok(DependencyMgt(id.group, id.artifact, version, scope, None, excluded))
  }

  /** The flat record of an id, read from `all`. */
  function RecordOf(all: seq<ExtraInfo>): ClassifiedId -> Result<DependencyMgt> {
    id => FlatRecord(all, id)
  }

  /** The number of five-part management entries among the first `i` of `infos`. */
  function EntriesBefore(infos: seq<ExtraInfo>, i: nat): nat
    requires i <= |infos|
  {
    CountBefore(infos, i, MgtEntryId)
  }

  /** `rec` is the flat record of one of the first `n` entries of `all`. */
  predicate RecordOfEntry(all: seq<ExtraInfo>, n: nat, rec: DependencyMgt) {
    exists i :: 0 <= i < n && i < |all| && MgtEntryId(all[i]).Some? && FlatRecord(all, MgtEntryId(all[i]).value) == Ok(rec)
  }

  /** The record of one of the first `n` entries of `all` that are five-part
      management entries throws. */
  predicate RecordThrowsBefore(all: seq<ExtraInfo>, n: nat) {
    SomeFails(all, n, MgtEntryId, RecordOf(all))
  }

  /** The flat branch of `getDependencyManagements` over the first `n`
      entries of `all`: one record per five-part management key, in store
      order, so a managed module with a version, a scope and two exclusions
      yields four records; the first record that throws ends the walk. */
  function FlatRecords(all: seq<ExtraInfo>, n: nat): Result<seq<DependencyMgt>>
    requires n <= |all|
  {
    Results(all, n, MgtEntryId, RecordOf(all))
  }

  /** The flat records, when they can all be read, are as many as the
      management entries and each is the record of one of those entries. */
  lemma FlatRecordsShape(all: seq<ExtraInfo>, n: nat)
    requires n <= |all|
    ensures FlatRecords(all, n).Ok? ==> |FlatRecords(all, n).value| == EntriesBefore(all, n)
    ensures FlatRecords(all, n).Ok? ==>
              forall k :: 0 <= k < |FlatRecords(all, n).value| ==> RecordOfEntry(all, n, FlatRecords(all, n).value[k])
  {
    if FlatRecords(all, n).Ok? {
      var rs := FlatRecords(all, n).value;
      ResultsLength(all, n, MgtEntryId, RecordOf(all));
      ResultsSound(all, n, MgtEntryId, RecordOf(all));
      forall k | 0 <= k < |rs|
        ensures RecordOfEntry(all, n, rs[k])
      {
        assert rs[k] in rs;
        var i :| 0 <= i < n && MgtEntryId(all[i]).Some? && RecordOf(all)(MgtEntryId(all[i]).value) == Ok(rs[k]);
        assert RecordOf(all)(MgtEntryId(all[i]).value) == FlatRecord(all, MgtEntryId(all[i]).value);
      }
    }
  }

  /** The flat records of the first `n` entries throw exactly when the
      record of one of their five-part entries throws. */
  lemma FlatRecordsThrow(all: seq<ExtraInfo>, n: nat)
    requires n <= |all|
    ensures FlatRecords(all, n).Throws? <==> RecordThrowsBefore(all, n)
  {
    ResultsThrow(all, n, MgtEntryId, RecordOf(all));
  }

  /** Position by position: the five-part entry `i` gives the record at the
      index that counts the five-part entries before it. */
  lemma FlatRecordsPositions(all: seq<ExtraInfo>, n: nat)
    requires n <= |all|
    requires FlatRecords(all, n).Ok?
    ensures forall i :: 0 <= i < n && MgtEntryId(all[i]).Some? ==>
              EntriesBefore(all, i) < |FlatRecords(all, n).value|
              && FlatRecord(all, MgtEntryId(all[i]).value) == Ok(FlatRecords(all, n).value[EntriesBefore(all, i)])
  {
    forall i | 0 <= i < n && MgtEntryId(all[i]).Some?
      ensures EntriesBefore(all, i) < |FlatRecords(all, n).value|
      ensures FlatRecord(all, MgtEntryId(all[i]).value) == Ok(FlatRecords(all, n).value[EntriesBefore(all, i)])
    {
      ResultAt(all, n, MgtEntryId, RecordOf(all), i);
      assert RecordOf(all)(MgtEntryId(all[i]).value) == FlatRecord(all, MgtEntryId(all[i]).value);
    }
  }

  /** `getDependencyManagements`: the management records in insertion order
      for a POM-derived descriptor, otherwise the flat records. */
  function DependencyManagements(view: View): Result<seq<DependencyMgt>> {
    match view
    case PomView(mgts, _) => Ok(mgts)
    case GenericView(infos) => FlatRecords(infos, |infos|)
  }

  /** Read from the extra infos, the list throws exactly when the record of
      some five-part management entry throws; otherwise it holds one record
      per such entry, in store order: entry `i` gives the record at the
      index that counts the five-part entries before it. */
  lemma DependencyManagementsFlat(infos: seq<ExtraInfo>)
    ensures DependencyManagements(GenericView(infos)).Throws? <==> RecordThrowsBefore(infos, |infos|)
    ensures DependencyManagements(GenericView(infos)).Ok? ==>
              |DependencyManagements(GenericView(infos)).value| == EntriesBefore(infos, |infos|)
    ensures DependencyManagements(GenericView(infos)).Ok? ==>
              forall k :: 0 <= k < |DependencyManagements(GenericView(infos)).value| ==>
                RecordOfEntry(infos, |infos|, DependencyManagements(GenericView(infos)).value[k])
    ensures DependencyManagements(GenericView(infos)).Ok? ==>
              forall i :: 0 <= i < |infos| && MgtEntryId(infos[i]).Some? ==>
                EntriesBefore(infos, i) < |DependencyManagements(GenericView(infos)).value|
                && FlatRecord(infos, MgtEntryId(infos[i]).value) ==
                     Ok(DependencyManagements(GenericView(infos)).value[EntriesBefore(infos, i)])
  {
    FlatRecordsShape(infos, |infos|);
    FlatRecordsThrow(infos, |infos|);
    if FlatRecords(infos, |infos|).Ok? {
      FlatRecordsPositions(infos, |infos|);
    }
  }


  // ----- Defaults for a dependency declaration -----

  /** `getDefaultVersion`: the managed record's version, or else the flat
      version entry (`null` when there is neither). */
  function DefaultVersion(mgts: seq<DependencyMgt>, infos: seq<ExtraInfo>, dep: DependencyData): (r: Option<string>)
    ensures MgtLookup(mgts, dep.Id()).Some? ==> r == MgtLookup(mgts, dep.Id()).value.version
    ensures MgtLookup(mgts, dep.Id()).None? ==> r == ContentOf(infos, VersionKey(dep.groupId, dep.artifactId, dep.classifier))
  {
    match MgtLookup(mgts, dep.Id())
    case Some(m) => m.version
    case None => ContentOf(infos, VersionKey(dep.groupId, dep.artifactId, dep.classifier))
  }

  /** `getDefaultScope`: the managed scope (from the record, or else the flat
      scope entry), replaced by "compile" when it is `null` or not one of the
      five mapped scopes. */
  function DefaultScope(mgts: seq<DependencyMgt>, infos: seq<ExtraInfo>, dep: DependencyData): (r: string)
    ensures IsMappedScope(r)
    ensures var managed := if MgtLookup(mgts, dep.Id()).Some? then MgtLookup(mgts, dep.Id()).value.scope
                           else ContentOf(infos, ScopeKey(dep.groupId, dep.artifactId, dep.classifier));
            r == if managed.Some? && IsMappedScope(managed.value) then managed.value else "compile"
  {
    var managed := match MgtLookup(mgts, dep.Id())
      case Some(m) => m.scope
      case None => ContentOf(infos, ScopeKey(dep.groupId, dep.artifactId, dep.classifier));
    if managed.None? || !IsMappedScope(managed.value) then "compile" else managed.value
  }
}

=== FILE: mgt_round_trip.dfy ===
/** What the flat readers recover from the entries `addDependencyMgt` writes.
    The version reads back whatever the store held; the scope reads back when
    one was written; the exclusions read back when no other entry sits under
    the module's exclusion prefix. When the store held none of the module's
    keys, the flat map sets the module's id to the content of the last entry
    written and keeps every other id, and the flat record list gains one
    record of the module per entry written. */
module MgtRoundTrip {
  import opened Lang
  import opened Text
  import opened ExtraInfos
  import opened PomTypes
  import opened Codec
  import opened Management
  import opened Seqs
  import opened Keyed
  import opened Confs

  /** No entry of the store is a dependency-management entry. */
  predicate NoMgtNames(infos: seq<ExtraInfo>) {
    forall i :: 0 <= i < |infos| ==> !StartsWith(infos[i].name, DependencyManagementTag)
  }

  /** A management key is not held by a store without management entries. */
  lemma UntaggedStoreLacks(infos: seq<ExtraInfo>, name: string)
    requires NoMgtNames(infos) && StartsWith(name, DependencyManagementTag)
    ensures !HasName(infos, name)
  {
  }

  /** No entry of the store sits under the exclusion prefix of these coordinates. */
  predicate NoExclusionEntries(infos: seq<ExtraInfo>, groupId: string, artifactId: string, classifier: Option<string>) {
    forall i :: 0 <= i < |infos| ==> !StartsWith(infos[i].name, ExclusionPrefix(groupId, artifactId, classifier))
  }

  /** The store holds none of the keys `addDependencyMgt` writes for `m`, so
      every write appends. */
  predicate Unwritten(infos: seq<ExtraInfo>, m: DependencyMgt) {
    && !HasName(infos, VersionKey(m.groupId, m.artifactId, m.classifier))
    && (m.scope.Some? ==> !HasName(infos, ScopeKey(m.groupId, m.artifactId, m.classifier)))
    && NoExclusionEntries(infos, m.groupId, m.artifactId, m.classifier)
  }

  /** Every excluded module's fields survive the `__` encoding. */
  predicate SafeExclusions(excluded: seq<ModuleId>) {
    forall k :: 0 <= k < |excluded| ==> UnderscoreSafe(excluded[k].org) && UnderscoreSafe(excluded[k].name)
  }

  /** The id the flat readers give a module written with these coordinates:
      the classifier always comes back as text. */
  function FlatId(groupId: string, artifactId: string, classifier: Option<string>): ClassifiedId {
    ClassifiedId(groupId, artifactId, Some(NullText(classifier)))
  }

  /** The content of the last entry `addDependencyMgt` writes for `m`. */
  function LastWritten(m: DependencyMgt): Option<string> {
    if |m.excluded| > 0 then Some(ExclusionContent(m.excluded[|m.excluded| - 1]))
    else if m.scope.Some? then m.scope
    else m.version
  }

  // ----- Keys -----

  lemma ExclusionKeyHasPrefix(groupId: string, artifactId: string, classifier: Option<string>, k: nat)
    ensures StartsWith(ExclusionKey(groupId, artifactId, classifier, k), ExclusionPrefix(groupId, artifactId, classifier))
    ensures StartsWith(ExclusionKey(groupId, artifactId, classifier, k), DependencyManagementTag)
  {
    StartsWithConcat(ExclusionPrefix(groupId, artifactId, classifier), NatToString(k));
    ExclusionKeyIsMgtKey(groupId, artifactId, classifier, k);
    MgtKeyTagged(groupId, artifactId, classifier, "exclusion_" + NatToString(k));
  }

  /** A name outside the management namespace cannot start with an exclusion prefix. */
  lemma UntaggedNotExclusion(name: string, groupId: string, artifactId: string, classifier: Option<string>)
    requires !StartsWith(name, DependencyManagementTag)
    ensures !StartsWith(name, ExclusionPrefix(groupId, artifactId, classifier))
  {
    MgtKeyTagged(groupId, artifactId, classifier, "exclusion_");
    if StartsWith(name, ExclusionPrefix(groupId, artifactId, classifier)) {
      StartsWithTransitive(name, ExclusionPrefix(groupId, artifactId, classifier), DependencyManagementTag);
    }
  }

  /** Every entry written for `m` is a five-part management entry naming `m`'s flat id. */
  lemma MgtEntriesIds(m: DependencyMgt)
    requires SafeCoordinates(m.groupId, m.artifactId, m.classifier)
    ensures forall i :: 0 <= i < |MgtEntries(m)| ==>
              MgtEntryId(MgtEntries(m)[i]) == Some(FlatId(m.groupId, m.artifactId, m.classifier))
  {
    var g, a, c := m.groupId, m.artifactId, m.classifier;
    var es := MgtEntries(m);
    var ex := ExclusionEntries(g, a, c, m.excluded);
    var head := MgtFieldEntries(m);
    FieldKeysDecode(g, a, c);
    MgtKeyTagged(g, a, c, "version");
    MgtKeyTagged(g, a, c, "scope");
    forall i | 0 <= i < |es|
      ensures MgtEntryId(es[i]) == Some(FlatId(g, a, c))
    {
      if i >= |head| {
        var k := i - |head|;
        assert es[i] == ex[k];
        ExclusionKeyDecodes(g, a, c, k);
        ExclusionKeyHasPrefix(g, a, c, k);
      }
    }
  }

  // ----- Shape of the store after the writes -----

  /** The next exclusion key is not yet in a store holding only the earlier
      exclusion entries and no other name under the exclusion prefix. */
  lemma {:induction false} ExclusionKeyFresh(infos: seq<ExtraInfo>, groupId: string, artifactId: string, classifier: Option<string>, excluded: seq<ModuleId>)
    requires NoExclusionEntries(infos, groupId, artifactId, classifier)
    ensures !HasName(infos + ExclusionEntries(groupId, artifactId, classifier, excluded), ExclusionKey(groupId, artifactId, classifier, |excluded|))
  {
    var n := |excluded|;
    var key := ExclusionKey(groupId, artifactId, classifier, n);
    var before := ExclusionEntries(groupId, artifactId, classifier, excluded);
    var all := infos + before;
    ExclusionKeyHasPrefix(groupId, artifactId, classifier, n);
    forall i | 0 <= i < |all|
      ensures all[i].name != key
    {
      if i >= |infos| {
        assert all[i] == before[i - |infos|];
        ExclusionKeysDistinct(groupId, artifactId, classifier, i - |infos|, n);
      } else {
        assert all[i] == infos[i];
      }
    }
  }

  lemma {:induction false} WriteExclusionsAppends(infos: seq<ExtraInfo>, groupId: string, artifactId: string, classifier: Option<string>, excluded: seq<ModuleId>)
    requires NoExclusionEntries(infos, groupId, artifactId, classifier)
    ensures WriteExclusions(infos, groupId, artifactId, classifier, excluded) ==
            infos + ExclusionEntries(groupId, artifactId, classifier, excluded)
    decreases |excluded|
  {
    if |excluded| > 0 {
      WriteExclusionsAppends(infos, groupId, artifactId, classifier, excluded[..|excluded| - 1]);
      WriteExclusionsStep(infos, groupId, artifactId, classifier, excluded);
    }
  }

  lemma {:induction false} WriteExclusionsStep(infos: seq<ExtraInfo>, groupId: string, artifactId: string, classifier: Option<string>, excluded: seq<ModuleId>)
    requires |excluded| > 0
    requires NoExclusionEntries(infos, groupId, artifactId, classifier)
    requires WriteExclusions(infos, groupId, artifactId, classifier, excluded[..|excluded| - 1]) ==
             infos + ExclusionEntries(groupId, artifactId, classifier, excluded[..|excluded| - 1])
    ensures WriteExclusions(infos, groupId, artifactId, classifier, excluded) ==
            infos + ExclusionEntries(groupId, artifactId, classifier, excluded)
  {
    var n := |excluded| - 1;
    var before := ExclusionEntries(groupId, artifactId, classifier, excluded[..n]);
    var key := ExclusionKey(groupId, artifactId, classifier, n);
    var e := ExtraInfo(key, Some(ExclusionContent(excluded[n])));
    var all := infos + before;
    ExclusionKeyFresh(infos, groupId, artifactId, classifier, excluded[..n]);
    assert WriteExclusions(infos, groupId, artifactId, classifier, excluded) == Overwrite(all, key, e.content);
    OverwriteAbsent(all, key, e.content);
    assert ExclusionEntries(groupId, artifactId, classifier, excluded) == before + [e];
    AppendAssoc(infos, before, [e]);
  }

  /** A store without management entries holds none of the keys written
      for any `m`. */
  lemma UntaggedUnwritten(infos: seq<ExtraInfo>, m: DependencyMgt)
    requires NoMgtNames(infos)
    ensures Unwritten(infos, m)
  {
    var g, a, c := m.groupId, m.artifactId, m.classifier;
    MgtKeyTagged(g, a, c, "version");
    MgtKeyTagged(g, a, c, "scope");
    UntaggedStoreLacks(infos, VersionKey(g, a, c));
    UntaggedStoreLacks(infos, ScopeKey(g, a, c));
    forall i | 0 <= i < |infos|
      ensures !StartsWith(infos[i].name, ExclusionPrefix(g, a, c))
    {
      UntaggedNotExclusion(infos[i].name, g, a, c);
    }
  }

  /** Overwriting a name outside the exclusion prefix adds no entry under it. */
  lemma OverwriteOutsidePrefix(infos: seq<ExtraInfo>, name: string, content: Option<string>,
                               groupId: string, artifactId: string, classifier: Option<string>)
    requires NoExclusionEntries(infos, groupId, artifactId, classifier)
    requires !StartsWith(name, ExclusionPrefix(groupId, artifactId, classifier))
    ensures NoExclusionEntries(Overwrite(infos, name, content), groupId, artifactId, classifier)
  {
    var r := Overwrite(infos, name, content);
    forall i | 0 <= i < |r|
      ensures !StartsWith(r[i].name, ExclusionPrefix(groupId, artifactId, classifier))
    {
      if i < |infos| {
        assert r[i].name == infos[i].name;
      }
    }
  }

  /** The field writes: the version always reads back, the scope reads back
      when one was written and is otherwise whatever the store held, no
      entry appears under the exclusion prefix, and on a store holding none
      of the keys the entries are appended. */
  lemma MgtFieldsWritten(infos: seq<ExtraInfo>, m: DependencyMgt)
    ensures ContentOf(WriteMgtFields(infos, m), VersionKey(m.groupId, m.artifactId, m.classifier)) == m.version
    ensures ContentOf(WriteMgtFields(infos, m), ScopeKey(m.groupId, m.artifactId, m.classifier)) ==
              if m.scope.Some? then m.scope else ContentOf(infos, ScopeKey(m.groupId, m.artifactId, m.classifier))
    ensures NoExclusionEntries(infos, m.groupId, m.artifactId, m.classifier) ==>
              NoExclusionEntries(WriteMgtFields(infos, m), m.groupId, m.artifactId, m.classifier)
    ensures Unwritten(infos, m) ==> WriteMgtFields(infos, m) == infos + MgtFieldEntries(m)
  {
    var g, a, c := m.groupId, m.artifactId, m.classifier;
    var v := ExtraInfo(VersionKey(g, a, c), m.version);
    var s := ExtraInfo(ScopeKey(g, a, c), m.scope);
    MgtKeysDistinct(g, a, c);
    var w1 := Overwrite(infos, v.name, v.content);
    if NoExclusionEntries(infos, g, a, c) {
      OverwriteOutsidePrefix(infos, v.name, v.content, g, a, c);
      if m.scope.Some? {
        OverwriteOutsidePrefix(w1, s.name, s.content, g, a, c);
      }
    }
    if Unwritten(infos, m) {
      OverwriteAbsent(infos, v.name, v.content);
      if m.scope.Some? {
        HasNameConcat(infos, [v], s.name);
        assert !HasName([v], s.name);
        OverwriteAbsent(infos + [v], s.name, s.content);
        AppendTwo(infos, v, s);
      }
    }
  }

  /** The exclusion writes leave every name outside the exclusion prefix
      reading as before. */
  lemma {:induction false} WriteExclusionsKeeps(infos: seq<ExtraInfo>, groupId: string, artifactId: string, classifier: Option<string>,
                                                excluded: seq<ModuleId>, name: string)
    requires !StartsWith(name, ExclusionPrefix(groupId, artifactId, classifier))
    ensures ContentOf(WriteExclusions(infos, groupId, artifactId, classifier, excluded), name) == ContentOf(infos, name)
    decreases |excluded|
  {
    if |excluded| > 0 {
      var n := |excluded| - 1;
      WriteExclusionsKeeps(infos, groupId, artifactId, classifier, excluded[..n], name);
      ExclusionKeyHasPrefix(groupId, artifactId, classifier, n);
    }
  }

  /** On a store holding none of `m`'s keys, `addDependencyMgt`'s writes
      append exactly the entries for `m`, in order. */
  lemma WriteMgtInfosAppends(infos: seq<ExtraInfo>, m: DependencyMgt)
    requires Unwritten(infos, m)
    ensures WriteMgtInfos(infos, m) == infos + MgtEntries(m)
  {
    var g, a, c := m.groupId, m.artifactId, m.classifier;
    MgtFieldsWritten(infos, m);
    WriteExclusionsAppends(WriteMgtFields(infos, m), g, a, c, m.excluded);
    AppendAssoc(infos, MgtFieldEntries(m), ExclusionEntries(g, a, c, m.excluded));
  }
  // ----- The exclusion scan -----

  lemma {:induction false} ScanNoMatch(infos: seq<ExtraInfo>, prefix: string)
    requires forall i :: 0 <= i < |infos| ==> !StartsWith(infos[i].name, prefix)
    ensures ScanExclusions(infos, prefix) == Ok([])
    decreases |infos|
  {
    if |infos| > 0 {
      ScanNoMatch(infos[..|infos| - 1], prefix);
    }
  }

  lemma {:induction false} ScanAppend(a: seq<ExtraInfo>, b: seq<ExtraInfo>, prefix: string)
    requires ScanExclusions(a, prefix).Ok?
    ensures ScanExclusions(a + b, prefix) ==
            if ScanExclusions(b, prefix).Ok? then Ok(ScanExclusions(a, prefix).value + ScanExclusions(b, prefix).value)
            else ScanExclusions(b, prefix)
    decreases |b|
  {
    if |b| == 0 {
      assert a + b == a;
      assert ScanExclusions(a, prefix).value + [] == ScanExclusions(a, prefix).value;
    } else {
      var init := b[..|b| - 1];
      assert (a + b)[..|a + b| - 1] == a + init;
      assert (a + b)[|a + b| - 1] == b[|b| - 1];
      ScanAppend(a, init, prefix);
      if ScanExclusions(init, prefix).Ok? {
        var xs := ScanExclusions(a, prefix).value;
        var ys := ScanExclusions(init, prefix).value;
        assert forall z :: xs + ys + [z] == xs + (ys + [z]);
      }
    }
  }

  /** A prefix that contributes nothing leaves the scan of the rest unchanged. */
  lemma ScanAfterNoMatch(a: seq<ExtraInfo>, b: seq<ExtraInfo>, prefix: string)
    requires ScanExclusions(a, prefix) == Ok([])
    ensures ScanExclusions(a + b, prefix) == ScanExclusions(b, prefix)
  {
    ScanAppend(a, b, prefix);
    if ScanExclusions(b, prefix).Ok? {
      assert [] + ScanExclusions(b, prefix).value == ScanExclusions(b, prefix).value;
    }
  }

  /** One more matching entry adds the module its content names. */
  lemma ScanSnoc(infos: seq<ExtraInfo>, e: ExtraInfo, prefix: string, m: ModuleId)
    requires ScanExclusions(infos, prefix).Ok?
    requires StartsWith(e.name, prefix) && e.content.Some? && DecodeExclusion(e.content.value) == Some(m)
    ensures ScanExclusions(infos + [e], prefix) == Ok(ScanExclusions(infos, prefix).value + [m])
  {
    assert (infos + [e])[..|infos|] == infos;
  }

  lemma {:induction false} ScanExclusionEntries(groupId: string, artifactId: string, classifier: Option<string>, excluded: seq<ModuleId>)
    requires SafeExclusions(excluded)
    ensures ScanExclusions(ExclusionEntries(groupId, artifactId, classifier, excluded), ExclusionPrefix(groupId, artifactId, classifier)) == Ok(excluded)
    decreases |excluded|
  {
    if |excluded| > 0 {
      var n := |excluded| - 1;
      var prefix := ExclusionPrefix(groupId, artifactId, classifier);
      var before := ExclusionEntries(groupId, artifactId, classifier, excluded[..n]);
      var e := ExtraInfo(ExclusionKey(groupId, artifactId, classifier, n), Some(ExclusionContent(excluded[n])));
      assert ExclusionEntries(groupId, artifactId, classifier, excluded) == before + [e];
      ScanExclusionEntries(groupId, artifactId, classifier, excluded[..n]);
      assert StartsWith(e.name, prefix) && DecodeExclusion(e.content.value) == Some(excluded[n]) by {
        ExclusionKeyHasPrefix(groupId, artifactId, classifier, n);
        ExclusionRoundTrip(excluded[n]);
      }
      ScanSnoc(before, e, prefix, excluded[n]);
      TakeSnoc(excluded);
    }
  }

  // ----- The round trip, reader by reader -----

  /** The version written reads back, whatever the store held. */
  lemma VersionReadBack(infos: seq<ExtraInfo>, m: DependencyMgt)
    ensures ContentOf(WriteMgtInfos(infos, m), VersionKey(m.groupId, m.artifactId, m.classifier)) == m.version
  {
    MgtFieldsWritten(infos, m);
    MgtKeysDistinct(m.groupId, m.artifactId, m.classifier);
    WriteExclusionsKeeps(WriteMgtFields(infos, m), m.groupId, m.artifactId, m.classifier, m.excluded,
                         VersionKey(m.groupId, m.artifactId, m.classifier));
  }

  /** A scope written reads back; without one, the scope key reads as before. */
  lemma ScopeReadBack(infos: seq<ExtraInfo>, m: DependencyMgt)
    ensures ContentOf(WriteMgtInfos(infos, m), ScopeKey(m.groupId, m.artifactId, m.classifier)) ==
              if m.scope.Some? then m.scope else ContentOf(infos, ScopeKey(m.groupId, m.artifactId, m.classifier))
  {
    MgtFieldsWritten(infos, m);
    MgtKeysDistinct(m.groupId, m.artifactId, m.classifier);
    WriteExclusionsKeeps(WriteMgtFields(infos, m), m.groupId, m.artifactId, m.classifier, m.excluded,
                         ScopeKey(m.groupId, m.artifactId, m.classifier));
  }

  /** The exclusions written read back, in order, when no other entry sat
      under the module's exclusion prefix. */
  lemma ExclusionsReadBack(infos: seq<ExtraInfo>, m: DependencyMgt)
    requires NoExclusionEntries(infos, m.groupId, m.artifactId, m.classifier)
    requires SafeExclusions(m.excluded)
    ensures Exclusions(GenericView(WriteMgtInfos(infos, m)), m.groupId, m.artifactId, m.classifier) == Ok(m.excluded)
  {
    var g, a, c := m.groupId, m.artifactId, m.classifier;
    var prefix := ExclusionPrefix(g, a, c);
    var fields := WriteMgtFields(infos, m);
    MgtFieldsWritten(infos, m);
    WriteExclusionsAppends(fields, g, a, c, m.excluded);
    ScanNoMatch(fields, prefix);
    ScanExclusionEntries(g, a, c, m.excluded);
    ScanAfterNoMatch(fields, ExclusionEntries(g, a, c, m.excluded), prefix);
  }

  /** The record the flat readers rebuild for `m` after its writes: version
      and exclusions as written, the scope as written or else as the store
      held it, and no classifier. */
  function WrittenRecord(infos: seq<ExtraInfo>, m: DependencyMgt): DependencyMgt {
    var scope := if m.scope.Some? then m.scope else ContentOf(infos, ScopeKey(m.groupId, m.artifactId, m.classifier));
    DependencyMgt(m.groupId, m.artifactId, m.version, scope, None, m.excluded)
  }

  lemma LastEntryWritten(m: DependencyMgt)
    ensures |MgtEntries(m)| > 0
    ensures MgtEntries(m)[|MgtEntries(m)| - 1].content == LastWritten(m)
  {
  }

  /** The keys rebuilt from a flat id are the keys written. */
  lemma FlatIdKeys(groupId: string, artifactId: string, classifier: Option<string>)
    ensures VersionKey(groupId, artifactId, Some(NullText(classifier))) == VersionKey(groupId, artifactId, classifier)
    ensures ScopeKey(groupId, artifactId, Some(NullText(classifier))) == ScopeKey(groupId, artifactId, classifier)
    ensures ExclusionPrefix(groupId, artifactId, Some(NullText(classifier))) == ExclusionPrefix(groupId, artifactId, classifier)
  {
  }

  /** Read under the module's flat id, the store after the writes gives the
      written record. */
  lemma FlatRecordReadBack(infos: seq<ExtraInfo>, m: DependencyMgt)
    requires NoExclusionEntries(infos, m.groupId, m.artifactId, m.classifier)
    requires SafeExclusions(m.excluded)
    ensures FlatRecord(WriteMgtInfos(infos, m), FlatId(m.groupId, m.artifactId, m.classifier)) == Ok(WrittenRecord(infos, m))
  {
    FlatIdKeys(m.groupId, m.artifactId, m.classifier);
    VersionReadBack(infos, m);
    ScopeReadBack(infos, m);
    ExclusionsReadBack(infos, m);
  }

  /** In the store after the writes, the old entries come first and every
      later one names the module's flat id. */
  lemma WrittenEntriesKeyed(infos: seq<ExtraInfo>, m: DependencyMgt)
    requires Unwritten(infos, m)
    requires SafeCoordinates(m.groupId, m.artifactId, m.classifier)
    ensures |infos| < |WriteMgtInfos(infos, m)|
    ensures WriteMgtInfos(infos, m)[..|infos|] == infos[..|infos|]
    ensures forall i :: |infos| <= i < |WriteMgtInfos(infos, m)| ==>
              MgtEntryId(WriteMgtInfos(infos, m)[i]) == Some(FlatId(m.groupId, m.artifactId, m.classifier))
  {
    var es := MgtEntries(m);
    var all := WriteMgtInfos(infos, m);
    var id := FlatId(m.groupId, m.artifactId, m.classifier);
    assert all == infos + es by {
      WriteMgtInfosAppends(infos, m);
    }
    assert all[..|infos|] == infos;
    assert forall i :: |infos| <= i < |infos + es| ==> MgtEntryId((infos + es)[i]) == Some(id) by {
      MgtEntriesIds(m);
      KeyedSuffix(infos, es, MgtEntryId, id);
    }
  }

  /** The store after the writes has one more entry per field and
      exclusion written, and ends with the last one written. */
  lemma WrittenEntriesLast(infos: seq<ExtraInfo>, m: DependencyMgt)
    requires Unwritten(infos, m)
    ensures |WriteMgtInfos(infos, m)| == |infos| + 1 + (if m.scope.Some? then 1 else 0) + |m.excluded|
    ensures WriteMgtInfos(infos, m)[|WriteMgtInfos(infos, m)| - 1].content == LastWritten(m)
  {
    var es := MgtEntries(m);
    var all := WriteMgtInfos(infos, m);
    assert all == infos + es by {
      WriteMgtInfosAppends(infos, m);
    }
    LastEntryWritten(m);
    assert all[|all| - 1] == es[|es| - 1];
  }

  /** The flat map after `addDependencyMgt` maps the module's flat id to the
      content of the last entry written for it (an exclusion, else the scope,
      else the version; not necessarily its version), and every other id as
      before. */
  lemma MgtMapRoundTrip(infos: seq<ExtraInfo>, m: DependencyMgt)
    requires Unwritten(infos, m)
    requires SafeCoordinates(m.groupId, m.artifactId, m.classifier)
    ensures DependencyManagementMap(GenericView(WriteMgtInfos(infos, m))) ==
            DependencyManagementMap(GenericView(infos))[FlatId(m.groupId, m.artifactId, m.classifier) := LastWritten(m)]
  {
    var all := WriteMgtInfos(infos, m);
    var id := FlatId(m.groupId, m.artifactId, m.classifier);
    assert FlatMgtMap(all) == FlatMgtMap(infos)[id := EntryContent(all[|all| - 1])] by {
      WrittenEntriesKeyed(infos, m);
      LastValuesAppended(infos, all, MgtEntryId, EntryContent, id);
    }
    WrittenEntriesLast(infos, m);
    assert DependencyManagementMap(GenericView(all)) == FlatMgtMap(all);
    assert DependencyManagementMap(GenericView(infos)) == FlatMgtMap(infos);
  }

  /** The flat record list after `addDependencyMgt` is the list the old
      entries give, read from the new store, followed by one written record
      per entry written. */
  lemma MgtRecordsRoundTrip(infos: seq<ExtraInfo>, m: DependencyMgt)
    requires Unwritten(infos, m)
    requires SafeCoordinates(m.groupId, m.artifactId, m.classifier)
    requires SafeExclusions(m.excluded)
    ensures DependencyManagements(GenericView(WriteMgtInfos(infos, m))) ==
            AppendOk(FlatRecords(WriteMgtInfos(infos, m), |infos|),
                     Repeat(WrittenRecord(infos, m), 1 + (if m.scope.Some? then 1 else 0) + |m.excluded|))
  {
    var all := WriteMgtInfos(infos, m);
    var id := FlatId(m.groupId, m.artifactId, m.classifier);
    WrittenEntriesKeyed(infos, m);
    WrittenEntriesLast(infos, m);
    FlatRecordReadBack(infos, m);
    assert RecordOf(all)(id) == Ok(WrittenRecord(infos, m));
    ResultsRun(all, |infos|, |all|, MgtEntryId, RecordOf(all), id, WrittenRecord(infos, m));
  }

  /** On a store without management entries the flat record list is exactly
      one record of `m`, as written, per entry written. */
  lemma MgtRecordsFresh(infos: seq<ExtraInfo>, m: DependencyMgt)
    requires NoMgtNames(infos)
    requires SafeCoordinates(m.groupId, m.artifactId, m.classifier)
    requires SafeExclusions(m.excluded)
    ensures DependencyManagements(GenericView(WriteMgtInfos(infos, m))) ==
            Ok(Repeat(DependencyMgt(m.groupId, m.artifactId, m.version, m.scope, None, m.excluded),
                      1 + (if m.scope.Some? then 1 else 0) + |m.excluded|))
  {
    var all := WriteMgtInfos(infos, m);
    var rec := DependencyMgt(m.groupId, m.artifactId, m.version, m.scope, None, m.excluded);
    var n := 1 + (if m.scope.Some? then 1 else 0) + |m.excluded|;
    assert Unwritten(infos, m) by {
      UntaggedUnwritten(infos, m);
    }
    MgtRecordsRoundTrip(infos, m);
    assert FlatRecords(all, |infos|) == Ok([]) by {
      WrittenEntriesKeyed(infos, m);
      forall i | 0 <= i < |infos|
        ensures MgtEntryId(all[i]).None?
      {
        assert all[i] == all[..|infos|][i];
      }
      ResultsNone(all, |infos|, MgtEntryId, RecordOf(all));
    }
    assert WrittenRecord(infos, m) == rec by {
      MgtKeyTagged(m.groupId, m.artifactId, m.classifier, "scope");
      UntaggedStoreLacks(infos, ScopeKey(m.groupId, m.artifactId, m.classifier));
      FindNone(infos, ScopeKey(m.groupId, m.artifactId, m.classifier));
    }
    assert [] + Repeat(rec, n) == Repeat(rec, n);
  }

  /** The defaults a later dependency declaration of the same coordinates
      gets when the descriptor has no management record for it: the version
      written, and the scope written (or else the one the store held), each
      through the flat entries. */
  lemma StoredDefaults(mgts: seq<DependencyMgt>, infos: seq<ExtraInfo>, m: DependencyMgt, dep: DependencyData)
    requires dep.groupId == m.groupId && dep.artifactId == m.artifactId && dep.classifier == m.classifier
    requires MgtLookup(mgts, dep.Id()).None?
    ensures DefaultVersion(mgts, WriteMgtInfos(infos, m), dep) == m.version
    ensures var scope := WrittenRecord(infos, m).scope;
            DefaultScope(mgts, WriteMgtInfos(infos, m), dep) ==
              if scope.Some? && IsMappedScope(scope.value) then scope.value else "compile"
  {
    VersionReadBack(infos, m);
    ScopeReadBack(infos, m);
  }

  /** The flat round trip of `addDependencyMgt`, all readers together. */
  lemma MgtFlatRoundTrip(infos: seq<ExtraInfo>, m: DependencyMgt)
    requires Unwritten(infos, m)
    requires SafeCoordinates(m.groupId, m.artifactId, m.classifier)
    requires SafeExclusions(m.excluded)
    ensures ContentOf(WriteMgtInfos(infos, m), VersionKey(m.groupId, m.artifactId, m.classifier)) == m.version
    ensures ContentOf(WriteMgtInfos(infos, m), ScopeKey(m.groupId, m.artifactId, m.classifier)) == WrittenRecord(infos, m).scope
    ensures Exclusions(GenericView(WriteMgtInfos(infos, m)), m.groupId, m.artifactId, m.classifier) == Ok(m.excluded)
    ensures DependencyManagementMap(GenericView(WriteMgtInfos(infos, m))) ==
            DependencyManagementMap(GenericView(infos))[FlatId(m.groupId, m.artifactId, m.classifier) := LastWritten(m)]
    ensures DependencyManagements(GenericView(WriteMgtInfos(infos, m))) ==
            AppendOk(FlatRecords(WriteMgtInfos(infos, m), |infos|),
                     Repeat(WrittenRecord(infos, m), 1 + (if m.scope.Some? then 1 else 0) + |m.excluded|))
  {
    VersionReadBack(infos, m);
    ScopeReadBack(infos, m);
    ExclusionsReadBack(infos, m);
    MgtMapRoundTrip(infos, m);
    MgtRecordsRoundTrip(infos, m);
  }
}

=== FILE: pom_types.dfy ===
/** The values the builder works with: module coordinates, the dependency
    and dependency-management records a POM parser hands over, artifacts,
    dependency descriptors, and the module descriptor under construction. */
module PomTypes {
  import opened Lang
  import opened ExtraInfos

  /** An organisation and module name (`ModuleId`). */
  datatype ModuleId = ModuleId(org: string, name: string)

  /** Coordinates with a possibly-`null` revision (`ModuleRevisionId`). */
  datatype RevisionId = RevisionId(org: string, name: string, revision: Option<string>) {
    function Module(): ModuleId {
      ModuleId(org, name)
    }
  }

  /** Group, artifact and possibly-`null` classifier (`ClassifiedModuleId`):
      the key of dependency management. */
  datatype ClassifiedId = ClassifiedId(group: string, artifact: string, classifier: Option<string>)

  /** A `<dependency>` element as the POM reader delivers it (`PomDependencyData`). */
  datatype DependencyData = DependencyData(
    groupId: string,
    artifactId: string,
    version: Option<string>,
    scope: Option<string>,
    classifier: Option<string>,
    depType: Option<string>,
    optional: bool,
    excluded: seq<ModuleId>)
  {
    function Id(): ClassifiedId {
      ClassifiedId(groupId, artifactId, classifier)
    }
  }

  /** A `<dependencyManagement>` entry or a plugin (`PomDependencyMgt`). */
  datatype DependencyMgt = DependencyMgt(
    groupId: string,
    artifactId: string,
    version: Option<string>,
    scope: Option<string>,
    classifier: Option<string>,
    excluded: seq<ModuleId>)
  {
    function Id(): ClassifiedId {
      ClassifiedId(groupId, artifactId, classifier)
    }
  }

  /** The extra attribute that carries a Maven classifier. */
  const ClassifierAttribute := "m:classifier"

  /** An artifact the module itself publishes. */
  datatype Artifact = Artifact(name: string, artType: string, ext: string, extra: map<string, string>)

  /** An artifact published in configuration `conf` of the module. */
  datatype ConfArtifact = ConfArtifact(conf: string, artifact: Artifact)

  /** A `DependencyArtifactDescriptor`: an artifact of the dependency, with
      the configurations it was attached to itself. */
  datatype DepArtifact = DepArtifact(name: string, artType: string, ext: string, extra: map<string, string>, confs: seq<string>)

  /** A dependency artifact registered under module configuration `conf`. */
  datatype DepArtifactEntry = DepArtifactEntry(conf: string, artifact: DepArtifact)

  /** An exact-match rule excluding every artifact of `target` in `conf`. */
  datatype ExcludeRule = ExcludeRule(conf: string, target: ModuleId)

  /** The dependency configurations mapped from one module configuration. */
  datatype ConfEntry = ConfEntry(owner: string, depConfs: seq<string>)

  /** A dependency descriptor. `builderOwned` says whether the builder may
      augment it in place (it is a `DefaultDependencyDescriptor`); `origin`
      is the declaration a POM dependency descriptor was made from. */
  datatype DepDescriptor = DepDescriptor(
    revision: RevisionId,
    transitive: bool,
    builderOwned: bool,
    origin: Option<DependencyData>,
    confs: seq<ConfEntry>,
    artifacts: seq<DepArtifactEntry>,
    excludes: seq<ExcludeRule>)

  /** A version-override rule for transitive requests of `target`. */
  datatype Mediator = Mediator(target: ModuleId, version: Option<string>)

  /** The `PomModuleDescriptor` under construction. Its ten configurations
      are the constant `Confs.Maven2Configurations`. `dependencies` lists the
      dependency descriptors in registration order; the last one with a given
      revision id is the one the revision-id index points at. `mgts` holds
      the dependency-management records in first-insertion order of their
      classified id. */
  datatype Descriptor = Descriptor(
    revision: Option<RevisionId>,
    status: Option<string>,
    dependencies: seq<DepDescriptor>,
    mgts: seq<DependencyMgt>,
    infos: seq<ExtraInfo>,
    artifacts: seq<ConfArtifact>,
    mediators: seq<Mediator>)

  /** The builder: the descriptor and the main artifact, once added. */
  datatype Builder = Builder(md: Descriptor, mainArtifact: Option<Artifact>)
}

=== FILE: text.dfy ===
/** The string operations the builder relies on: prefix and suffix tests,
    Java's `String.split` with a literal delimiter, joining with a delimiter,
    and the decimal rendering of an index. The round-trip lemmas say when a
    joined string splits back into the pieces it was made of. */
module Text {
  import opened Lang

  predicate StartsWith(s: string, prefix: string) {
    |prefix| <= |s| && s[..|prefix|] == prefix
  }

  predicate EndsWith(s: string, suffix: string) {
    |suffix| <= |s| && s[|s| - |suffix|..] == suffix
  }

  lemma StartsWithTransitive(s: string, p: string, q: string)
    requires StartsWith(s, p) && StartsWith(p, q)
    ensures StartsWith(s, q)
  {
    assert s[..|q|] == s[..|p|][..|q|];
  }

  lemma StartsWithConcat(p: string, t: string)
    ensures StartsWith(p + t, p)
  {
    assert (p + t)[..|p|] == p;
  }

  /** `d` occurs in `s` at position `j`. */
  predicate OccursAt(s: string, d: string, j: int) {
    0 <= j && j + |d| <= |s| && s[j..j + |d|] == d
  }

  /** The first position at or after `k` where `d` occurs in `s`, found by a
      left-to-right scan (`String.indexOf(d, k)`, `None` for -1). */
  function IndexFrom(s: string, d: string, k: nat): (r: Option<nat>)
    decreases |s| - k
    ensures r.Some? ==> k <= r.value && OccursAt(s, d, r.value)
    ensures r.Some? ==> forall j :: k <= j < r.value ==> !OccursAt(s, d, j)
    ensures r.None? ==> forall j :: k <= j ==> !OccursAt(s, d, j)
  {
    if k + |d| > |s| then None
    else if s[k..k + |d|] == d then Some(k)
    else IndexFrom(s, d, k + 1)
  }

  /** The first occurrence is unique: any occurrence with none before it is the one found. */
  lemma FirstOccurrence(s: string, d: string, k: nat, i: nat)
    requires k <= i && OccursAt(s, d, i)
    requires forall j :: k <= j < i ==> !OccursAt(s, d, j)
    ensures IndexFrom(s, d, k) == Some(i)
  {
  }

  /** Text appended after the first occurrence does not move it. */
  lemma IndexFromExtend(s: string, t: string, d: string, i: nat)
    requires IndexFrom(s, d, 0) == Some(i)
    ensures IndexFrom(s + t, d, 0) == Some(i)
  {
    assert (s + t)[i..i + |d|] == s[i..i + |d|];
    forall j | 0 <= j < i
      ensures !OccursAt(s + t, d, j)
    {
      assert !OccursAt(s, d, j);
      assert (s + t)[j..j + |d|] == s[j..j + |d|];
    }
    FirstOccurrence(s + t, d, 0, i);
  }

  function Join(parts: seq<string>, d: string): string
    decreases |parts|
  {
    if |parts| == 0 then ""
    else if |parts| == 1 then parts[0]
    else parts[0] + d + Join(parts[1..], d)
  }

  /** Cuts `s` at every occurrence of `d` met by a left-to-right scan,
      keeping empty pieces; joining the pieces back gives `s`. */
  function Split(s: string, d: string): (parts: seq<string>)
    requires |d| > 0
    decreases |s|
    ensures |parts| > 0
    ensures Join(parts, d) == s
  {
    match IndexFrom(s, d, 0)
    case None => [s]
    case Some(i) =>
      var rest := Split(s[i + |d|..], d);
      assert ([s[..i]] + rest)[1..] == rest;
      assert s == s[..i] + s[i..i + |d|] + s[i + |d|..];
      [s[..i]] + rest
  }

  /** `parts` without its trailing empty strings. */
  function DropTrailingEmpty(parts: seq<string>): (r: seq<string>)
    ensures |r| <= |parts| && r == parts[..|r|]
    ensures |r| > 0 ==> r[|r| - 1] != ""
    ensures forall i :: |r| <= i < |parts| ==> parts[i] == ""
  {
    if |parts| == 0 then []
    else if parts[|parts| - 1] == "" then DropTrailingEmpty(parts[..|parts| - 1])
    else parts
  }

  /** Java's `s.split(d)` for a delimiter with no regular-expression
      metacharacters: without a match the whole string comes back; otherwise
      the pieces of a left-to-right scan, trailing empty pieces removed. */
  function JavaSplit(s: string, d: string): seq<string>
    requires |d| > 0
  {
    if IndexFrom(s, d, 0).None? then [s] else DropTrailingEmpty(Split(s, d))
  }

  /** `f` can stand in front of `d` in a joined string without the scan
      finding `d` earlier: it is non-empty and the first `d` of `f + d` is
      the appended one. */
  predicate Separable(f: string, d: string) {
    |f| > 0 && IndexFrom(f + d, d, 0) == Some(|f|)
  }

  lemma SeparableHasNoDelimiter(f: string, d: string)
    requires Separable(f, d)
    ensures IndexFrom(f, d, 0).None?
  {
    var r := IndexFrom(f, d, 0);
    if r.Some? {
      var j := r.value;
      assert (f + d)[j..j + |d|] == f[j..j + |d|];
      assert OccursAt(f + d, d, j);
      assert false;
    }
  }

  /** Splitting a join of separable pieces gives the pieces back. */
  lemma {:induction false} SplitJoin(parts: seq<string>, d: string)
    requires |d| > 0 && |parts| > 0
    requires forall i :: 0 <= i < |parts| ==> Separable(parts[i], d)
    ensures Split(Join(parts, d), d) == parts
    decreases |parts|
  {
    if |parts| == 1 {
      SeparableHasNoDelimiter(parts[0], d);
    } else {
      var p := parts[0];
      var rest := Join(parts[1..], d);
      var s := p + d + rest;
      assert Join(parts, d) == s;
      IndexFromExtend(p + d, rest, d, |p|);
      assert s[..|p|] == p;
      assert s[|p| + |d|..] == rest;
      SplitJoin(parts[1..], d);
      assert [p] + parts[1..] == parts;
    }
  }

  /** Java's split of a join of separable pieces gives the pieces back. */
  lemma JavaSplitJoin(parts: seq<string>, d: string)
    requires |d| > 0 && |parts| > 0
    requires forall i :: 0 <= i < |parts| ==> Separable(parts[i], d)
    ensures JavaSplit(Join(parts, d), d) == parts
  {
    SplitJoin(parts, d);
    if |parts| == 1 {
      SeparableHasNoDelimiter(parts[0], d);
    } else {
      var p := parts[0];
      var rest := Join(parts[1..], d);
      IndexFromExtend(p + d, rest, d, |p|);
      assert Join(parts, d) == (p + d) + rest;
    }
  }

  /** A field that survives a round trip through `__`-joined text: it is
      non-empty, holds no `__` and does not end with `_`. */
  predicate UnderscoreSafe(f: string) {
    && |f| > 0
    && f[|f| - 1] != '_'
    && forall i :: 0 <= i < |f| - 1 ==> !(f[i] == '_' && f[i + 1] == '_')
  }

  lemma UnderscoreSafeSeparable(f: string)
    requires UnderscoreSafe(f)
    ensures Separable(f, "__")
  {
    var s := f + "__";
    assert s[|f|..|f| + 2] == "__";
    forall j | 0 <= j < |f|
      ensures !OccursAt(s, "__", j)
    {
      if j + 1 < |f| {
        assert s[j..j + 2] == [f[j], f[j + 1]];
      } else {
        assert s[j..j + 2] == [f[j], '_'];
      }
    }
    FirstOccurrence(s, "__", 0, |f|);
  }

  /** A field that survives a round trip through `|`-joined text. */
  predicate BarSafe(f: string) {
    |f| > 0 && '|' !in f
  }

  lemma BarSafeSeparable(f: string)
    requires BarSafe(f)
    ensures Separable(f, "|")
  {
    var s := f + "|";
    assert s[|f|..|f| + 1] == "|";
    forall j | 0 <= j < |f|
      ensures !OccursAt(s, "|", j)
    {
      assert s[j..j + 1] == [f[j]];
    }
    FirstOccurrence(s, "|", 0, |f|);
  }

  /** Splitting on `__` gives back fields joined with `__`. */
  lemma UnderscoreSplitJoin(parts: seq<string>)
    requires |parts| > 0
    requires forall i :: 0 <= i < |parts| ==> UnderscoreSafe(parts[i])
    ensures JavaSplit(Join(parts, "__"), "__") == parts
  {
    forall i | 0 <= i < |parts|
      ensures Separable(parts[i], "__")
    {
      UnderscoreSafeSeparable(parts[i]);
    }
    JavaSplitJoin(parts, "__");
  }

  /** The delimiter ambiguity the encoding leaves open: a field ending in
      `_` does not come back from a `__` split. */
  lemma TrailingUnderscoreAmbiguity()
    ensures Join(["a_", "b"], "__") == "a___b"
    ensures JavaSplit("a___b", "__") == ["a", "_b"]
  {
    var s := "a___b";
    assert s[1..3] == "__";
    assert s[0..2][0] == 'a';
    FirstOccurrence(s, "__", 0, 1);
    var t := s[3..];
    assert t == "_b";
    assert t[0..2] != "__" by {
      assert t[0..2][1] == 'b';
    }
    assert IndexFrom(t, "__", 1).None?;
    assert IndexFrom(t, "__", 0).None?;
    assert s[..1] == "a";
    assert Split(s, "__") == ["a"] + Split(t, "__");
    assert Split(s, "__") == ["a", "_b"];
  }

  function DigitChar(n: nat): (c: char)
    requires n < 10
    ensures '0' <= c <= '9'
  {
    (48 + n) as char
  }

  /** The decimal rendering of `n` (`String.valueOf(int)` for a non-negative value). */
  function NatToString(n: nat): (s: string)
    ensures |s| > 0
    ensures n >= 10 ==> |s| >= 2
    ensures forall i :: 0 <= i < |s| ==> '0' <= s[i] <= '9'
  {
    if n < 10 then [DigitChar(n)] else NatToString(n / 10) + [DigitChar(n % 10)]
  }

  /** Distinct indices render differently. */
  lemma {:induction false} NatToStringInjective(m: nat, n: nat)
    requires NatToString(m) == NatToString(n)
    ensures m == n
    decreases m
  {
    var s := NatToString(m);
    if m >= 10 && n >= 10 {
      assert s[|s| - 1] == DigitChar(m % 10) == DigitChar(n % 10);
      assert s[..|s| - 1] == NatToString(m / 10);
      assert NatToString(n)[..|s| - 1] == NatToString(n / 10);
      NatToStringInjective(m / 10, n / 10);
    }
  }
}
